=== FILE: README.md ===
# Tournament front end: a Dafny model of its pure core

The system is a React front end for football tournaments. It shows league tables, match lists with a per-match detail view, player and team statistics, a list of tournaments with search and sorting, and a bottom navigation. It also takes its theme from a brand configuration and offers a PWA install prompt.

This project models the pure logic inside those components and services, one Dafny module per source file:

- `BrandConfig`: the CSS custom properties a colour palette produces, the reading of `hsl` strings back into RGB to choose a readable foreground, and the rewriting of relative asset paths.
- `MatchesTable`, `MatchDetails`: sorting matches by date, grouping them by matchday, merging goals and events into one timeline, and the score-or-`vs` rule and status labels.
- `TournamentService`: mapping API records onto the domain records, and the status and format normalisers.
- `StandingsTable`, `StatisticsTable`, `PlayersTable`, `HomePage`, `TeamsGrid`: table sorting with its sort toggle, the fair-play and defence aggregations, and the search filters.
- `LibUtils`, `TeamAvatar`, `TeamMembers`, `BottomNav`, `TournamentCard`, `ApiHelpers`: small helpers, namely grouping, truncation, initials, age, route parsing and URL building.
- `MockData`: the sample data set, its lookups and `getTopScorers`.
- `Pwa`: the install-prompt provider as an event-driven state machine.

Shared definitions:

- `Wrappers`: `Option`.
- `Text`: string helpers following the index clamping of JavaScript's `slice` and the cutting of `split`, and decimal printing.
- `Sorting`: a stable sort by a real-valued key, plus `filter`. This is how every JavaScript `sort` with a numeric comparator is modelled: the engine's sort is stable, so its output is determined.
- `Domain`: the entity records of the type declarations.

Things the code takes from its environment are parameters:

- `localeCompare` is a collation rank `rank: string -> int`.
- `toLowerCase`/`toUpperCase` is a per-character map `fold: char -> char`.
- Today's date is a `CalendarDate`, and match dates are integer timestamps.
- `Date` parsing is `parseDate: string -> int` and `getFullYear` is `yearOf`.
- The `pow(x, 2.4)` of the luminance is `gamma: real -> real`.
- `URLSearchParams` encoding is `encode: string -> string`.
- In the install prompt, whether the page runs on a development host and whether it starts standalone are booleans.
- Floating-point numbers are reals.
- Strings are sequences of Unicode scalar values (Dafny's `char`). JavaScript measures and indexes strings in UTF-16 code units. The two agree on text within the Basic Multilingual Plane; the members that measure or cut text say under "Left out" what differs outside it.

## Model

| member | source | states |
|---|---|---|
| LibUtils.GoalDifference | src/lib/utils.ts:23-25 | the difference added back to the goals against gives the goals for, and it is positive exactly when more goals were scored than conceded |
| LibUtils.Points | src/lib/utils.ts:27-29 | points less draws is three per win; with non-negative counts the total is non-negative and at least the number of wins |
| LibUtils.PointsIncrements | src/lib/utils.ts:27-29 | one more win adds three points and one more draw adds one |
| LibUtils.FormColor | src/lib/utils.ts:31-42 | W, D and L each get their own class, and any other letter (and only those) gets the muted class |
| LibUtils.TournamentStatusColor | src/lib/utils.ts:44-55 | `active` gets the success class and `upcoming` the warning class, each only for that status; every other status, `completed` included, gets the muted class |
| LibUtils.TruncateText | src/lib/utils.ts:57-60 | a text within the limit comes back unchanged; a longer one is its first `maxLength` Unicode scalars plus `...`, with JavaScript's `slice` clamping for a negative limit |
| LibUtils.TruncateKeepsPrefix | src/lib/utils.ts:57-60 | what a truncation keeps before the ellipsis is a prefix of the text, and exactly `maxLength` long for a non-negative limit |
| LibUtils.GroupBy | src/lib/utils.ts:62-74 | the keys are exactly the keys some item has, and each group is non-empty and equal to the items with that key |
| LibUtils.GroupOf | src/lib/utils.ts:62-74 | a group holds only items of the input with its key, and every such item |
| LibUtils.GroupIsSubsequence | src/lib/utils.ts:62-74 | each group lists its items in input order, at strictly increasing input positions |
| LibUtils.GroupOfKeepsSorted | src/lib/utils.ts:62-74 | pushing in input order keeps any ordering of the input inside every group |
| LibUtils.GroupSizesSumToLength | src/lib/utils.ts:62-74 | the group sizes, summed over the keys, give the number of items: nothing is lost or counted twice |
| LibUtils.NoGroupWithoutKey | src/lib/utils.ts:62-74 | a key no item has gets no items |
| ApiHelpers.ErrorMessage | src/utils/apiHelpers.ts:1-11 | an `Error` yields its message, a string yields itself, anything else the fixed default message |
| ApiHelpers.NetworkErrorsAreErrors | src/utils/apiHelpers.ts:63-71 | a network error is an `Error`, so the user sees its message; a bare string is never a network error, whatever it says |
| ApiHelpers.KeptParams | src/utils/apiHelpers.ts:31-35 | the appended entries are exactly the entries whose value is present and non-empty |
| ApiHelpers.KeptSingle | src/utils/apiHelpers.ts:31-35 | a single entry is appended exactly when its value is present and non-empty |
| ApiHelpers.KeptParamsAppend | src/utils/apiHelpers.ts:31-35 | entries are appended in input order: the survivors of two runs of entries are those of the first run followed by those of the second, each as often as it occurs |
| ApiHelpers.QueryString | src/utils/apiHelpers.ts:37 | the query string is empty exactly when no entry was appended |
| ApiHelpers.QueryStringSplits | src/utils/apiHelpers.ts:30-37 | when the encoding escapes `&`, splitting the query string on `&` gives back one `key=value` pair per appended entry, in order |
| ApiHelpers.BuildApiUrl | src/utils/apiHelpers.ts:26-44 | the URL starts with base plus endpoint; without params, or with none surviving, it is exactly that; otherwise a `?` and the query string follow |
| ApiHelpers.EmptyValuesDropped | src/utils/apiHelpers.ts:29-41 | a params object whose values are all missing or empty builds the same URL as no params object |
| ApiHelpers.EmptyEntryIgnored | src/utils/apiHelpers.ts:32 | adding an entry with a missing or empty value does not change the URL |
| TeamAvatar.FirstCharOf | src/components/TeamAvatar.tsx:25 | a word's initial is its first character exactly when the word is non-empty, and nothing otherwise |
| TeamAvatar.TeamInitials | src/components/TeamAvatar.tsx:22-29 | a usable name gives one or two initials starting with the upper-cased first character of the trimmed name; otherwise a truthy id gives `T` and its last character, and no id gives `T?` |
| TeamAvatar.SecondInitial | src/components/TeamAvatar.tsx:24-26 | a trimmed name without a space gives one initial; otherwise there is a second initial exactly when a non-space follows the first space, and it is that character upper-cased |
| TeamAvatar.Avatar | src/components/TeamAvatar.tsx:39-44 | the team's own non-empty name and id win over the loose props, the initials are computed from the chosen pair, and the colour is the team's primary colour unless that is missing or empty, when it is `#666` |
| TeamAvatar.TeamNameWins | src/components/TeamAvatar.tsx:39-44 | for a team with a usable name, the `teamName` and `teamId` props do not change the initials |
| TeamsGrid.FilteredAndSorted | src/components/TeamsGrid.tsx:29-46 | the grid is a rearrangement of the matching teams, ordered by name under the locale order |
| TeamsGrid.ShownIff | src/components/TeamsGrid.tsx:30-34 | a team is shown exactly when it is one of the teams and the lower-cased query occurs in its lower-cased name, short name or city |
| TeamsGrid.EmptyQueryShowsAll | src/components/TeamsGrid.tsx:30-34 | an empty search shows every team, as many times as it is listed |
| TeamsGrid.ShownCount | src/components/TeamsGrid.tsx:136 | the footer shows the number of matching teams out of the number of teams, the first never above the second |
| TeamsGrid.OpenTeamModal | src/components/TeamsGrid.tsx:19-22 | opening selects the team and opens the modal |
| TeamsGrid.CloseTeamModal | src/components/TeamsGrid.tsx:24-27 | closing clears the selection and closes the modal |
| TeamsGrid.HandlersKeepConsistent | src/components/TeamsGrid.tsx:16-27 | both handlers keep "open exactly when a team is selected", and closing after opening returns to the initial state |
| TeamMembers.Renders | src/components/TeamMembersModal.tsx:13 | the modal draws only when it is open and has a team, and always then |
| TeamMembers.CalculateAge | src/components/TeamMembersModal.tsx:15-24 | the age is the difference of the years or one less |
| TeamMembers.AgeCountsBirthdays | src/components/TeamMembersModal.tsx:15-24 | the age is the number of birthdays reached: the age-th birthday is on or before today and the next one is after it |
| TeamMembers.AgeOnBirthday | src/components/TeamMembersModal.tsx:18-22 | on the birthday itself the age is the difference of the years |
| TeamMembers.AgeGrowsYearly | src/components/TeamMembersModal.tsx:15-24 | on the same calendar day a year later the age is one more |
| TeamMembers.AgeText | src/components/TeamMembersModal.tsx:93 | without a date of birth the line says the age is unavailable, and only then; with one it is the age followed by ` años` |
| TeamMembers.MemberCount | src/components/TeamMembersModal.tsx:51 | a non-zero configured count is shown; a missing or zero count falls through to the length of the member list, and to 0 without a list |
| TeamMembers.MemberCountNonNegative | src/components/TeamMembersModal.tsx:51 | the count shown is never negative unless the configured count is |
| TeamMembers.ShowsMembers | src/components/TeamMembersModal.tsx:62 | the members grid is drawn exactly for a present, non-empty member list |
| TeamMembers.ShirtLabel | src/components/TeamMembersModal.tsx:74 | the badge is `?` exactly when the shirt number is missing or zero, and the number otherwise |
| TournamentCard.StatusText | src/components/TournamentCard.tsx:15-24 | the badge reads `En curso` exactly for an active tournament, `Finalizado` exactly for a completed one and `Próximamente` exactly for an upcoming one, and is never empty |
| TournamentCard.StatusTextInjective | src/components/TournamentCard.tsx:15-24 | different statuses get different badge texts |
| TournamentCard.FormatLabel | src/components/TournamentCard.tsx:89-91 | each format has its own label, in both directions |
| TournamentCard.ProgressText | src/components/TournamentCard.tsx:61-65 | the progress line is shown exactly when both matchday numbers are present and non-zero, and starts with `J` |
| TournamentCard.ProgressTextDetermines | src/components/TournamentCard.tsx:61-65 | two shown progress lines are equal only if the current and total matchdays are equal: the text gives both numbers back |
| TournamentCard.CardLink | src/components/TournamentCard.tsx:27 | the link is `/tournament/` followed by the id, which can be read back from it |
| TournamentCard.CardLinkOpensStandings | src/components/TournamentCard.tsx:27 | following a card to a route-compatible id opens that tournament's bar on the standings tab |
| BottomNav.Segment | src/components/BottomNav.tsx:129 | the `[^/]+` group takes the longest slash-free prefix: a prefix, without a slash, followed by a slash or the end |
| BottomNav.RouteNav | src/components/BottomNav.tsx:120-138 | no bar exactly on `/`; the tournament bar only under `/tournament/` with a non-empty, slash-free tab and with the id being the whole slash-free segment after the prefix, the tab being the segment the optional group captures after it or `standings` when it captures nothing; and always for a `/tournament/` path with a non-empty id |
| BottomNav.TabTarget | src/components/BottomNav.tsx:87-89 | a tab button leads under `/tournament/` |
| BottomNav.TabTargetRoundTrip | src/components/BottomNav.tsx:87-89 | after a tab button navigates, the bar shows the same tournament with the chosen tab highlighted |
| BottomNav.BareTournamentDefaultsToStandings | src/components/BottomNav.tsx:132 | a tournament path without a tab segment highlights the standings tab |
| BottomNav.HomeNeverHighlighted | src/components/BottomNav.tsx:58-59 | whenever the global bar is drawn, its home item is not highlighted, because that bar is never drawn on `/` |
| BottomNav.AtMostOneGlobalActive | src/components/BottomNav.tsx:57-59 | no pathname highlights two global items |
| BottomNav.OneTabActive | src/components/BottomNav.tsx:94-95 | on a page whose tab is one of the four, exactly that tab is highlighted |
| HomePage.FilteredTournaments | src/pages/HomePage.tsx:22-52 | the list is a rearrangement of the tournaments that pass the search and the filters, sorted by the chosen field and direction |
| HomePage.ResultsCount | src/pages/HomePage.tsx:141 | the results line counts exactly the tournaments that pass the search and the filters |
| HomePage.ListedMatch | src/pages/HomePage.tsx:23-37 | a listed tournament is one of the input, contains the query in its lower-cased name, and agrees with every set status, country and format filter |
| HomePage.MatchingListed | src/pages/HomePage.tsx:23-37 | every tournament that passes the search and the filters is listed |
| HomePage.NoCriteriaKeepsAll | src/pages/HomePage.tsx:23-37 | an empty query and no filters drop nothing |
| HomePage.DescNegatesAsc | src/pages/HomePage.tsx:39 | a descending sort compares by the ascending key negated |
| HomePage.TeamCountOrder | src/pages/HomePage.tsx:45-46 | sorting by team count puts fewer teams first ascending and more teams first otherwise |
| HomePage.UnknownFieldKeepsOrder | src/pages/HomePage.tsx:49-50 | an unknown sort field leaves the filtered list in input order |
| HomePage.ParseSortOption | src/pages/HomePage.tsx:148 | the field is the part before the first `-`, and the direction the second part when there is one and `undefined` otherwise |
| HomePage.ParseSortValue | src/pages/HomePage.tsx:146-148 | reading back the `<select>` value written for a field and direction without dashes gives that field and direction |
| MatchesTable.StatusText | src/components/MatchesTable.tsx:27-38 | the three known statuses get their Spanish labels and any other status is shown as it is |
| MatchesTable.StatusTextPassesThrough | src/components/MatchesTable.tsx:27-38 | the label equals the status exactly for an unknown status |
| MatchesTable.StatusColor | src/components/MatchesTable.tsx:14-25 | scheduled and live each get their own colour, only they do, and every other status the neutral one |
| MatchesTable.ScoreLabel | src/components/MatchesTable.tsx:90-96 | a finished match with both scores shows `home - away`, and any other match `vs` |
| MatchesTable.ScoreLabelIsVsIff | src/components/MatchesTable.tsx:90-96 | `vs` is shown exactly when the score is not |
| MatchesTable.ScoreLabelDeterminesScore | src/components/MatchesTable.tsx:90-93 | two shown scores with the same text are the same score |
| MatchesTable.TeamBadge | src/components/MatchesTable.tsx:81 | an unknown team or empty short name gives `IND`; otherwise the first three characters of the short name, upper-cased |
| MatchesTable.TeamName | src/components/MatchesTable.tsx:84 | a known team with a name shows it; otherwise `Ind` and the last character of the id |
| MatchesTable.TeamColor | src/components/MatchesTable.tsx:80 | the badge colour is the team's primary colour, or `#666` for an unknown team or an empty colour |
| MatchesTable.SortedMatches | src/components/MatchesTable.tsx:40-42 | the sorted copy is a rearrangement of the matches, newest first |
| MatchesTable.MatchdayOrder | src/components/MatchesTable.tsx:54-55 | the card order lists each matchday key once, in strictly decreasing order |
| MatchesTable.Cards | src/components/MatchesTable.tsx:44-57 | one card per matchday key, in that order, each holding its matchday's group |
| MatchesTable.CardsDescending | src/components/MatchesTable.tsx:54-55 | the cards come in strictly decreasing matchday order |
| MatchesTable.CardsForPresentMatchdays | src/components/MatchesTable.tsx:44-57 | there is a card for a matchday exactly when some match carries it |
| MatchesTable.CardOfOwnMatchday | src/components/MatchesTable.tsx:44-50 | every match appears in the card of its own matchday |
| MatchesTable.OnlyCardOfOwnMatchday | src/components/MatchesTable.tsx:44-50 | a match appears in no card but its matchday's |
| MatchesTable.CardsNewestFirst | src/components/MatchesTable.tsx:40-50 | inside each card the matches are newest first |
| MatchesTable.CardsCoverAll | src/components/MatchesTable.tsx:44-57 | the card sizes add up to the number of matches: none dropped, none repeated |
| MatchesTable.EmptyStateIffNoCards | src/components/MatchesTable.tsx:146-152 | the "no matches" message is shown exactly when there are no cards |
| BrandConfig.ResolveAssetPath | src/services/brandConfig.ts:96-98 | a path starting with `./` is rebased under `/brand-configs/{configId}/` with the `./` removed; any other path is kept as it is |
| BrandConfig.ResolveAssetPathIdempotent | src/services/brandConfig.ts:96-98 | resolving an already resolved path changes nothing |
| BrandConfig.ResolveAssetPaths | src/services/brandConfig.ts:95-103 | each of logo, small logo, favicon and preview is resolved by the same rule, independently of the others |
| BrandConfig.ResolveAssetPathsIdempotent | src/services/brandConfig.ts:95-103 | resolving a resolved asset set gives the same set back |
| BrandConfig.ScanNumber | src/services/brandConfig.ts:174 | the number token matches exactly when a digit stands at the position; it consumes at least that digit, yields a non-negative value and stops before a following digit |
| BrandConfig.ScanSpaces | src/services/brandConfig.ts:174 | the whitespace token matches exactly when whitespace stands at the position and consumes the whole run |
| BrandConfig.ScanPercent | src/services/brandConfig.ts:174 | the percent token matches exactly a `%` and consumes one character |
| BrandConfig.MatchTokens | src/services/brandConfig.ts:174-177 | a successful match captures one number per number token of the pattern, appended after those captured before |
| BrandConfig.FirstSomeLeftmost | src/services/brandConfig.ts:174-177 | the search for a match succeeds exactly when some start position matches, and it returns the match at the first such position |
| BrandConfig.ParseHslLeftmost | src/services/brandConfig.ts:174-177 | the colour text parses exactly when the pattern matches somewhere, and the numbers are those of the leftmost match, as an unanchored regular expression search gives them |
| BrandConfig.ParseFormatHsl | src/services/brandConfig.ts:174-181 | reading back a colour written as `{h} {s}% {l}%` gives its hue, saturation and lightness |
| BrandConfig.Round | src/services/brandConfig.ts:205-207 | the rounded value lies within half a unit of the input, halves rounding up |
| BrandConfig.Channels | src/services/brandConfig.ts:179-202 | with zero saturation all three channels equal the lightness fraction |
| BrandConfig.HslToRgb | src/services/brandConfig.ts:173-209 | text the pattern does not match converts to black |
| BrandConfig.GreyHasEqualChannels | src/services/brandConfig.ts:194-208 | a written-out grey converts to three equal channels, each the rounded lightness scaled to 255 |
| BrandConfig.Luminance | src/services/brandConfig.ts:211-217 | black has zero luminance |
| BrandConfig.ContrastColor | src/services/brandConfig.ts:167-171 | the foreground is black exactly when the luminance of the converted colour exceeds one half and white otherwise; unparseable text gets white |
| BrandConfig.WhiteGetsBlackText | src/services/brandConfig.ts:167-171 | the colour white `0 0% 100%` gets black text, when the power law keeps 1 fixed |
| BrandConfig.ZeroLightnessIsZeroRgb | src/services/brandConfig.ts:194-208 | a written-out grey of lightness 0 converts to all channels 0, whatever its hue |
| BrandConfig.BlackGetsWhiteText | src/services/brandConfig.ts:167-171 | the colour black `0 0% 0%` gets white text, whatever the power law |
| BrandConfig.ContrastFunction | src/services/brandConfig.ts:167-171 | the contrast function applied to the palette agrees with the contrast colour on every input and only yields black or white |
| BrandConfig.ExtendedName | src/services/brandConfig.ts:141 | an extended colour's name lies under the `--brand-extended-` prefix |
| BrandConfig.ExtendedHexName | src/services/brandConfig.ts:142 | an extended colour's hex name lies under the `--brand-extended-` prefix |
| BrandConfig.FixedNamesDistinct | src/services/brandConfig.ts:120-164 | different fixed properties are written under different CSS names |
| BrandConfig.FixedNamesNotExtended | src/services/brandConfig.ts:120-164 | no fixed property name lies under the extended prefix, so an extended entry can never overwrite a fixed property |
| BrandConfig.WriteExtendedNames | src/services/brandConfig.ts:138-145 | the extended loop adds exactly the two names of each entry that is a colour value and nothing else |
| BrandConfig.ExtendedNamesDiffer | src/services/brandConfig.ts:141-142 | two keys that differ, and neither of which is the other with `-hex` appended, give four different property names |
| BrandConfig.HexNameInjective | src/services/brandConfig.ts:142 | different keys give different hex names |
| BrandConfig.HexTwinSharesName | src/services/brandConfig.ts:141-142 | a key `k-hex` writes the same property as the hex name of key `k`, so such a pair can overwrite each other |
| BrandConfig.WriteExtendedValues | src/services/brandConfig.ts:138-145 | with distinct keys and no `-hex` twin, every colour entry ends with its hsl under its name and its hex under its hex name |
| BrandConfig.WriteExtendedUntouched | src/services/brandConfig.ts:138-145 | a property no entry writes keeps its earlier value |
| BrandConfig.EmittedNames | src/services/brandConfig.ts:118-165 | the properties set are every fixed property plus the names contributed by the colour entries of `extended` |
| BrandConfig.ApplyColorVariables | src/services/brandConfig.ts:118-165 | every fixed property is set to the palette colour the table assigns it, the extended loop in between overwriting none of them |
| BrandConfig.AppliedNames | src/services/brandConfig.ts:118-165 | a property is set exactly when it is fixed or is written by a colour entry of `extended` |
| BrandConfig.AppliedPrimaryAliases | src/services/brandConfig.ts:120-164 | primary, ring and brand-primary carry the primary colour; destructive and brand-error carry the error colour |
| BrandConfig.AppliedOtherAliases | src/services/brandConfig.ts:122-161 | border and input carry the border colour; secondary and accent each appear under their own and their brand name |
| BrandConfig.AppliedForegrounds | src/services/brandConfig.ts:121-129 | each of the four foregrounds is the contrast colour of its background |
| BrandConfig.ForegroundsAreBlackOrWhite | src/services/brandConfig.ts:121-129 | with the contrast colour as contrast function, the four foregrounds are black or white |
| BrandConfig.AppliedSport | src/services/brandConfig.ts:132-135 | the four sport colours are written verbatim |
| BrandConfig.AppliedSurfaces | src/services/brandConfig.ts:148-151 | background, foreground, card and card foreground are written verbatim |
| BrandConfig.AppliedMutedAndStatus | src/services/brandConfig.ts:152-163 | muted, muted foreground, success and warning are written verbatim |
| BrandConfig.AppliedExtended | src/services/brandConfig.ts:138-145 | with distinct keys and no `-hex` twin, every extended colour entry appears with its hsl and hex values |
| BrandConfig.AppliedPrefixSeparates | src/services/brandConfig.ts:118-165 | among the properties set, a name lies under the extended prefix exactly when it came from `extended`; without `extended` none does |
| MatchDetails.StatusText | src/components/MatchDetailsModal.tsx:48-62 | scheduled, live and pending get their labels, finished and completed share `Completado`, and any other status is shown as it is |
| MatchDetails.StatusTextLabels | src/components/MatchDetailsModal.tsx:48-62 | `Completado` is shown exactly for finished, completed, or a status literally spelled that way, and the status passes through exactly when it is unknown |
| MatchDetails.StatusColor | src/components/MatchDetailsModal.tsx:32-46 | each known status group has its own colour, in both directions, and every unknown status gets grey |
| MatchDetails.EventIcon | src/components/MatchDetailsModal.tsx:64-79 | each of the five event types has its own symbol, in both directions, and anything else gets a bullet |
| MatchDetails.EventColor | src/components/MatchDetailsModal.tsx:81-96 | each of the five event types has its own colour, in both directions, and anything else gets grey |
| MatchDetails.GoalNote | src/components/MatchDetailsModal.tsx:265-271 | penalty, own goal and free kick each get their own note, in both directions, and any other kind gets none |
| MatchDetails.FirstTruthy | src/components/MatchDetailsModal.tsx:111-112 | the first present, non-empty string, else the fallback |
| MatchDetails.HomeName | src/components/MatchDetailsModal.tsx:111 | the home side always gets a non-empty name |
| MatchDetails.AwayName | src/components/MatchDetailsModal.tsx:112 | the away side always gets a non-empty name |
| MatchDetails.SideName | src/components/MatchDetailsModal.tsx:110-112 | an entry whose team id is the home id gets the home name, and any other the away name |
| MatchDetails.HeadingName | src/components/MatchDetailsModal.tsx:168 | the heading is the found team's non-empty name, else the match's non-empty name, else `Equipo` and the id |
| MatchDetails.GoalEntries | src/components/MatchDetailsModal.tsx:103-117 | one goal entry per goal, in order, and none when the goals list is missing |
| MatchDetails.GoalEntry | src/components/MatchDetailsModal.tsx:105-115 | a goal entry has kind `goal` and the goal's id and minute |
| MatchDetails.EventEntry | src/components/MatchDetailsModal.tsx:123-134 | an event entry keeps the event's kind, id and minute |
| MatchDetails.OtherEvents | src/components/MatchDetailsModal.tsx:122 | events of kind `goal` are skipped |
| MatchDetails.EventEntries | src/components/MatchDetailsModal.tsx:120-137 | one entry per non-goal event, in order |
| MatchDetails.Timeline | src/components/MatchDetailsModal.tsx:99-141 | the timeline is a rearrangement of the goal entries followed by the other-event entries, ordered by minute |
| MatchDetails.TimelineLength | src/components/MatchDetailsModal.tsx:99-141 | the timeline has one entry per goal plus one per non-goal event |
| MatchDetails.TimelineGoalsFromGoals | src/components/MatchDetailsModal.tsx:103-137 | a timeline entry has kind `goal` exactly when it comes from the goals list, so a `goal` event is never shown twice |
| MatchDetails.TimelineTeamNames | src/components/MatchDetailsModal.tsx:110-112 | every timeline entry names the home side when its team is the home team and the away side otherwise |
| MatchDetails.HomeScore | src/components/MatchDetailsModal.tsx:176 | the result's home score when there is a result, else the legacy home score |
| MatchDetails.AwayScore | src/components/MatchDetailsModal.tsx:177 | the result's away score when there is a result, else the legacy away score |
| MatchDetails.ScoreText | src/components/MatchDetailsModal.tsx:175-184 | a finished or completed match with both scores shows `home - away` from the preferred scores, and any other shows `vs` |
| MatchDetails.ScoreTextRule | src/components/MatchDetailsModal.tsx:175-184 | `vs` is shown exactly when no score is; an over match with a result always shows that result |
| MatchDetails.ResultOverridesLegacy | src/components/MatchDetailsModal.tsx:176-177 | with a result present, the legacy score fields do not affect the header |
| MatchDetails.BodiesExclusive | src/components/MatchDetailsModal.tsx:235-300 | the "no events" message never shows with the timeline or with the "not started" message, and it shows for an over match with no goals and no other events |
| StandingsTable.HandleSort | src/components/StandingsTable.tsx:19-26 | the clicked column becomes current; clicking the current column flips the direction, and any other column starts ascending |
| StandingsTable.HandleSortTwice | src/components/StandingsTable.tsx:19-26 | clicking the current column twice restores the state; clicking a new column twice leaves it current and descending |
| StandingsTable.HeaderArrow | src/components/StandingsTable.tsx:55-59 | only the current column shows an arrow, pointing up exactly when the direction is ascending |
| StandingsTable.NumericValue | src/components/StandingsTable.tsx:29-33 | every column is numeric except the team id and the form list |
| StandingsTable.SortedStandings | src/components/StandingsTable.tsx:28-37 | the sorted table is a rearrangement of a copy of the rows |
| StandingsTable.SortedByColumn | src/components/StandingsTable.tsx:28-37 | on a numeric column the rows are in ascending or descending column order, as the direction says |
| StandingsTable.NonNumericKeepsOrder | src/components/StandingsTable.tsx:33-36 | on the team id or form column the comparator is always 0, so the rows keep their order |
| StandingsTable.PositionStyle | src/components/StandingsTable.tsx:39-47 | a row is marked for the playoffs exactly when a positive playoff count is configured and the position is within it; otherwise no class |
| StandingsTable.PositionStyleDownwardClosed | src/components/StandingsTable.tsx:39-47 | if a position is marked, every better position is marked too |
| StandingsTable.GoalDifferenceText | src/components/StandingsTable.tsx:139 | the goal-difference cell is never empty |
| StandingsTable.GoalDifferenceSign | src/components/StandingsTable.tsx:139 | the cell starts with `+` exactly for a positive difference and with `-` exactly for a negative one, and reads `0` for zero |
| StandingsTable.GoalDifferenceClass | src/components/StandingsTable.tsx:138 | victory colour exactly for a positive difference, defeat colour exactly for a negative one, muted exactly for zero |
| StandingsTable.FormWindow | src/components/StandingsTable.tsx:146 | the form shown is the last five results, or all of them when there are fewer |
| StandingsTable.FormWindowAppend | src/components/StandingsTable.tsx:146 | a new result appears last in the form window, and pushes the oldest out once five are shown |
| PlayersTable.FilteredAndSorted | src/components/PlayersTable.tsx:21-40 | the list is a rearrangement of the statistics that pass the team filter, largest value of the chosen column first |
| PlayersTable.FilterMembership | src/components/PlayersTable.tsx:22-26 | a statistic is listed exactly when it is one of the input and either no team is chosen or its player is known and plays for the chosen team |
| PlayersTable.NoFilterKeepsAll | src/components/PlayersTable.tsx:23 | with no team chosen every statistic is listed |
| PlayersTable.TopScorer | src/components/PlayersTable.tsx:42 | the highlight is the first listed statistic, and is absent exactly when the list is empty |
| PlayersTable.TopScorerLeads | src/components/PlayersTable.tsx:42-56 | whenever something is listed, the highlight has at least the chosen column's value of every listed statistic |
| StatisticsTable.ScorersData | src/components/StatisticsTable.tsx:43-44 | the scorers are a rearrangement of the statistics, most goals first |
| StatisticsTable.CardStats | src/components/StatisticsTable.tsx:47-62 | a fair-play row carries its team, sums each card colour over the members, missing counts as 0, totals the three sums, and is all zeros without members |
| StatisticsTable.TotalIsPerMemberSum | src/components/StatisticsTable.tsx:49-52 | the total of the three colour sums equals the sum over members of each member's cards |
| StatisticsTable.CardSumNonNegative | src/components/StatisticsTable.tsx:49-51 | with no negative counts recorded no card sum is negative |
| StatisticsTable.CardSumAppend | src/components/StatisticsTable.tsx:49-51 | the sum over a squad split in two is the sum of the two sums |
| StatisticsTable.AllCardStats | src/components/StatisticsTable.tsx:47-62 | one fair-play row per team, in team order |
| StatisticsTable.FairplayData | src/components/StatisticsTable.tsx:47-63 | the fair-play table is a rearrangement of one row per team, fewest cards first |
| StatisticsTable.FairplayRowsAreTeams | src/components/StatisticsTable.tsx:47-63 | every fair-play row is the row of one of the teams, and every team has its row |
| StatisticsTable.DefenseStats | src/components/StatisticsTable.tsx:66-75 | a defence row copies the standing's team id, goals against and games played, has no clean sheets, looks the team up, and is named after it or `Equipo` and the id |
| StatisticsTable.AllDefenseStats | src/components/StatisticsTable.tsx:66-75 | one defence row per standing, in standing order |
| StatisticsTable.DefenseData | src/components/StatisticsTable.tsx:66-76 | the defence table is a rearrangement of one row per standing, fewest goals conceded first |
| StatisticsTable.DefenseRowsAreStandings | src/components/StatisticsTable.tsx:66-76 | every defence row comes from one of the standings and reports no clean sheets |
| StatisticsTable.CategoryTitlesDistinct | src/components/StatisticsTable.tsx:99-105 | the three categories have three different titles |
| StatisticsTable.PositionNamesDistinct | src/components/StatisticsTable.tsx:82-89 | the four positions have four different names |
| StatisticsTable.TopEntry | src/components/StatisticsTable.tsx:78-80 | the highlighted entry is the first row of the selected category's table, and exists exactly when that table's input is non-empty |
| StatisticsTable.TopScorerHasMostGoals | src/components/StatisticsTable.tsx:43-44 | the highlighted scorer has at least as many goals as any statistic |
| StatisticsTable.TopFairplayHasFewestCards | src/components/StatisticsTable.tsx:47-63 | the highlighted fair-play team has no more cards than any team |
| StatisticsTable.TopDefenseConcededLeast | src/components/StatisticsTable.tsx:66-76 | the highlighted defence has conceded no more than any standing |
| TournamentService.MapMatchStatus | src/services/tournamentService.ts:219-231 | every API status lands on scheduled, live or finished: scheduled and pending on scheduled, live on live, completed on finished |
| TournamentService.MapMatchStatusPreimage | src/services/tournamentService.ts:219-231 | finished comes only from completed, live only from live, and scheduled from everything else, unknown values included |
| TournamentService.MapTournamentStatus | src/services/tournamentService.ts:199-210 | an unknown status falls back to active |
| TournamentService.MapTournamentStatusRoundTrip | src/services/tournamentService.ts:199-210 | each status's own spelling maps back to it, and a string maps to a status exactly when it is that spelling or, for active, an unknown value |
| TournamentService.MapTournamentFormat | src/services/tournamentService.ts:212-217 | group-knockout exactly when the text contains both `knockout` and `group`, knockout when it contains only `knockout`, league when it lacks `knockout` |
| TournamentService.MapTournamentFormatRoundTrip | src/services/tournamentService.ts:212-217 | each format's own spelling is recognised as that format |
| TournamentService.InitialsCount | src/services/tournamentService.ts:96 | the joined initials have one letter per non-empty word, each the first letter of such a word |
| TournamentService.ShortName | src/services/tournamentService.ts:96 | the short name has at most three letters and is a prefix of the joined initials |
| TournamentService.ShortNameLetters | src/services/tournamentService.ts:96 | the short name has as many letters as there are non-empty words, at most three, each the first letter of one of those words |
| TournamentService.MapTeam | src/services/tournamentService.ts:92-104 | a mapped team has the stringified id, the API name and logo, the short name, country `Unknown` and the fixed default colours, and nothing else set |
| TournamentService.MapTeamIdsDistinct | src/services/tournamentService.ts:94 | different API team ids give different team ids |
| TournamentService.MapStanding | src/services/tournamentService.ts:106-120 | a mapped standing has the stringified team id and every number and the form copied unchanged |
| TournamentService.MapStandingLossless | src/services/tournamentService.ts:106-120 | the mapping loses nothing: the API standing can be rebuilt from it, and different API standings map to different standings |
| TournamentService.MapMatch | src/services/tournamentService.ts:122-136 | a mapped match has stringified ids, the round as its matchday, the result's scores or none, the normalised status, the venue name, the phase and the parsed date |
| TournamentService.MappedMatchScoreShown | src/services/tournamentService.ts:122-136 | a mapped match shows its score exactly when the API match is completed and has a result |
| TournamentService.MapTournament | src/services/tournamentService.ts:72-90 | a mapped tournament has the stringified id, the start year as its season, empty country and region, normalised status and format, parsed dates, the maximum team count, and no matchday progress |
| TournamentService.ScorerStats | src/services/tournamentService.ts:139-149 | a scorer's statistics carry its id, the tournament's id and its goals; the average equals the goals and every other count is 0 |
| TournamentService.MapTopScorers | src/services/tournamentService.ts:138-150 | one statistic per scorer, in order, with the scorer's id and goals |
| TournamentService.ScorerTeamId | src/services/tournamentService.ts:180 | a player's team id is that of the first team with the scorer's team name when that id is non-empty, and `1` when no team has the name |
| TournamentService.ScorerPlayers | src/services/tournamentService.ts:176-182 | one forward per scorer, in order, with the scorer's id and name, the looked-up team id and nationality `Unknown` |
| TournamentService.ScorerStatsMatchPlayers | src/services/tournamentService.ts:174-182 | the statistics and the players line up one to one on the scorer's id |
| TournamentService.ScorerTeamFound | src/services/tournamentService.ts:169-180 | a scorer whose team is among the API teams gets the stringified id of the first API team with that name |
| TournamentService.ScorerTeamIdFound | src/services/tournamentService.ts:180 | the looked-up team id is the fallback `1` or the id of one of the teams |
| TournamentService.MapTeams | src/services/tournamentService.ts:169 | one mapped team per API team, in order |
| TournamentService.GetTournamentData | src/services/tournamentService.ts:152-197 | the data is `null` exactly when one of the five requests fails; otherwise every record is mapped and the players are built against the mapped teams |
| TournamentService.LoadedStatsHavePlayers | src/services/tournamentService.ts:168-192 | in loaded data the i-th statistic and the i-th player share an id, and every player's team is a loaded team or the fallback `1` |
| Domain.FindTeam | src/data/mockData.ts:565-567 | a team is found exactly when some team has the id, and it is the first such team |
| Domain.FindPlayer | src/data/mockData.ts:569-571 | a player is found exactly when some player has the id, and it is the first such player |
| MockData.SampleTableConsistent | src/data/mockData.ts:304-383 | every sample standing has points, goal difference and games played consistent with its wins, draws, losses and goals; positions run 1 to 6 and points strictly decrease down the table |
| MockData.GetTournamentById | src/data/mockData.ts:557-559 | nothing is found exactly when no tournament has the id; otherwise the first tournament with it |
| MockData.GetTournamentDataAsWritten | src/data/mockData.ts:561-563 | the plain object index finds the sample league for its own key, reaches an inherited value for each `Object.prototype` key, and is `undefined` for anything else |
| MockData.InheritedKeyLooksFound | src/data/mockData.ts:561-563 | the id `toString` gets a truthy value that is not tournament data |
| MockData.GetTournamentData | src/data/mockData.ts:552-563 | the corrected lookup finds data exactly for the object's own key, and that data is the sample league |
| MockData.CorrectedAgreesOffPrototype | src/data/mockData.ts:561-563 | the corrected lookup finds data exactly when the written one holds tournament data, and agrees with the written one's truthiness on every id that is not an inherited key |
| MockData.ByGoals | src/data/mockData.ts:574-576 | a permutation of the tournament's statistics (the filter's result, each kept as often as it occurs), most goals first |
| MockData.SelectedStats | src/data/mockData.ts:574-577 | at most `limit` of them, exactly the smaller of `limit` and the number of the tournament's statistics, still most goals first |
| MockData.Decorate | src/data/mockData.ts:579-583 | decoration fails exactly when some selected player is missing; otherwise each entry keeps its statistic and carries its player and the team looked up by the player's team id, which may be missing |
| MockData.SelectedAreTop | src/data/mockData.ts:574-577 | the selected statistics are drawn from the tournament's, and every statistic of the tournament left out has no more goals than any selected one |
| MockData.GetTopScorers | src/data/mockData.ts:573-584 | the entries are the selected statistics in order, each with its own player; there are at most `limit`, and goals never increase down the list |
| MockData.TopScorersAreTop | src/data/mockData.ts:573-584 | the list holds the top scorers: its statistics are the tournament's, and any statistic of the tournament it leaves out has no more goals than any listed one |
| MockData.GetTopScorersDefault | src/data/mockData.ts:573 | without a `limit` at most ten scorers are listed, all statistics of the tournament |
| MockData.TopScorersLength | src/data/mockData.ts:573-584 | with every player known the list is produced, and its length is the smaller of `limit` and the number of the tournament's statistics |
| Pwa.Start | src/contexts/PWAContext.tsx:59-91 | after mounting, installability is off when running standalone and otherwise on only in development; nothing is shown or pending except the development timer, armed only in development |
| Pwa.OnBeforeInstallPrompt | src/contexts/PWAContext.tsx:32-49 | the prompt is kept and installability turned on, and a three-second timer is armed exactly when the stored flag is unset |
| Pwa.OnAppInstalled | src/contexts/PWAContext.tsx:51-57 | the install clears the prompt, installability and the modal and sets the stored flag; pending timers stay |
| Pwa.OnPromptTimerAsWritten | src/contexts/PWAContext.tsx:44-47 | a pending three-second timer opens the modal whatever the flag now says |
| Pwa.OnPromptTimer | src/contexts/PWAContext.tsx:44-47 | the corrected three-second timer opens the modal only while the flag is still unset |
| Pwa.OnDevTimer | src/contexts/PWAContext.tsx:84-90 | the development timer opens the modal only if the flag is unset and the app was not standalone at start, and touches nothing else |
| Pwa.InstallPwa | src/contexts/PWAContext.tsx:100-134 | the flag ends up set exactly when it was set, or an install is simulated in development, or the user accepts; a missing prompt outside development or a rejected promise changes nothing; an answered prompt clears the prompt and the modal |
| Pwa.OnCloseInstallModal | src/contexts/PWAContext.tsx:136-140 | closing hides the modal and sets the flag, and changes nothing else |
| Pwa.OnShowInstallPrompt | src/contexts/PWAContext.tsx:142-145 | the modal is shown and nothing else changes |
| Pwa.OnForceShowInstallModal | src/contexts/PWAContext.tsx:147-151 | the modal is shown and installability turned on, and nothing else changes |
| Pwa.FlagStaysSet | src/contexts/PWAContext.tsx:56 | no sequence of events clears the stored flag once it is set |
| Pwa.ClosedStaysClosed | src/contexts/PWAContext.tsx:38-48 | with the corrected timer, once the flag is set and the modal closed, only an explicit request opens it again |
| Pwa.InstalledAppReopensModal | src/contexts/PWAContext.tsx:44-57 | as written, a prompt, then the install, then the three-second timer leaves the modal open on an app that is installed and not installable |
| Pwa.TimersAgreeBeforeFlag | src/contexts/PWAContext.tsx:42-47 | while the flag is unset the corrected timer behaves exactly as the written one |

The emitted palette is a map keyed by a `Property` datatype, not by a string. There is one constructor per fixed CSS variable plus `Ext(name)` for the `extended` entries, and `Property.Name()` gives the CSS name. No fixed name lies under the `--brand-extended-` prefix (`BrandConfig.FixedNamesNotExtended`), and the fixed names are pairwise different (`BrandConfig.FixedNamesDistinct`). So the map states the same thing as a string-keyed one: the last value written to each custom property.

Matches are grouped only by matchday, newest matchday first (src/components/MatchesTable.tsx:44-55).

## Left out

- Rendering, the DOM and the browser: JSX output, `setProperty` on the document, `updateFavicon`, `applyTypography`, `document.title`, `console` logging and `alert`. The model keeps the values these would show or write.
- Network and asynchronous code:
  - the `get*` fetch wrappers of `tournamentService` (src/services/tournamentService.ts:23-70) and `Promise.all` in `getTournamentData`, which the model receives as already settled values;
  - `loadBrandConfig` and `reloadConfig`;
  - src/services/api.ts and `retryRequest` (src/utils/apiHelpers.ts:46-61, which uses timers);
  - the `useTournamentData` and `useBrandConfig` hooks, which are React state plus a fetch fallback.
- `isApiError` and `formatApiDate` (src/utils/apiHelpers.ts:13-24): a structural type test on an untyped value, and an ISO date formatter. Both need the JavaScript object and `Date` models left out above.
- `formatDate` and `formatShortDate` (src/lib/utils.ts:8-21) are locale formatting; `cn` (src/lib/utils.ts:4-6) is CSS class merging by an external library.
- The floating-point display values: `goalsAgainst / played` with `toFixed(2)` in the defence table, and the progress-bar width of the tournament page. All other arithmetic is on unbounded integers or exact reals. JavaScript numbers are doubles, but every count in these files stays far below 2^53.
- BrandConfig.Luminance: only its value at black is stated. The conversion follows section 4.2.4 of CSS Color Module Level 3 and the luminance follows the WCAG 2.1 definition of relative luminance. Both are computed on reals, with the `pow(…, 2.4)` branch as the parameter `gamma`, so nothing is claimed about rounding of doubles.
- BrandConfig.IsColorValue: the `hsl` and `hex` properties of an extended entry are modelled as optional strings. The source's `'hsl' in obj && 'hex' in obj` test (src/services/brandConfig.ts:138-145) also accepts a property that is present but holds a number, `null` or `undefined`, and then writes that value's string form; the model does not cover that case.
- BrandConfig.Channels: only the grey case is stated; the hue sectors of `hue2rgb` are modelled as written but not given a contract of their own.
- The `getPositionName` of src/components/PlayersTable.tsx:44-51 is the same table as src/components/StatisticsTable.tsx:82-89. It is modelled once, as `StatisticsTable.PositionName`.
- LibUtils.GroupBy: the result is a map, so the order in which `Object.entries` lists the groups (integer-like keys first, ascending) is not stated. The matchday cards are put in order by an explicit descending sort, so their order does not depend on it. A `groupBy` key that names an `Object.prototype` member (for example `toString`) is treated as a fresh key.
- A match without a `matchday`: the code groups it under the key `"undefined"` and compares `NaN`. The matchday grouping requires every match to carry one.
- `scorersData` sorts the `playerStats` prop in place (src/components/StatisticsTable.tsx:43-44), which mutates the caller's array. The model sorts a copy; the rendered order is the same.
- `new Date` time zones: ages are computed from calendar dates, and match dates are already timestamps.
- Numeric ids that the API sends as numbers are modelled by their string form where the code stringifies them.
- LibUtils.TruncateText: `.length` and `slice` count UTF-16 code units in the source and Unicode scalars in the model. A text with characters outside the Basic Multilingual Plane is measured and cut differently: `truncateText("😀😀", 3)` cuts inside the second emoji in the source and returns the text unchanged in the model.
- TeamAvatar.FirstCharOf: `p[0]` is a UTF-16 code unit in the source, and half of a surrogate pair for a word starting outside the Basic Multilingual Plane; the model takes the whole scalar.
- TeamAvatar.TeamInitials: the `[0]` and `slice(-1)` it relies on take UTF-16 code units in the source and whole scalars in the model, so names and ids with characters outside the Basic Multilingual Plane give different initials. Upper-casing an initial is a per-character map, while `toUpperCase` can turn one character into two (`ß` to `SS`) and so give a longer result.
- MatchesTable.TeamBadge: `substring(0, 3)` counts UTF-16 code units in the source and Unicode scalars in the model, and upper-casing is the same per-character map as in `TeamAvatar.TeamInitials`.
- MatchesTable.TeamName: `slice(-1)` of an id ending outside the Basic Multilingual Plane gives a lone surrogate in the source and the whole last scalar in the model.
- TournamentService.ShortName: `word[0]` and `substring(0, 3)` count UTF-16 code units in the source and Unicode scalars in the model, so team names with words starting outside the Basic Multilingual Plane get different short names. The same holds for `TournamentService.InitialsCount` and `TournamentService.ShortNameLetters`.
- TeamsGrid.ShownIff: case-insensitive search is stated with a per-character case map. Full Unicode lower-casing can change a string's length, and that is not modelled.
- HomePage.ListedMatch: the name search uses the same per-character case map as `TeamsGrid.ShownIff`.
- The install prompt's asynchronous parts:
  - `installPWA` awaits `userChoice`, and the model applies the outcome as one step;
  - another event arriving in between, and the stale `deferredPrompt` a closure may hold, are not modelled;
  - the removal of listeners on unmount is not modelled.
- The `teamStats` field, which `getTournamentData` always sets to the empty list (src/services/tournamentService.ts:191), is not a field of the model's `TournamentData`.

## Findings

| source | as written | input that shows it | evidently intended | confidence | as-written member | corrected member |
|---|---|---|---|---|---|---|
| src/data/mockData.ts:561-563 | `getTournamentData` indexes the sample object literal with the id, so ids that name `Object.prototype` members reach inherited values | `getTournamentData("toString")` gives the inherited `toString` function: a truthy value that is not tournament data | only the sample league's own key is found; every other id gives `undefined` | not executed; latent, because its only caller (src/hooks/useTournamentData.ts:50) reaches it only when the service throws, and the service catches everything itself | `MockData.GetTournamentDataAsWritten`, `MockData.InheritedKeyLooksFound` | `MockData.GetTournamentData`, `MockData.CorrectedAgreesOffPrototype` |
| src/contexts/PWAContext.tsx:44-47 | the three-second timer opens the install modal without re-reading the stored flag | events `beforeinstallprompt`, `appinstalled`, then the timer firing: the modal opens for an app that is already installed, with the flag set | the timer re-checks the flag when it fires, as the development timer does (src/contexts/PWAContext.tsx:84-90) | not executed | `Pwa.OnPromptTimerAsWritten`, `Pwa.InstalledAppReopensModal` | `Pwa.OnPromptTimer`, `Pwa.ClosedStaysClosed` |

=== FILE: api_helpers.dfy ===
/** `apiHelpers`: the user-facing message of a thrown value, the URL of
    an API call with its query string, and the network-error test.
    `URLSearchParams` form-encoding is a parameter `encode`. */
module ApiHelpers {
  import opened Wrappers
  import opened Text

  /** A thrown value: an `Error` (its `name` and `message`), a string, or
      anything else. */
  datatype Thrown = ErrorValue(name: string, message: string) | StringValue(text: string) | OtherValue

  const DefaultErrorMessage: string := "Ha ocurrido un error inesperado"

  /** `getApiErrorMessage` */
  function ErrorMessage(e: Thrown): (msg: string)
    ensures e.ErrorValue? ==> msg == e.message
    ensures e.StringValue? ==> msg == e.text
    ensures e.OtherValue? ==> msg == DefaultErrorMessage
  {
    match e
    case ErrorValue(_, m) => m
    case StringValue(s) => s
    case OtherValue => DefaultErrorMessage
  }

  /** `isNetworkError` */
  predicate IsNetworkError(e: Thrown) {
    && e.ErrorValue?
    && (|| Contains(e.message, "fetch")
        || Contains(e.message, "network")
        || Contains(e.message, "conexión")
        || e.name == "NetworkError")
  }

  /** A network error is an `Error`, so its message is what the user is
      shown; a string mentioning `fetch` is not a network error. */
  lemma NetworkErrorsAreErrors(e: Thrown)
    requires IsNetworkError(e)
    ensures ErrorMessage(e) == e.message
    ensures !IsNetworkError(StringValue(e.message))
  {
  }

  // ---------------------------------------------------------------------
  // buildApiUrl
  // ---------------------------------------------------------------------

  /** A query parameter as `Object.entries` lists it; a `null` or
      `undefined` value is `None`. */
  datatype Param = Param(key: string, value: Option<string>)

  /** Whether `searchParams.append` is called for the entry. */
  predicate Kept(p: Param) {
    p.value.Some? && p.value.value != []
  }

  /** The surviving entries, in order. */
  function KeptParams(params: seq<Param>): (r: seq<Param>)
    ensures |r| <= |params|
    ensures forall i :: 0 <= i < |r| ==> Kept(r[i])
    ensures forall p :: p in r <==> p in params && Kept(p)
  {
    if |params| == 0 then []
    else (if Kept(params[0]) then [params[0]] else []) + KeptParams(params[1..])
  }

  /** Filtering works entry by entry in input order: a single entry
      survives exactly when it is kept, and the survivors of two runs of
      entries are those of the first run followed by those of the
      second. Together these fix both the order and the multiplicity of
      the surviving entries. */
  lemma KeptSingle(p: Param)
    ensures KeptParams([p]) == if Kept(p) then [p] else []
  {
    assert [p][1..] == [];
  }

  lemma {:induction false} KeptParamsAppend(a: seq<Param>, b: seq<Param>)
    ensures KeptParams(a + b) == KeptParams(a) + KeptParams(b)
    decreases |a|
  {
    if |a| == 0 {
      assert a + b == b;
    } else {
      assert (a + b)[0] == a[0];
      assert (a + b)[1..] == a[1..] + b;
      KeptParamsAppend(a[1..], b);
    }
  }

  /** One serialised pair `key=value`. */
  function Pair(p: Param, encode: string -> string): (s: string)
    requires Kept(p)
    ensures '=' in s
  {
    var s := encode(p.key) + "=" + encode(p.value.value);
    assert s[|encode(p.key)|] == '=';
    s
  }

  /** `searchParams.toString()`: the pairs joined by `&`. */
  function QueryString(kept: seq<Param>, encode: string -> string): (q: string)
    requires forall i :: 0 <= i < |kept| ==> Kept(kept[i])
    ensures |kept| == 0 <==> q == []
  {
    if |kept| == 0 then ""
    else if |kept| == 1 then Pair(kept[0], encode)
    else Pair(kept[0], encode) + "&" + QueryString(kept[1..], encode)
  }

  /** The serialised pairs, one per surviving entry. */
  function Pairs(kept: seq<Param>, encode: string -> string): (r: seq<string>)
    requires forall i :: 0 <= i < |kept| ==> Kept(kept[i])
    ensures |r| == |kept|
    ensures forall i :: 0 <= i < |kept| ==> r[i] == Pair(kept[i], encode)
  {
    if |kept| == 0 then [] else [Pair(kept[0], encode)] + Pairs(kept[1..], encode)
  }

  /** With an encoding that escapes `&` (as form-encoding does), splitting
      the query string on `&` gives back exactly one pair per surviving
      entry, in order. */
  lemma {:induction false} QueryStringSplits(kept: seq<Param>, encode: string -> string)
    requires forall i :: 0 <= i < |kept| ==> Kept(kept[i])
    requires forall s :: '&' !in encode(s)
    requires |kept| > 0
    ensures Split(QueryString(kept, encode), '&') == Pairs(kept, encode)
  {
    QueryStringIsJoin(kept, encode);
    var ps := Pairs(kept, encode);
    forall i | 0 <= i < |ps|
      ensures '&' !in ps[i]
    {
      var k := kept[i];
      assert ps[i] == encode(k.key) + "=" + encode(k.value.value);
      assert '&' !in encode(k.key) && '&' !in encode(k.value.value);
    }
    SplitJoin(ps, '&');
  }

  lemma {:induction false} QueryStringIsJoin(kept: seq<Param>, encode: string -> string)
    requires forall i :: 0 <= i < |kept| ==> Kept(kept[i])
    ensures QueryString(kept, encode) == Join(Pairs(kept, encode), '&')
    decreases |kept|
  {
    if |kept| >= 2 {
      QueryStringIsJoin(kept[1..], encode);
      assert Pairs(kept, encode)[1..] == Pairs(kept[1..], encode);
    }
  }

  /** `buildApiUrl`: no params object, or none surviving, leaves base plus
      endpoint; otherwise `?` and the query string follow. */
  function BuildApiUrl(baseUrl: string, endpoint: string, params: Option<seq<Param>>, encode: string -> string)
    : (url: string)
    ensures StartsWith(url, baseUrl + endpoint)
    ensures (params.None? || KeptParams(params.value) == []) ==> url == baseUrl + endpoint
    ensures params.Some? && KeptParams(params.value) != [] ==>
              |url| > |baseUrl + endpoint| && url[|baseUrl + endpoint|] == '?' &&
              url[|baseUrl + endpoint| + 1..] == QueryString(KeptParams(params.value), encode)
  {
    var url := baseUrl + endpoint;
    if params.Some? then
      var q := QueryString(KeptParams(params.value), encode);
      if q != [] then url + "?" + q else url
    else url
  }

  /** Dropping empty values does not change the URL: a params object whose
      values are all empty or missing builds the same URL as none. */
  lemma {:induction false} EmptyValuesDropped(baseUrl: string, endpoint: string, params: seq<Param>,
                                              encode: string -> string)
    requires forall i :: 0 <= i < |params| ==> !Kept(params[i])
    ensures BuildApiUrl(baseUrl, endpoint, Some(params), encode) == BuildApiUrl(baseUrl, endpoint, None, encode)
  {
  }

  /** Adding an entry with an empty value leaves the URL as it was. */
  lemma {:induction false} EmptyEntryIgnored(baseUrl: string, endpoint: string, params: seq<Param>, key: string,
                                             value: Option<string>, encode: string -> string)
    requires value.None? || value.value == []
    ensures BuildApiUrl(baseUrl, endpoint, Some([Param(key, value)] + params), encode) ==
            BuildApiUrl(baseUrl, endpoint, Some(params), encode)
  {
    var ps := [Param(key, value)] + params;
    assert KeptParams(ps) == KeptParams(params) by {
      assert ps[1..] == params;
      assert !Kept(ps[0]);
    }
  }
}

=== FILE: bottom_nav.dfy ===
/** `BottomNav`: which navigation bar a pathname gets, the tournament id
    and tab the pattern `^/tournament/([^/]+)(?:/([^/]+))?` extracts, and
    which item is highlighted. */
module BottomNav {
  import opened Text

  /** What the component renders for a pathname. */
  datatype Nav = NoNav | TournamentNav(tournamentId: string, currentTab: string) | GlobalNav

  const TournamentPrefix: string := "/tournament/"
  const DefaultTab: string := "standings"

  /** The `to` targets of the global items, in display order. */
  const GlobalTargets: seq<string> := ["/", "/search", "/favorites", "/settings"]

  /** The tabs of the tournament bar, in display order. */
  const Tabs: seq<string> := ["standings", "matches", "players", "teams"]

  /** `[^/]+` taken greedily: the longest prefix without a slash. */
  function Segment(s: string): (seg: string)
    ensures |seg| <= |s| && seg == s[..|seg|]
    ensures '/' !in seg
    ensures |seg| < |s| ==> s[|seg|] == '/'
  {
    if |s| == 0 || s[0] == '/' then ""
    else [s[0]] + Segment(s[1..])
  }

  /** A segment ended by the end of the string is the whole string. */
  lemma SegmentWhole(s: string)
    requires '/' !in s
    ensures Segment(s) == s
  {
  }

  /** A segment followed by a slash stops there. */
  lemma {:induction false} SegmentBeforeSlash(a: string, b: string)
    requires '/' !in a
    ensures Segment(a + "/" + b) == a
    decreases |a|
  {
    var s := a + "/" + b;
    if |a| > 0 {
      assert s[0] == a[0] && a[0] in a;
      assert s[1..] == a[1..] + "/" + b;
      SegmentBeforeSlash(a[1..], b);
      assert [a[0]] + a[1..] == a;
    }
  }

  /** The tab the optional group captures after the id, if any. */
  function TabAfter(after: string): (tab: string)
    ensures '/' !in tab
  {
    if |after| >= 2 && after[0] == '/' && after[1] != '/' then Segment(after[1..]) else ""
  }

  /** The component's choice: nothing on `/`, the tournament bar when the
      pattern matches (the tab defaults to `standings`), else the global
      bar. */
  function RouteNav(pathname: string): (nav: Nav)
    ensures nav == NoNav <==> pathname == "/"
    ensures nav.TournamentNav? ==>
              StartsWith(pathname, TournamentPrefix) && |nav.tournamentId| > 0 && '/' !in nav.tournamentId &&
              StartsWith(pathname[|TournamentPrefix|..], nav.tournamentId) &&
              |nav.currentTab| > 0 && '/' !in nav.currentTab
    ensures nav.TournamentNav? ==>
              nav.tournamentId == Segment(pathname[|TournamentPrefix|..]) &&
              nav.currentTab == (var tab := TabAfter(pathname[|TournamentPrefix| + |nav.tournamentId|..]);
                                 if tab == [] then DefaultTab else tab)
    ensures (StartsWith(pathname, TournamentPrefix) && |pathname| > |TournamentPrefix| &&
             pathname[|TournamentPrefix|] != '/') ==> nav.TournamentNav?
  {
    if pathname == "/" then NoNav
    else if StartsWith(pathname, TournamentPrefix) then
      var rest := pathname[|TournamentPrefix|..];
      var id := Segment(rest);
      if |id| == 0 then GlobalNav
      else
        var tab := TabAfter(rest[|id|..]);
        TournamentNav(id, if tab == [] then DefaultTab else tab)
    else GlobalNav
  }

  /** `handleTabChange`: where a tab button navigates. */
  function TabTarget(tournamentId: string, tab: string): (path: string)
    ensures StartsWith(path, TournamentPrefix)
  {
    TournamentPrefix + tournamentId + "/" + tab
  }

  /** Following a tab button lands on a page whose bar has the same
      tournament with that tab highlighted. */
  lemma {:induction false} TabTargetRoundTrip(tournamentId: string, tab: string)
    requires |tournamentId| > 0 && '/' !in tournamentId
    requires |tab| > 0 && '/' !in tab
    ensures RouteNav(TabTarget(tournamentId, tab)) == TournamentNav(tournamentId, tab)
  {
    var path := TabTarget(tournamentId, tab);
    var rest := path[|TournamentPrefix|..];
    assert rest == tournamentId + "/" + tab;
    SegmentBeforeSlash(tournamentId, tab);
    assert rest[|tournamentId|..] == "/" + tab;
    assert ("/" + tab)[1..] == tab;
    SegmentWhole(tab);
    assert path != "/" by {
      assert |path| > 1;
    }
  }

  /** A tournament page without a tab shows the standings tab. */
  lemma {:induction false} BareTournamentDefaultsToStandings(tournamentId: string)
    requires |tournamentId| > 0 && '/' !in tournamentId
    ensures RouteNav(TournamentPrefix + tournamentId) == TournamentNav(tournamentId, DefaultTab)
  {
    var path := TournamentPrefix + tournamentId;
    assert path[|TournamentPrefix|..] == tournamentId;
    SegmentWhole(tournamentId);
    assert tournamentId[|tournamentId|..] == "";
    assert path != "/" by {
      assert |path| > 1;
    }
  }

  /** A global item's highlight: the pathname is its target, or starts
      with a target other than `/`. */
  predicate GlobalItemActive(pathname: string, to: string) {
    pathname == to || (to != "/" && StartsWith(pathname, to))
  }

  /** The home item is highlighted only on `/`, where no bar is drawn, so
      the global bar never highlights it. */
  lemma HomeNeverHighlighted(pathname: string)
    requires RouteNav(pathname) == GlobalNav
    ensures !GlobalItemActive(pathname, GlobalTargets[0])
  {
  }

  /** A string cannot start with two words that differ in their first
      four characters. */
  lemma NotBothPrefixes(s: string, a: string, b: string)
    requires |a| >= 4 && |b| >= 4 && a[..4] != b[..4]
    ensures !(StartsWith(s, a) && StartsWith(s, b))
  {
  }

  /** No pathname highlights two global items. */
  lemma AtMostOneGlobalActive(pathname: string, i: nat, j: nat)
    requires i < j < |GlobalTargets|
    ensures !(GlobalItemActive(pathname, GlobalTargets[i]) && GlobalItemActive(pathname, GlobalTargets[j]))
  {
    var a, b := GlobalTargets[i], GlobalTargets[j];
    if i > 0 {
      assert a[..4] != b[..4] by {
        assert GlobalTargets[1][..4] == "/sea";
        assert GlobalTargets[2][..4] == "/fav";
        assert GlobalTargets[3][..4] == "/set";
      }
      NotBothPrefixes(pathname, a, b);
    }
  }

  /** A tab is highlighted when it is the current tab; on any tournament
      page exactly one tab is when the current tab is one of the four. */
  predicate TabActive(currentTab: string, tab: string) {
    currentTab == tab
  }

  lemma OneTabActive(currentTab: string, i: nat)
    requires i < |Tabs| && Tabs[i] == currentTab
    ensures TabActive(currentTab, Tabs[i])
    ensures forall j :: 0 <= j < |Tabs| && j != i ==> !TabActive(currentTab, Tabs[j])
  {
  }
}

=== FILE: brand_config.dfy ===
/** The theme part of `BrandConfigService`: which CSS custom properties a
    colour palette produces, how `hsl` strings are read back into RGB to
    choose a readable foreground, and how relative asset paths are
    rewritten. The document itself is not modelled: the result of
    `applyColorVariables` is the map from property name to the last value
    written to it. */
module BrandConfig {
  import opened Wrappers
  import opened Text

  datatype ColorValue = ColorValue(hsl: string, hex: string)

  /** An entry of the free-form `extended` object. Only an object that has
      both an `hsl` and a `hex` property is a colour; anything else
      (`null`, a string, a number, an object missing a property) is not.
      The two properties are taken to hold strings: an object whose `hsl`
      or `hex` is present but holds a number, `null` or `undefined` passes
      the source's `in` test and has that value's string form written, and
      that case is not modelled. */
  datatype ExtendedValue =
    | Obj(hslProp: Option<string>, hexProp: Option<string>)
    | NotObject

  datatype SportColors = SportColors(trophy: ColorValue, victory: ColorValue,
                                     defeat: ColorValue, draw: ColorValue)

  /** `BrandConfig['colors']`. `extended` holds the result of
      `Object.entries` (its keys are distinct). */
  datatype Colors = Colors(
    primary: ColorValue,
    secondary: ColorValue,
    accent: ColorValue,
    success: ColorValue,
    warning: ColorValue,
    error: ColorValue,
    background: ColorValue,
    foreground: ColorValue,
    card: ColorValue,
    cardForeground: ColorValue,
    muted: ColorValue,
    mutedForeground: ColorValue,
    border: ColorValue,
    sport: SportColors,
    extended: Option<seq<(string, ExtendedValue)>>)

  datatype Assets = Assets(logo: string, logoSmall: string, favicon: string, preview: string)

  // ---------------------------------------------------------------------
  // Asset paths
  // ---------------------------------------------------------------------

  /** One field of `resolveAssetPaths`: a path relative to the brand folder
      (`./x`) is rebased onto `/brand-configs/{configId}/`. */
  function ResolveAssetPath(path: string, configId: string): (r: string)
    ensures StartsWith(path, "./") ==> r == "/brand-configs/" + configId + "/" + path[2..]
    ensures !StartsWith(path, "./") ==> r == path
  {
    if StartsWith(path, "./") then "/brand-configs/" + configId + "/" + path[2..]
    else path
  }

  /** Rewriting is idempotent: a rebased path is absolute, so a second pass
      leaves it alone. */
  lemma ResolveAssetPathIdempotent(path: string, configId: string)
    ensures ResolveAssetPath(ResolveAssetPath(path, configId), configId) ==
            ResolveAssetPath(path, configId)
  {
    var r := ResolveAssetPath(path, configId);
    if StartsWith(path, "./") {
      assert r[0] == '/';
      assert !StartsWith(r, "./");
    }
  }

  /** `resolveAssetPaths`: the same rewrite on each of the four assets. */
  function ResolveAssetPaths(assets: Assets, configId: string): (r: Assets)
    ensures r.logo == ResolveAssetPath(assets.logo, configId)
    ensures r.logoSmall == ResolveAssetPath(assets.logoSmall, configId)
    ensures r.favicon == ResolveAssetPath(assets.favicon, configId)
    ensures r.preview == ResolveAssetPath(assets.preview, configId)
  {
    Assets(ResolveAssetPath(assets.logo, configId),
           ResolveAssetPath(assets.logoSmall, configId),
           ResolveAssetPath(assets.favicon, configId),
           ResolveAssetPath(assets.preview, configId))
  }

  lemma ResolveAssetPathsIdempotent(assets: Assets, configId: string)
    ensures ResolveAssetPaths(ResolveAssetPaths(assets, configId), configId) ==
            ResolveAssetPaths(assets, configId)
  {
    ResolveAssetPathIdempotent(assets.logo, configId);
    ResolveAssetPathIdempotent(assets.logoSmall, configId);
    ResolveAssetPathIdempotent(assets.favicon, configId);
    ResolveAssetPathIdempotent(assets.preview, configId);
  }

  // ---------------------------------------------------------------------
  // Reading an `hsl` string: /(\d+(?:\.\d+)?)\s+(\d+(?:\.\d+)?)%\s+(\d+(?:\.\d+)?)%/
  //
  // The pattern is unanchored, so the first position where it matches
  // wins. At a fixed position it matches deterministically: each `\d+`
  // must be followed by `.`, white space or `%`, never by a digit, and the
  // optional fraction must be followed by white space or `%`, never by `.`,
  // so backtracking into a shorter digit run or dropping a fraction can
  // never succeed where the greedy reading fails.
  // ---------------------------------------------------------------------

  /** End of the run of digits starting at `i`. */
  function DigitRun(s: string, i: nat): (j: nat)
    requires i <= |s|
    ensures i <= j <= |s|
    ensures forall k :: i <= k < j ==> IsDigit(s[k])
    ensures j < |s| ==> !IsDigit(s[j])
    decreases |s| - i
  {
    if i < |s| && IsDigit(s[i]) then DigitRun(s, i + 1) else i
  }

  function Pow10(n: nat): (p: nat)
    ensures p >= 1
  {
    if n == 0 then 1 else 10 * Pow10(n - 1)
  }

  /** A number read by `(\d+(?:\.\d+)?)`: where it ends and what
      `parseFloat` makes of it (exactly, on the reals). */
  datatype Number = Number(end: nat, value: real)

  function ScanNumber(s: string, i: nat): (r: Option<Number>)
    requires i <= |s|
    ensures r.Some? <==> i < |s| && IsDigit(s[i])
    ensures r.Some? ==> i < r.value.end <= |s| && r.value.value >= 0.0
    ensures r.Some? && r.value.end < |s| ==> !IsDigit(s[r.value.end])
  {
    if i < |s| && IsDigit(s[i]) then
      var j := DigitRun(s, i);
      var whole := DigitsValue(s[i..j]) as real;
      if j + 1 < |s| && s[j] == '.' && IsDigit(s[j + 1]) then
        var k := DigitRun(s, j + 1);
        var frac := s[j + 1..k];
        Some(Number(k, whole + (DigitsValue(frac) as real) / (Pow10(|frac|) as real)))
      else
        Some(Number(j, whole))
    else None
  }

  /** `\s+` starting at `i`: the position after the run, if it is not empty. */
  function ScanSpaces(s: string, i: nat): (r: Option<nat>)
    requires i <= |s|
    ensures r.Some? <==> i < |s| && IsWhiteSpace(s[i])
    ensures r.Some? ==> i < r.value <= |s| && (r.value < |s| ==> !IsWhiteSpace(s[r.value]))
  {
    var j := SkipWhiteSpace(s, i);
    if j > i then Some(j) else None
  }

  /** `%` at `i`: the position after it. */
  function ScanPercent(s: string, i: nat): (r: Option<nat>)
    requires i <= |s|
    ensures r.Some? <==> i < |s| && s[i] == '%'
    ensures r.Some? ==> r.value == i + 1
  {
    if i < |s| && s[i] == '%' then Some(i + 1) else None
  }

  /** One element of the pattern: a captured number, a run of white space,
      or a `%` sign. */
  datatype Token = NumberToken | SpaceRun | PercentSign

  /** A pattern as the list of its tokens. */
  datatype Pattern = End | Then(token: Token, rest: Pattern)

  /** The pattern `hslToRgb` matches, token by token. */
  const HslPattern: Pattern :=
    Then(NumberToken, Then(SpaceRun, Then(NumberToken, Then(PercentSign,
      Then(SpaceRun, Then(NumberToken, Then(PercentSign, End)))))))

  /** How many numbers the pattern captures. */
  function Captures(p: Pattern): nat {
    match p
    case End => 0
    case Then(t, rest) => (if t == NumberToken then 1 else 0) + Captures(rest)
  }

  /** Matching `p` from position `i`, after the numbers `acc` captured so
      far: the captured numbers, in order. */
  function MatchTokens(s: string, i: nat, p: Pattern, acc: seq<real>): (r: Option<seq<real>>)
    requires i <= |s|
    ensures r.Some? ==> |r.value| == |acc| + Captures(p) && r.value[..|acc|] == acc
    decreases p
  {
    match p
    case End => Some(acc)
    case Then(NumberToken, rest) =>
      (match ScanNumber(s, i)
       case None => None
       case Some(n) => MatchTokens(s, n.end, rest, acc + [n.value]))
    case Then(SpaceRun, rest) =>
      (match ScanSpaces(s, i)
       case None => None
       case Some(j) => MatchTokens(s, j, rest, acc))
    case Then(PercentSign, rest) =>
      (match ScanPercent(s, i)
       case None => None
       case Some(j) => MatchTokens(s, j, rest, acc))
  }

  /** The pattern tried at position `i`: the three captured numbers. */
  function MatchAt(s: string, i: nat): Option<(real, real, real)>
    requires i <= |s|
  {
    assert Captures(HslPattern) == 3;
    match MatchTokens(s, i, HslPattern, [])
    case None => None
    case Some(v) => Some((v[0], v[1], v[2]))
  }

  /** The first of `f(i), f(i + 1), ..., f(n)` that is present. */
  function FirstSome<R>(f: nat -> Option<R>, i: nat, n: nat): Option<R>
    decreases n - i
  {
    if f(i).Some? || i >= n then f(i) else FirstSome(f, i + 1, n)
  }

  /** `FirstSome` finds a value iff there is one, and then it is the one at
      the smallest position. */
  lemma {:induction false} FirstSomeLeftmost<R>(f: nat -> Option<R>, i: nat, n: nat)
    requires i <= n
    ensures FirstSome(f, i, n).Some? <==> exists k :: i <= k <= n && f(k).Some?
    ensures FirstSome(f, i, n).Some? ==>
      exists k :: i <= k <= n && FirstSome(f, i, n) == f(k) && forall j :: i <= j < k ==> f(j).None?
    decreases n - i
  {
    if f(i).None? && i < n {
      FirstSomeLeftmost(f, i + 1, n);
    }
  }

  /** The pattern tried at every position of `s`. */
  function MatchAtAny(s: string): nat -> Option<(real, real, real)> {
    (k: nat) => if k <= |s| then MatchAt(s, k) else None
  }

  /** `hsl.match(...)`: the three numbers of the first match, if any. */
  function ParseHsl(s: string): (r: Option<(real, real, real)>) {
    FirstSome(MatchAtAny(s), 0, |s|)
  }

  /** `ParseHsl` finds a match iff the pattern matches somewhere in the
      string, and then it is the match at the leftmost such position. */
  lemma ParseHslLeftmost(s: string)
    ensures ParseHsl(s).Some? <==> exists k :: 0 <= k <= |s| && MatchAt(s, k).Some?
    ensures ParseHsl(s).Some? ==>
      exists k :: 0 <= k <= |s| && ParseHsl(s) == MatchAt(s, k) &&
        forall j :: 0 <= j < k ==> MatchAt(s, j).None?
  {
    var f := MatchAtAny(s);
    FirstSomeLeftmost(f, 0, |s|);
    assert forall k :: 0 <= k <= |s| ==> f(k) == MatchAt(s, k);
  }

  /** The text `"{h} {s}% {l}%"`, as the palettes write their colours. */
  function FormatHsl(h: nat, sat: nat, l: nat): string {
    NatToString(h) + " " + NatToString(sat) + "% " + NatToString(l) + "%"
  }

  /** The digit run from `i` ends at the first non-digit `j`. */
  lemma {:induction false} DigitRunTo(s: string, i: nat, j: nat)
    requires i <= j <= |s|
    requires forall k :: i <= k < j ==> IsDigit(s[k])
    requires j == |s| || !IsDigit(s[j])
    ensures DigitRun(s, i) == j
    decreases j - i
  {
    if i < j {
      DigitRunTo(s, i + 1, j);
    }
  }

  /** `s[i..j]` is a non-empty run of digits worth `n`. */
  ghost predicate DigitsAt(s: string, i: nat, j: nat, n: nat) {
    i < j <= |s| && AllDigits(s[i..j]) && DigitsValue(s[i..j]) == n
  }

  /** A run of digits followed by neither a digit nor `.` is read as the
      number it spells. */
  lemma NumberWritten(s: string, i: nat, j: nat, n: nat)
    requires DigitsAt(s, i, j, n) && j < |s| && !IsDigit(s[j]) && s[j] != '.'
    ensures ScanNumber(s, i) == Some(Number(j, n as real))
  {
    assert forall k :: i <= k < j ==> s[k] == s[i..j][k - i];
    DigitRunTo(s, i, j);
  }

  /** A single space before a digit is a `\s+` of length one. */
  lemma OneSpace(s: string, i: nat)
    requires i + 1 < |s| && s[i] == ' ' && IsDigit(s[i + 1])
    ensures ScanSpaces(s, i) == Some(i + 1)
  {
  }

  /** Where the parts of `"{a} {b}% {c}%"` sit. */
  lemma HslLayout(a: string, b: string, c: string)
    ensures var s := a + " " + b + "% " + c + "%";
      var p1, p2 := |a|, |a| + 1 + |b|;
      var p3 := p2 + 2 + |c|;
      && |s| == p3 + 1
      && s[0..p1] == a && s[p1] == ' ' && s[p1 + 1..p2] == b
      && s[p2] == '%' && s[p2 + 1] == ' ' && s[p2 + 2..p3] == c && s[p3] == '%'
  {
    var s1 := a + " ";
    var s2 := s1 + b;
    var s3 := s2 + "% ";
    var s4 := s3 + c;
    var s := s4 + "%";
    assert s[0..|a|] == s1[0..|a|] == a;
    assert s[|s1|..|s2|] == s2[|s1|..|s2|] == b;
    assert s[|s3|..|s4|] == s4[|s3|..|s4|] == c;
  }

  /** A number token reads the number at `i`. */
  lemma NumberStep(s: string, i: nat, rest: Pattern, acc: seq<real>, n: Number)
    requires i <= |s| && ScanNumber(s, i) == Some(n)
    ensures n.end <= |s|
    ensures MatchTokens(s, i, Then(NumberToken, rest), acc) == MatchTokens(s, n.end, rest, acc + [n.value])
  {
  }

  /** A space token over a single space before a digit. */
  lemma SpaceStep(s: string, i: nat, rest: Pattern, acc: seq<real>)
    requires i + 1 < |s| && s[i] == ' ' && IsDigit(s[i + 1])
    ensures MatchTokens(s, i, Then(SpaceRun, rest), acc) == MatchTokens(s, i + 1, rest, acc)
  {
    OneSpace(s, i);
  }

  /** A `%` token over a `%`. */
  lemma PercentStep(s: string, i: nat, rest: Pattern, acc: seq<real>)
    requires i < |s| && s[i] == '%'
    ensures MatchTokens(s, i, Then(PercentSign, rest), acc) == MatchTokens(s, i + 1, rest, acc)
  {
  }

  /** A digit run starts with a digit. */
  lemma DigitsStart(s: string, i: nat, j: nat, n: nat)
    requires DigitsAt(s, i, j, n)
    ensures IsDigit(s[i])
  {
    assert s[i] == s[i..j][0];
  }

  /** The tail of the pattern after its second number: `%\s+`, the third
      number and `%`. */
  const AfterSecond: Pattern := Then(PercentSign, Then(SpaceRun, Then(NumberToken, Then(PercentSign, End))))

  /** The third number and its `%`. */
  lemma ThirdPart(s: string, w: nat, p3: nat, l: nat, acc: seq<real>)
    requires DigitsAt(s, w, p3, l) && p3 < |s| && s[p3] == '%'
    ensures MatchTokens(s, w, Then(NumberToken, Then(PercentSign, End)), acc) == Some(acc + [l as real])
  {
    NumberWritten(s, w, p3, l);
    NumberStep(s, w, Then(PercentSign, End), acc, Number(p3, l as real));
    PercentStep(s, p3, End, acc + [l as real]);
  }

  /** The second number, `% `, and the rest. */
  lemma SecondPart(s: string, w: nat, p2: nat, p3: nat, sat: nat, l: nat, acc: seq<real>)
    requires DigitsAt(s, w, p2, sat) && p2 + 2 < |s| && s[p2] == '%' && s[p2 + 1] == ' '
    requires DigitsAt(s, p2 + 2, p3, l) && p3 < |s| && s[p3] == '%'
    ensures MatchTokens(s, w, Then(NumberToken, AfterSecond), acc) == Some(acc + [sat as real] + [l as real])
  {
    var a := acc + [sat as real];
    NumberWritten(s, w, p2, sat);
    DigitsStart(s, p2 + 2, p3, l);
    ThirdPart(s, p2 + 2, p3, l, a);
    SpaceStep(s, p2 + 1, Then(NumberToken, Then(PercentSign, End)), a);
    PercentStep(s, p2, AfterSecond.rest, a);
    NumberStep(s, w, AfterSecond, acc, Number(p2, sat as real));
  }

  /** A string laid out as `"{h} {sat}% {l}%"`, with digits worth `h`, `sat`
      and `l`, matches at its start with those three numbers. */
  lemma ParseLaidOut(s: string, p1: nat, p2: nat, p3: nat, h: nat, sat: nat, l: nat)
    requires DigitsAt(s, 0, p1, h) && p1 + 1 < |s| && s[p1] == ' '
    requires DigitsAt(s, p1 + 1, p2, sat) && p2 + 2 < |s| && s[p2] == '%' && s[p2 + 1] == ' '
    requires DigitsAt(s, p2 + 2, p3, l) && p3 < |s| && s[p3] == '%'
    ensures MatchAt(s, 0) == Some((h as real, sat as real, l as real))
  {
    var a: seq<real> := [h as real];
    SecondPart(s, p1 + 1, p2, p3, sat, l, a);
    DigitsStart(s, p1 + 1, p2, sat);
    SpaceStep(s, p1, Then(NumberToken, AfterSecond), a);
    NumberWritten(s, 0, p1, h);
    NumberStep(s, 0, HslPattern.rest, [], Number(p1, h as real));
    assert [] + [h as real] == a;
  }

  /** Reading back a written-out `hsl` colour gives its three numbers. */
  lemma ParseFormatHsl(h: nat, sat: nat, l: nat)
    ensures ParseHsl(FormatHsl(h, sat, l)) == Some((h as real, sat as real, l as real))
  {
    var a, b, c := NatToString(h), NatToString(sat), NatToString(l);
    var s := FormatHsl(h, sat, l);
    var p1, p2 := |a|, |a| + 1 + |b|;
    var p3 := p2 + 2 + |c|;
    HslLayout(a, b, c);
    NatToStringRoundTrip(h);
    NatToStringRoundTrip(sat);
    NatToStringRoundTrip(l);
    ParseLaidOut(s, p1, p2, p3, h, sat, l);
    assert MatchAtAny(s)(0) == MatchAt(s, 0);
  }

  // ---------------------------------------------------------------------
  // hslToRgb and the contrast colour
  // ---------------------------------------------------------------------

  /** `hue2rgb` */
  function HueToRgb(p: real, q: real, t0: real): real {
    var t1 := if t0 < 0.0 then t0 + 1.0 else t0;
    var t := if t1 > 1.0 then t1 - 1.0 else t1;
    if t < 1.0 / 6.0 then p + (q - p) * 6.0 * t
    else if t < 1.0 / 2.0 then q
    else if t < 2.0 / 3.0 then p + (q - p) * (2.0 / 3.0 - t) * 6.0
    else p
  }

  /** The red, green and blue channels, in [0, 1] for in-range input,
      before scaling and rounding, from the three numbers of the pattern. */
  function Channels(hv: real, sv: real, lv: real): (rgb: (real, real, real))
    ensures sv == 0.0 ==> rgb.0 == rgb.1 == rgb.2 == lv / 100.0
  {
    var h := hv / 360.0;
    var s := sv / 100.0;
    var l := lv / 100.0;
    if s == 0.0 then (l, l, l)
    else
      var q := if l < 0.5 then l * (1.0 + s) else l + s - l * s;
      var p := 2.0 * l - q;
      (HueToRgb(p, q, h + 1.0 / 3.0), HueToRgb(p, q, h), HueToRgb(p, q, h - 1.0 / 3.0))
  }

  /** `Math.round`: halves go up. */
  function Round(x: real): (n: int)
    ensures x - 0.5 < n as real <= x + 0.5
  {
    (x + 0.5).Floor
  }

  /** `hslToRgb`: a string the pattern does not match is black. */
  function HslToRgb(hsl: string): (rgb: (int, int, int))
    ensures ParseHsl(hsl).None? ==> rgb == (0, 0, 0)
  {
    match ParseHsl(hsl)
    case None => (0, 0, 0)
    case Some((hv, sv, lv)) =>
      var c := Channels(hv, sv, lv);
      (Round(c.0 * 255.0), Round(c.1 * 255.0), Round(c.2 * 255.0))
  }

  /** One channel of `calculateLuminance`, linearised. The power law
      `((c + 0.055) / 1.055) ^ 2.4` of the upper branch is the parameter
      `gamma`. */
  function LinearChannel(c: int, gamma: real -> real): real {
    var x := (c as real) / 255.0;
    if x <= 0.03928 then x / 12.92 else gamma((x + 0.055) / 1.055)
  }

  /** `calculateLuminance` */
  function Luminance(rgb: (int, int, int), gamma: real -> real): (y: real)
    ensures rgb == (0, 0, 0) ==> y == 0.0
  {
    0.2126 * LinearChannel(rgb.0, gamma) + 0.7152 * LinearChannel(rgb.1, gamma)
      + 0.0722 * LinearChannel(rgb.2, gamma)
  }

  const Black: string := "0 0% 0%"
  const White: string := "0 0% 100%"

  /** `getContrastColor`: black text on light colours, white otherwise.
      A string that is not an `hsl` colour reads as black, whose luminance
      is 0, so it always gets white text. */
  function ContrastColor(hsl: string, gamma: real -> real): (fg: string)
    ensures fg == Black || fg == White
    ensures fg == Black <==> Luminance(HslToRgb(hsl), gamma) > 0.5
    ensures ParseHsl(hsl).None? ==> fg == White
  {
    if Luminance(HslToRgb(hsl), gamma) > 0.5 then Black else White
  }

  /** A grey (zero saturation) of lightness `l` percent gets the same
      colour on all three channels. */
  lemma GreyHasEqualChannels(h: nat, l: nat)
    ensures var rgb := HslToRgb(FormatHsl(h, 0, l));
            rgb.0 == rgb.1 == rgb.2 == Round(l as real / 100.0 * 255.0)
  {
    ParseFormatHsl(h, 0, l);
  }

  /** White has the largest luminance, so with a power law that keeps 1
      fixed it gets black text. */
  lemma WhiteGetsBlackText(gamma: real -> real)
    requires gamma(1.0) == 1.0
    ensures ContrastColor(White, gamma) == Black
  {
    assert NatToString(0) == "0";
    assert NatToString(100) == "100" by {
      assert NatToString(10) == "10";
    }
    assert FormatHsl(0, 0, 100) == White;
    GreyHasEqualChannels(0, 100);
    assert Round(100 as real / 100.0 * 255.0) == 255;
    assert HslToRgb(White) == (255, 255, 255);
    assert LinearChannel(255, gamma) == 1.0;
  }

  /** The grey of lightness 0 has all channels 0. */
  lemma ZeroLightnessIsZeroRgb(h: nat)
    ensures HslToRgb(FormatHsl(h, 0, 0)) == (0, 0, 0)
  {
    GreyHasEqualChannels(h, 0);
    assert Round(0 as real / 100.0 * 255.0) == 0;
  }

  /** Black has luminance 0, so it gets white text whatever the power law. */
  lemma BlackGetsWhiteText(gamma: real -> real)
    ensures ContrastColor(Black, gamma) == White
  {
    assert FormatHsl(0, 0, 0) == Black by {
      assert NatToString(0) == "0";
    }
    ZeroLightnessIsZeroRgb(0);
  }

  // ---------------------------------------------------------------------
  // applyColorVariables
  // ---------------------------------------------------------------------

  /** `isColorValue`: a truthy object with both properties. */
  predicate IsColorValue(v: ExtendedValue) {
    v.Obj? && v.hslProp.Some? && v.hexProp.Some?
  }

  const ExtendedPrefix: string := "--brand-extended-"

  function ExtendedName(key: string): (n: string)
    ensures StartsWith(n, ExtendedPrefix)
  {
    ExtendedPrefix + key
  }

  function ExtendedHexName(key: string): (n: string)
    ensures StartsWith(n, ExtendedPrefix)
  {
    ExtendedPrefix + key + "-hex"
  }

  /** A custom property set on the document root. The fixed ones are
      constructors; an `extended` one is known by its full name, which
      starts with `ExtendedPrefix`. */
  datatype Property =
    | Primary | PrimaryForeground | Secondary | SecondaryForeground
    | Accent | AccentForeground | Destructive | DestructiveForeground
    | SportVictory | SportDefeat | SportTrophy | SportDraw
    | Background | Foreground | Card | CardForeground | Muted | MutedForeground
    | Border | Input | Ring
    | BrandPrimary | BrandSecondary | BrandAccent | BrandSuccess | BrandWarning | BrandError
    | Ext(name: string)
  {
    /** The property's CSS name. */
    function Name(): string {
      match this
      case Ext(n) => n
      case Primary => "--primary"
      case PrimaryForeground => "--primary-foreground"
      case Secondary => "--secondary"
      case SecondaryForeground => "--secondary-foreground"
      case Accent => "--accent"
      case AccentForeground => "--accent-foreground"
      case Destructive => "--destructive"
      case DestructiveForeground => "--destructive-foreground"
      case SportVictory => "--brand-sport-victory"
      case SportDefeat => "--brand-sport-defeat"
      case SportTrophy => "--brand-sport-trophy"
      case SportDraw => "--brand-sport-draw"
      case Background => "--background"
      case Foreground => "--foreground"
      case Card => "--card"
      case CardForeground => "--card-foreground"
      case Muted => "--muted"
      case MutedForeground => "--muted-foreground"
      case Border => "--border"
      case Input => "--input"
      case Ring => "--ring"
      case BrandPrimary => "--brand-primary"
      case BrandSecondary => "--brand-secondary"
      case BrandAccent => "--brand-accent"
      case BrandSuccess => "--brand-success"
      case BrandWarning => "--brand-warning"
      case BrandError => "--brand-error"
    }
  }

  /** No fixed property's name falls under the extended prefix, so an
      `extended` entry can never overwrite a fixed property. */
  lemma FixedNamesNotExtended(p: Property)
    requires !p.Ext?
    ensures !StartsWith(p.Name(), ExtendedPrefix)
  {
    var n := p.Name();
    if |n| >= |ExtendedPrefix| {
      assert n[8] != ExtendedPrefix[8] || n[9] != ExtendedPrefix[9];
    }
  }

  /** Different fixed properties have different CSS names, so keying the
      map by `Property` rather than by name merges nothing. */
  lemma FixedNamesDistinct(p: Property, q: Property)
    requires !p.Ext? && !q.Ext? && p.Name() == q.Name()
    ensures p == q
  {
  }

  /** The `forEach` over `Object.entries(colors.extended)`. */
  function WriteExtended(m: map<Property, string>, entries: seq<(string, ExtendedValue)>)
    : map<Property, string>
    decreases |entries|
  {
    if |entries| == 0 then m
    else
      var (key, v) := entries[0];
      if IsColorValue(v) then
        WriteExtended(m[Ext(ExtendedName(key)) := v.hslProp.value][Ext(ExtendedHexName(key)) := v.hexProp.value],
                      entries[1..])
      else
        WriteExtended(m, entries[1..])
  }

  /** The names an extended entry contributes, if it is a colour. */
  ghost predicate ExtendedEmits(entries: seq<(string, ExtendedValue)>, n: string) {
    exists i :: 0 <= i < |entries| && IsColorValue(entries[i].1) &&
      (n == ExtendedName(entries[i].0) || n == ExtendedHexName(entries[i].0))
  }

  /** Exactly the colour entries add properties. */
  lemma {:induction false} WriteExtendedNames(m: map<Property, string>, entries: seq<(string, ExtendedValue)>)
    ensures forall p :: p in WriteExtended(m, entries) <==> p in m || (p.Ext? && ExtendedEmits(entries, p.name))
    decreases |entries|
  {
    if |entries| > 0 {
      var (key, v) := entries[0];
      var m' := if IsColorValue(v) then m[Ext(ExtendedName(key)) := v.hslProp.value][Ext(ExtendedHexName(key)) := v.hexProp.value] else m;
      WriteExtendedNames(m', entries[1..]);
      forall n ensures ExtendedEmits(entries, n) <==>
          (IsColorValue(v) && (n == ExtendedName(key) || n == ExtendedHexName(key))) || ExtendedEmits(entries[1..], n)
      {
        if ExtendedEmits(entries, n) {
          var i :| 0 <= i < |entries| && IsColorValue(entries[i].1) &&
            (n == ExtendedName(entries[i].0) || n == ExtendedHexName(entries[i].0));
          if i > 0 {
            assert entries[1..][i - 1] == entries[i];
          }
        }
        if ExtendedEmits(entries[1..], n) {
          var i :| 0 <= i < |entries[1..]| && IsColorValue(entries[1..][i].1) &&
            (n == ExtendedName(entries[1..][i].0) || n == ExtendedHexName(entries[1..][i].0));
          assert entries[i + 1] == entries[1..][i];
        }
      }
    }
  }

  /** No colour key of `extended` is another colour key plus `-hex`, so the
      `-hex` name of one entry never overwrites the plain name of another. */
  ghost predicate NoHexClash(entries: seq<(string, ExtendedValue)>) {
    forall i, j :: 0 <= i < |entries| && 0 <= j < |entries| &&
      IsColorValue(entries[i].1) && IsColorValue(entries[j].1)
      ==> entries[i].0 != entries[j].0 + "-hex"
  }

  ghost predicate DistinctKeys(entries: seq<(string, ExtendedValue)>) {
    forall i, j :: 0 <= i < j < |entries| ==> entries[i].0 != entries[j].0
  }

  lemma ExtendedNamesDiffer(a: string, b: string)
    requires a != b && a != b + "-hex" && b != a + "-hex"
    ensures ExtendedName(a) != ExtendedName(b)
    ensures ExtendedName(a) != ExtendedHexName(b)
    ensures ExtendedHexName(a) != ExtendedName(b)
    ensures ExtendedHexName(a) != ExtendedHexName(b)
  {
    HexNameInjective(a, b);
  }

  lemma HexNameInjective(a: string, b: string)
    ensures ExtendedHexName(a) == ExtendedHexName(b) ==> a == b
  {
    var x, y := ExtendedHexName(a), ExtendedHexName(b);
    var k := |ExtendedPrefix|;
    assert x[k..k + |a|] == a;
    assert y[k..k + |b|] == b;
  }

  /** A key of `extended` that is another key plus `-hex` names the same
      property as that key's `-hex` twin: the later entry's write wins. */
  lemma HexTwinSharesName(key: string)
    ensures ExtendedName(key + "-hex") == ExtendedHexName(key)
  {
    assert ExtendedPrefix + (key + "-hex") == ExtendedPrefix + key + "-hex";
  }

  /** Every colour entry ends up with its own `hsl` under its name and its
      own `hex` under its `-hex` name. */
  lemma {:induction false} WriteExtendedValues(m: map<Property, string>, entries: seq<(string, ExtendedValue)>)
    requires DistinctKeys(entries) && NoHexClash(entries)
    ensures forall i :: 0 <= i < |entries| && IsColorValue(entries[i].1) ==>
      var r := WriteExtended(m, entries);
      Ext(ExtendedName(entries[i].0)) in r && r[Ext(ExtendedName(entries[i].0))] == entries[i].1.hslProp.value &&
      Ext(ExtendedHexName(entries[i].0)) in r && r[Ext(ExtendedHexName(entries[i].0))] == entries[i].1.hexProp.value
    decreases |entries|
  {
    if |entries| > 0 {
      var (key, v) := entries[0];
      var m' := if IsColorValue(v) then m[Ext(ExtendedName(key)) := v.hslProp.value][Ext(ExtendedHexName(key)) := v.hexProp.value] else m;
      var tail := entries[1..];
      assert forall i :: 0 <= i < |tail| ==> tail[i] == entries[i + 1];
      WriteExtendedValues(m', tail);
      var r := WriteExtended(m, entries);
      assert r == WriteExtended(m', tail);
      if IsColorValue(v) {
        // The head's names are not written again by the tail.
        forall n | n == ExtendedName(key) || n == ExtendedHexName(key)
          ensures Ext(n) in r && r[Ext(n)] == m'[Ext(n)]
        {
          forall i | 0 <= i < |tail| && IsColorValue(tail[i].1)
            ensures n != ExtendedName(tail[i].0) && n != ExtendedHexName(tail[i].0)
          {
            assert entries[i + 1] == tail[i];
            ExtendedNamesDiffer(key, tail[i].0);
          }
          WriteExtendedUntouched(m', tail, Ext(n));
        }
      }
    }
  }

  /** A property no entry emits keeps its value. */
  lemma {:induction false} WriteExtendedUntouched(m: map<Property, string>, entries: seq<(string, ExtendedValue)>, p: Property)
    requires p in m && !(p.Ext? && ExtendedEmits(entries, p.name))
    ensures p in WriteExtended(m, entries) && WriteExtended(m, entries)[p] == m[p]
    decreases |entries|
  {
    if |entries| > 0 {
      var (key, v) := entries[0];
      var m' := if IsColorValue(v) then m[Ext(ExtendedName(key)) := v.hslProp.value][Ext(ExtendedHexName(key)) := v.hexProp.value] else m;
      var tail := entries[1..];
      if p.Ext? {
        forall i | 0 <= i < |tail| && IsColorValue(tail[i].1)
          ensures p.name != ExtendedName(tail[i].0) && p.name != ExtendedHexName(tail[i].0)
        {
          assert entries[i + 1] == tail[i];
        }
        if IsColorValue(v) {
          assert p.name != ExtendedName(key) && p.name != ExtendedHexName(key);
        }
      }
      WriteExtendedUntouched(m', tail, p);
    }
  }

  /** The value `applyColorVariables` gives each fixed property. */
  function FixedValue(c: Colors, contrast: string -> string, p: Property): string {
    match p
    case Primary => c.primary.hsl
    case PrimaryForeground => contrast(c.primary.hsl)
    case Secondary => c.secondary.hsl
    case SecondaryForeground => contrast(c.secondary.hsl)
    case Accent => c.accent.hsl
    case AccentForeground => contrast(c.accent.hsl)
    case Destructive => c.error.hsl
    case DestructiveForeground => contrast(c.error.hsl)
    case SportVictory => c.sport.victory.hsl
    case SportDefeat => c.sport.defeat.hsl
    case SportTrophy => c.sport.trophy.hsl
    case SportDraw => c.sport.draw.hsl
    case Background => c.background.hsl
    case Foreground => c.foreground.hsl
    case Card => c.card.hsl
    case CardForeground => c.cardForeground.hsl
    case Muted => c.muted.hsl
    case MutedForeground => c.mutedForeground.hsl
    case Border => c.border.hsl
    case Input => c.border.hsl
    case Ring => c.primary.hsl
    case BrandPrimary => c.primary.hsl
    case BrandSecondary => c.secondary.hsl
    case BrandAccent => c.accent.hsl
    case BrandSuccess => c.success.hsl
    case BrandWarning => c.warning.hsl
    case BrandError => c.error.hsl
    case Ext(_) => ""
  }

  /** The properties written before the `extended` block. */
  const HeadProperties: set<Property> := {
    Primary, PrimaryForeground, Secondary, SecondaryForeground,
    Accent, AccentForeground, Destructive, DestructiveForeground,
    SportVictory, SportDefeat, SportTrophy, SportDraw}

  /** The properties written after the `extended` block. */
  const TailProperties: set<Property> := {
    Background, Foreground, Card, CardForeground, Muted, MutedForeground,
    Border, Input, Ring, BrandPrimary, BrandSecondary, BrandAccent,
    BrandSuccess, BrandWarning, BrandError}

  function HeadVariables(c: Colors, contrast: string -> string): map<Property, string> {
    map p | p in HeadProperties :: FixedValue(c, contrast, p)
  }

  function TailVariables(c: Colors, contrast: string -> string): map<Property, string> {
    map p | p in TailProperties :: FixedValue(c, contrast, p)
  }

  function ExtendedEntries(c: Colors): seq<(string, ExtendedValue)> {
    if c.extended.Some? then c.extended.value else []
  }

  /** The writes of `applyColorVariables` in source order: the head block,
      the `extended` block, then the base block; a later write to the same
      property wins. */
  function Emitted(c: Colors, contrast: string -> string): map<Property, string> {
    WriteExtended(HeadVariables(c, contrast), ExtendedEntries(c)) + TailVariables(c, contrast)
  }

  /** Every fixed property is written by the head block or the base
      block. */
  lemma FixedWritten(p: Property)
    requires !p.Ext?
    ensures p in HeadProperties || p in TailProperties
  {
  }

  lemma EmittedNames(c: Colors, contrast: string -> string)
    ensures forall p :: p in Emitted(c, contrast) <==> !p.Ext? || ExtendedEmits(ExtendedEntries(c), p.name)
  {
    EmittedFixed(c, contrast);
    EmittedOnlyListed(c, contrast);
    EmittedExtended(c, contrast);
  }

  lemma EmittedOnlyListed(c: Colors, contrast: string -> string)
    ensures forall p: Property :: p in Emitted(c, contrast) && p.Ext? ==> ExtendedEmits(ExtendedEntries(c), p.name)
  {
    WriteExtendedNames(HeadVariables(c, contrast), ExtendedEntries(c));
  }

  lemma EmittedExtended(c: Colors, contrast: string -> string)
    ensures forall p: Property :: p.Ext? && ExtendedEmits(ExtendedEntries(c), p.name) ==> p in Emitted(c, contrast)
  {
    WriteExtendedNames(HeadVariables(c, contrast), ExtendedEntries(c));
  }

  /** Every fixed property ends with its value from the table: the
      `extended` block, which writes only under its prefix, overwrites
      none of them. */
  lemma EmittedFixed(c: Colors, contrast: string -> string)
    ensures forall p: Property :: !p.Ext? ==>
      p in Emitted(c, contrast) && Emitted(c, contrast)[p] == FixedValue(c, contrast, p)
  {
    forall p: Property | !p.Ext?
      ensures p in Emitted(c, contrast) && Emitted(c, contrast)[p] == FixedValue(c, contrast, p)
    {
      FixedWritten(p);
      if p !in TailProperties {
        WriteExtendedUntouched(HeadVariables(c, contrast), ExtendedEntries(c), p);
      }
    }
  }

  /** The table's entries for the head block. */
  lemma HeadTable(c: Colors, contrast: string -> string)
    ensures FixedValue(c, contrast, Primary) == c.primary.hsl
    ensures FixedValue(c, contrast, PrimaryForeground) == contrast(c.primary.hsl)
    ensures FixedValue(c, contrast, Secondary) == c.secondary.hsl
    ensures FixedValue(c, contrast, SecondaryForeground) == contrast(c.secondary.hsl)
    ensures FixedValue(c, contrast, Accent) == c.accent.hsl
    ensures FixedValue(c, contrast, AccentForeground) == contrast(c.accent.hsl)
    ensures FixedValue(c, contrast, Destructive) == c.error.hsl
    ensures FixedValue(c, contrast, DestructiveForeground) == contrast(c.error.hsl)
    ensures FixedValue(c, contrast, SportVictory) == c.sport.victory.hsl
    ensures FixedValue(c, contrast, SportDefeat) == c.sport.defeat.hsl
    ensures FixedValue(c, contrast, SportTrophy) == c.sport.trophy.hsl
    ensures FixedValue(c, contrast, SportDraw) == c.sport.draw.hsl
  {
  }

  /** The table's entries for the base block. */
  lemma TailTable(c: Colors, contrast: string -> string)
    ensures FixedValue(c, contrast, Background) == c.background.hsl
    ensures FixedValue(c, contrast, Foreground) == c.foreground.hsl
    ensures FixedValue(c, contrast, Card) == c.card.hsl
    ensures FixedValue(c, contrast, CardForeground) == c.cardForeground.hsl
  {
  }

  /** The table's entries for the muted and border colours of the base
      block. */
  lemma MutedTable(c: Colors, contrast: string -> string)
    ensures FixedValue(c, contrast, Muted) == c.muted.hsl
    ensures FixedValue(c, contrast, MutedForeground) == c.mutedForeground.hsl
    ensures FixedValue(c, contrast, Border) == c.border.hsl
    ensures FixedValue(c, contrast, Input) == c.border.hsl
  {
  }

  /** The table's entries for the brand aliases of the base block. */
  lemma BrandTable(c: Colors, contrast: string -> string)
    ensures FixedValue(c, contrast, Ring) == c.primary.hsl
    ensures FixedValue(c, contrast, BrandPrimary) == c.primary.hsl
    ensures FixedValue(c, contrast, BrandSecondary) == c.secondary.hsl
    ensures FixedValue(c, contrast, BrandAccent) == c.accent.hsl
  {
  }

  /** The table's entries for the status colours of the base block. */
  lemma StatusTable(c: Colors, contrast: string -> string)
    ensures FixedValue(c, contrast, BrandSuccess) == c.success.hsl
    ensures FixedValue(c, contrast, BrandWarning) == c.warning.hsl
    ensures FixedValue(c, contrast, BrandError) == c.error.hsl
  {
  }

  /** `applyColorVariables`: the custom properties a palette sets, each
      with the value it ends with. */
  function ApplyColorVariables(c: Colors, contrast: string -> string): (vars: map<Property, string>)
    ensures forall p: Property :: !p.Ext? ==> p in vars && vars[p] == FixedValue(c, contrast, p)
  {
    EmittedFixed(c, contrast);
    Emitted(c, contrast)
  }

  /** Exactly the fixed properties and the names of the colour entries of
      `extended` are set. */
  lemma AppliedNames(c: Colors, contrast: string -> string)
    ensures forall p :: p in ApplyColorVariables(c, contrast) <==> !p.Ext? || ExtendedEmits(ExtendedEntries(c), p.name)
  {
    EmittedNames(c, contrast);
  }

  /** The primary colour is written under three names and the error colour
      under two, with the same value under each. */
  lemma AppliedPrimaryAliases(c: Colors, contrast: string -> string)
    ensures var vars := ApplyColorVariables(c, contrast);
      && vars[Primary] == vars[Ring] == vars[BrandPrimary] == c.primary.hsl
      && vars[Destructive] == vars[BrandError] == c.error.hsl
  {
    var vars := ApplyColorVariables(c, contrast);
    assert vars[Primary] == FixedValue(c, contrast, Primary);
    assert vars[Ring] == FixedValue(c, contrast, Ring);
    assert vars[BrandPrimary] == FixedValue(c, contrast, BrandPrimary);
    assert vars[Destructive] == FixedValue(c, contrast, Destructive);
    assert vars[BrandError] == FixedValue(c, contrast, BrandError);
    HeadTable(c, contrast);
    TailTable(c, contrast);
    MutedTable(c, contrast);
    BrandTable(c, contrast);
    StatusTable(c, contrast);
  }

  /** Border, secondary and accent are each written under two names. */
  lemma AppliedOtherAliases(c: Colors, contrast: string -> string)
    ensures var vars := ApplyColorVariables(c, contrast);
      && vars[Input] == vars[Border] == c.border.hsl
      && vars[Secondary] == vars[BrandSecondary] == c.secondary.hsl
      && vars[Accent] == vars[BrandAccent] == c.accent.hsl
  {
    var vars := ApplyColorVariables(c, contrast);
    assert vars[Input] == FixedValue(c, contrast, Input);
    assert vars[Border] == FixedValue(c, contrast, Border);
    assert vars[Secondary] == FixedValue(c, contrast, Secondary);
    assert vars[BrandSecondary] == FixedValue(c, contrast, BrandSecondary);
    assert vars[Accent] == FixedValue(c, contrast, Accent);
    assert vars[BrandAccent] == FixedValue(c, contrast, BrandAccent);
    HeadTable(c, contrast);
    TailTable(c, contrast);
    MutedTable(c, contrast);
    BrandTable(c, contrast);
    StatusTable(c, contrast);
  }

  /** Each foreground is the contrast colour of its background. */
  lemma AppliedForegrounds(c: Colors, contrast: string -> string)
    ensures var vars := ApplyColorVariables(c, contrast);
      && vars[PrimaryForeground] == contrast(c.primary.hsl)
      && vars[SecondaryForeground] == contrast(c.secondary.hsl)
      && vars[AccentForeground] == contrast(c.accent.hsl)
      && vars[DestructiveForeground] == contrast(c.error.hsl)
  {
    var vars := ApplyColorVariables(c, contrast);
    assert vars[PrimaryForeground] == FixedValue(c, contrast, PrimaryForeground);
    assert vars[SecondaryForeground] == FixedValue(c, contrast, SecondaryForeground);
    assert vars[AccentForeground] == FixedValue(c, contrast, AccentForeground);
    assert vars[DestructiveForeground] == FixedValue(c, contrast, DestructiveForeground);
    HeadTable(c, contrast);
    TailTable(c, contrast);
    MutedTable(c, contrast);
    BrandTable(c, contrast);
    StatusTable(c, contrast);
  }

  /** The sport colours are written verbatim. */
  lemma AppliedSport(c: Colors, contrast: string -> string)
    ensures var vars := ApplyColorVariables(c, contrast);
      && vars[SportVictory] == c.sport.victory.hsl && vars[SportDefeat] == c.sport.defeat.hsl
      && vars[SportTrophy] == c.sport.trophy.hsl && vars[SportDraw] == c.sport.draw.hsl
  {
    var vars := ApplyColorVariables(c, contrast);
    assert vars[SportVictory] == FixedValue(c, contrast, SportVictory);
    assert vars[SportDefeat] == FixedValue(c, contrast, SportDefeat);
    assert vars[SportTrophy] == FixedValue(c, contrast, SportTrophy);
    assert vars[SportDraw] == FixedValue(c, contrast, SportDraw);
    HeadTable(c, contrast);
    TailTable(c, contrast);
    MutedTable(c, contrast);
    BrandTable(c, contrast);
    StatusTable(c, contrast);
  }

  /** The surface colours are written verbatim. */
  lemma AppliedSurfaces(c: Colors, contrast: string -> string)
    ensures var vars := ApplyColorVariables(c, contrast);
      && vars[Background] == c.background.hsl && vars[Foreground] == c.foreground.hsl
      && vars[Card] == c.card.hsl && vars[CardForeground] == c.cardForeground.hsl
  {
    var vars := ApplyColorVariables(c, contrast);
    assert vars[Background] == FixedValue(c, contrast, Background);
    assert vars[Foreground] == FixedValue(c, contrast, Foreground);
    assert vars[Card] == FixedValue(c, contrast, Card);
    assert vars[CardForeground] == FixedValue(c, contrast, CardForeground);
    HeadTable(c, contrast);
    TailTable(c, contrast);
    MutedTable(c, contrast);
    BrandTable(c, contrast);
    StatusTable(c, contrast);
  }

  /** The muted and status colours are written verbatim. */
  lemma AppliedMutedAndStatus(c: Colors, contrast: string -> string)
    ensures var vars := ApplyColorVariables(c, contrast);
      && vars[Muted] == c.muted.hsl && vars[MutedForeground] == c.mutedForeground.hsl
      && vars[BrandSuccess] == c.success.hsl && vars[BrandWarning] == c.warning.hsl
  {
    var vars := ApplyColorVariables(c, contrast);
    assert vars[Muted] == FixedValue(c, contrast, Muted);
    assert vars[MutedForeground] == FixedValue(c, contrast, MutedForeground);
    assert vars[BrandSuccess] == FixedValue(c, contrast, BrandSuccess);
    assert vars[BrandWarning] == FixedValue(c, contrast, BrandWarning);
    HeadTable(c, contrast);
    TailTable(c, contrast);
    MutedTable(c, contrast);
    BrandTable(c, contrast);
    StatusTable(c, contrast);
  }

  /** `getContrastColor` as the function the palette is emitted with. */
  function ContrastFunction(gamma: real -> real): (contrast: string -> string)
    ensures forall hsl :: contrast(hsl) == ContrastColor(hsl, gamma)
    ensures forall hsl :: contrast(hsl) == Black || contrast(hsl) == White
  {
    (hsl: string) => ContrastColor(hsl, gamma)
  }

  /** With `getContrastColor`, the four foregrounds are pure black or pure
      white text. */
  lemma ForegroundsAreBlackOrWhite(c: Colors, gamma: real -> real)
    ensures var vars := ApplyColorVariables(c, ContrastFunction(gamma));
      forall p :: p in {PrimaryForeground, SecondaryForeground, AccentForeground, DestructiveForeground} ==>
        vars[p] == Black || vars[p] == White
  {
    AppliedForegrounds(c, ContrastFunction(gamma));
  }

  /** An extended property ends with the value the `extended` block gave
      it: the base block writes no extended property. */
  lemma EmittedExtendedValue(c: Colors, contrast: string -> string, p: Property)
    requires p.Ext? && p in WriteExtended(HeadVariables(c, contrast), ExtendedEntries(c))
    ensures p in Emitted(c, contrast)
    ensures Emitted(c, contrast)[p] == WriteExtended(HeadVariables(c, contrast), ExtendedEntries(c))[p]
  {
    assert p !in TailProperties;
  }

  /** Every colour entry of `extended` sets a `--brand-extended-` property
      to its `hsl` and the `-hex` twin to its `hex`. */
  lemma AppliedExtended(c: Colors, contrast: string -> string)
    requires DistinctKeys(ExtendedEntries(c)) && NoHexClash(ExtendedEntries(c))
    ensures var vars := ApplyColorVariables(c, contrast);
      var entries := ExtendedEntries(c);
      forall i :: 0 <= i < |entries| && IsColorValue(entries[i].1) ==>
        Ext(ExtendedName(entries[i].0)) in vars &&
        vars[Ext(ExtendedName(entries[i].0))] == entries[i].1.hslProp.value &&
        Ext(ExtendedHexName(entries[i].0)) in vars &&
        vars[Ext(ExtendedHexName(entries[i].0))] == entries[i].1.hexProp.value
  {
    var head := HeadVariables(c, contrast);
    var entries := ExtendedEntries(c);
    WriteExtendedValues(head, entries);
    forall i | 0 <= i < |entries| && IsColorValue(entries[i].1)
      ensures Ext(ExtendedName(entries[i].0)) in Emitted(c, contrast)
      ensures Emitted(c, contrast)[Ext(ExtendedName(entries[i].0))] == entries[i].1.hslProp.value
      ensures Ext(ExtendedHexName(entries[i].0)) in Emitted(c, contrast)
      ensures Emitted(c, contrast)[Ext(ExtendedHexName(entries[i].0))] == entries[i].1.hexProp.value
    {
      EmittedExtendedValue(c, contrast, Ext(ExtendedName(entries[i].0)));
      EmittedExtendedValue(c, contrast, Ext(ExtendedHexName(entries[i].0)));
    }
  }

  lemma EmittedUnderPrefix(entries: seq<(string, ExtendedValue)>, n: string)
    requires ExtendedEmits(entries, n)
    ensures StartsWith(n, ExtendedPrefix)
  {
    var i :| 0 <= i < |entries| && IsColorValue(entries[i].1) &&
      (n == ExtendedName(entries[i].0) || n == ExtendedHexName(entries[i].0));
  }

  /** A property's name is under the extended prefix exactly when it comes
      from `extended`; without `extended` there are none. */
  lemma AppliedPrefixSeparates(c: Colors, contrast: string -> string)
    ensures forall p :: p in ApplyColorVariables(c, contrast) ==> (StartsWith(p.Name(), ExtendedPrefix) <==> p.Ext?)
    ensures c.extended.None? ==> forall p :: p in ApplyColorVariables(c, contrast) ==> !p.Ext?
  {
    AppliedNames(c, contrast);
    forall p | p in ApplyColorVariables(c, contrast)
      ensures StartsWith(p.Name(), ExtendedPrefix) <==> p.Ext?
    {
      PrefixSeparates(ExtendedEntries(c), p);
    }
  }

  lemma PrefixSeparates(entries: seq<(string, ExtendedValue)>, p: Property)
    requires !p.Ext? || ExtendedEmits(entries, p.name)
    ensures StartsWith(p.Name(), ExtendedPrefix) <==> p.Ext?
  {
    if p.Ext? {
      EmittedUnderPrefix(entries, p.name);
    } else {
      FixedNamesNotExtended(p);
    }
  }
}

=== FILE: domain.dfy ===
/** The front end's domain records (the `Tournament`, `Team`, `Player`,
    `Match`, `Standing` and `PlayerStats` interfaces), as immutable
    datatypes. An optional TypeScript property (`x?: T`) is an `Option`.
    Dates are integer timestamps; a member's date of birth, which the
    source keeps as an ISO date string, is a calendar date. */
module Domain {
  import opened Wrappers

  datatype TournamentStatus = Active | Completed | Upcoming
  datatype TournamentFormat = League | Knockout | GroupKnockout
  datatype FormResult = W | D | L
  datatype PlayerPosition = GK | DEF | MID | FWD

  datatype Tournament = Tournament(
    id: string,
    name: string,
    season: string,
    country: string,
    region: Option<string>,
    status: TournamentStatus,
    startDate: int,
    endDate: int,
    logo: Option<string>,
    format: TournamentFormat,
    teamCount: int,
    description: Option<string>,
    currentMatchday: Option<int>,
    totalMatchdays: Option<int>,
    playoffTeamsCount: Option<int>)

  datatype CalendarDate = CalendarDate(year: int, month: int, day: int)

  /** A registered squad member (the untyped `team.members` entries). */
  datatype Member = Member(
    id: int,
    fullName: string,
    tshirtNumber: Option<int>,
    dateOfBirth: Option<CalendarDate>,
    yellowCards: Option<int>,
    redCards: Option<int>,
    blueCards: Option<int>)

  datatype TeamColors = TeamColors(primary: string, secondary: string)

  datatype Team = Team(
    id: string,
    name: string,
    shortName: string,
    logo: Option<string>,
    founded: Option<int>,
    city: Option<string>,
    country: string,
    colors: TeamColors,
    members: Option<seq<Member>>,
    membersCount: Option<int>)

  datatype Player = Player(
    id: string,
    name: string,
    position: PlayerPosition,
    teamId: string,
    number: Option<int>,
    nationality: Option<string>)

  datatype Goal = Goal(
    id: string,
    playerId: string,
    playerName: string,
    teamId: string,
    minute: int,
    kind: string)           // 'regular' | 'penalty' | 'own_goal' | 'free_kick'

  datatype MatchEvent = MatchEvent(
    id: string,
    playerId: string,
    playerName: string,
    teamId: string,
    minute: int,
    kind: string,           // 'goal' | 'yellow_card' | 'red_card' | 'substitution' | ...
    subType: Option<string>,
    relatedPlayerName: Option<string>)

  /** The official result attached to a match (only the scores are read). */
  datatype MatchResultData = MatchResultData(homeScore: int, awayScore: int)

  /** A fixture. `status` stays a string: the views compare it with
      values ('completed', 'pending') outside the declared union and show
      unknown values verbatim. */
  datatype Match = Match(
    id: string,
    tournamentId: string,
    homeTeamId: string,
    awayTeamId: string,
    homeScore: Option<int>,
    awayScore: Option<int>,
    date: int,
    matchday: Option<int>,
    round: Option<int>,
    phase: Option<string>,
    status: string,
    venue: Option<string>,
    homeTeamName: Option<string>,
    awayTeamName: Option<string>,
    result: Option<MatchResultData>,
    goals: Option<seq<Goal>>,
    events: Option<seq<MatchEvent>>)

  datatype Standing = Standing(
    teamId: string,
    position: int,
    played: int,
    won: int,
    drawn: int,
    lost: int,
    goalsFor: int,
    goalsAgainst: int,
    goalDifference: int,
    points: int,
    form: Option<seq<FormResult>>)

  datatype PlayerStats = PlayerStats(
    playerId: string,
    tournamentId: string,
    goals: int,
    assists: int,
    matches: int,
    minutesPlayed: int,
    yellowCards: int,
    redCards: int,
    averageGoalsPerGame: real)

  datatype TournamentData = TournamentData(
    tournament: Tournament,
    teams: seq<Team>,
    players: seq<Player>,
    matches: seq<Match>,
    standings: seq<Standing>,
    playerStats: seq<PlayerStats>)

  /** `teams.find(t => t.id === id)` */
  function FindTeam(teams: seq<Team>, id: string): (r: Option<Team>)
    ensures r.Some? <==> exists i :: 0 <= i < |teams| && teams[i].id == id
    ensures r.Some? ==> r.value in teams && r.value.id == id
    ensures r.Some? ==> exists i :: 0 <= i < |teams| && teams[i] == r.value &&
                          forall j :: 0 <= j < i ==> teams[j].id != id
    decreases |teams|
  {
    if |teams| == 0 then None
    else if teams[0].id == id then Some(teams[0])
    else
      var r := FindTeam(teams[1..], id);
      assert forall i :: 0 < i < |teams| ==> teams[i] == teams[1..][i - 1];
      r
  }

  /** `players.find(p => p.id === id)` */
  function FindPlayer(players: seq<Player>, id: string): (r: Option<Player>)
    ensures r.Some? <==> exists i :: 0 <= i < |players| && players[i].id == id
    ensures r.Some? ==> r.value in players && r.value.id == id
    ensures r.Some? ==> exists i :: 0 <= i < |players| && players[i] == r.value &&
                          forall j :: 0 <= j < i ==> players[j].id != id
    decreases |players|
  {
    if |players| == 0 then None
    else if players[0].id == id then Some(players[0])
    else
      var r := FindPlayer(players[1..], id);
      assert forall i :: 0 < i < |players| ==> players[i] == players[1..][i - 1];
      r
  }
}

=== FILE: home_page.dfy ===
/** The tournament list of `HomePage`: the search and filter predicate,
    the sort comparator, and the parsing of the sort `<select>` value.
    Lower-casing is a per-character map `lower`; `localeCompare` is a
    collation rank `rank` (strings compare as their ranks do). */
module HomePage {
  import opened Wrappers
  import opened Text
  import opened Sorting
  import opened Domain

  /** The filter chips; an unset filter is `None` (a country filter set to
      the empty string is falsy and does not filter either). */
  datatype SearchFilters = SearchFilters(
    country: Option<string>,
    status: Option<TournamentStatus>,
    format: Option<TournamentFormat>)

  const NoFilters: SearchFilters := SearchFilters(None, None, None)

  /** `SortOptions`. The field and direction are whatever the `<select>`
      value split into, so they are kept as strings. */
  datatype SortOptions = SortOptions(field: string, direction: Option<string>)

  const InitialSort: SortOptions := SortOptions("name", Some("asc"))

  /** The filter predicate of `filteredTournaments`. */
  predicate Keep(t: Tournament, query: string, filters: SearchFilters, lower: char -> char) {
    && (query == [] || Contains(MapChars(t.name, lower), MapChars(query, lower)))
    && (filters.status.None? || t.status == filters.status.value)
    && (filters.country.None? || filters.country.value == [] || t.country == filters.country.value)
    && (filters.format.None? || t.format == filters.format.value)
  }

  /** `direction === 'asc' ? 1 : -1`: anything but `asc` sorts descending. */
  function DirectionSign(opts: SortOptions): real {
    if opts.direction == Some("asc") then 1.0 else -1.0
  }

  /** The comparator as a key: the field's value times the direction, and
      0 for a field the switch does not know. */
  function SortKey(opts: SortOptions, rank: string -> int): Tournament -> real {
    (t: Tournament) =>
      DirectionSign(opts) *
      (if opts.field == "name" then rank(t.name) as real
       else if opts.field == "startDate" then t.startDate as real
       else if opts.field == "teamCount" then t.teamCount as real
       else if opts.field == "country" then rank(t.country) as real
       else 0.0)
  }

  /** `filteredTournaments` */
  function FilteredTournaments(ts: seq<Tournament>, query: string, filters: SearchFilters, opts: SortOptions,
                               lower: char -> char, rank: string -> int): (r: seq<Tournament>)
    ensures |r| <= |ts|
    ensures multiset(r) == multiset(Filter(ts, t => Keep(t, query, filters, lower)))
    ensures SortedBy(r, SortKey(opts, rank))
  {
    SortByKey(Filter(ts, t => Keep(t, query, filters, lower)), SortKey(opts, rank))
  }

  /** The results line shows the length of the filtered list. */
  function ResultsCount(ts: seq<Tournament>, query: string, filters: SearchFilters, opts: SortOptions,
                        lower: char -> char, rank: string -> int): (n: nat)
    ensures n <= |ts|
    ensures n == |Filter(ts, t => Keep(t, query, filters, lower))|
  {
    |FilteredTournaments(ts, query, filters, opts, lower, rank)|
  }

  /** Every listed tournament matches the query (case-insensitively) and
      every filter that is set. */
  lemma ListedMatch(ts: seq<Tournament>, query: string, filters: SearchFilters, opts: SortOptions,
                    lower: char -> char, rank: string -> int, t: Tournament)
    requires t in FilteredTournaments(ts, query, filters, opts, lower, rank)
    ensures t in ts
    ensures query != [] ==> Contains(MapChars(t.name, lower), MapChars(query, lower))
    ensures filters.status.Some? ==> t.status == filters.status.value
    ensures filters.country.Some? && filters.country.value != [] ==> t.country == filters.country.value
    ensures filters.format.Some? ==> t.format == filters.format.value
  {
    var f := Filter(ts, t => Keep(t, query, filters, lower));
    assert t in multiset(f);
    var i :| 0 <= i < |f| && f[i] == t;
  }

  /** Conversely, every tournament that matches is listed. */
  lemma MatchingListed(ts: seq<Tournament>, query: string, filters: SearchFilters, opts: SortOptions,
                       lower: char -> char, rank: string -> int, t: Tournament)
    requires t in ts && Keep(t, query, filters, lower)
    ensures t in FilteredTournaments(ts, query, filters, opts, lower, rank)
  {
    var f := Filter(ts, t => Keep(t, query, filters, lower));
    var i :| 0 <= i < |ts| && ts[i] == t;
    assert t in f;
    assert t in multiset(f);
  }

  /** With an empty query and no filters nothing is dropped. */
  lemma NoCriteriaKeepsAll(ts: seq<Tournament>, opts: SortOptions, lower: char -> char, rank: string -> int)
    ensures multiset(FilteredTournaments(ts, "", NoFilters, opts, lower, rank)) == multiset(ts)
  {
    FilterAll(ts, t => Keep(t, "", NoFilters, lower));
  }

  /** Descending order is ascending order with the key negated. */
  lemma DescNegatesAsc(field: string, rank: string -> int, t: Tournament)
    ensures SortKey(SortOptions(field, Some("desc")), rank)(t) == -SortKey(SortOptions(field, Some("asc")), rank)(t)
  {
  }

  /** Sorting by `teamCount-asc` gives non-decreasing team counts, and by
      `teamCount-desc` non-increasing ones. */
  lemma TeamCountOrder(ts: seq<Tournament>, query: string, filters: SearchFilters, dir: string,
                       lower: char -> char, rank: string -> int)
    ensures var r := FilteredTournaments(ts, query, filters, SortOptions("teamCount", Some(dir)), lower, rank);
            forall i, j :: 0 <= i < j < |r| ==>
              if dir == "asc" then r[i].teamCount <= r[j].teamCount else r[i].teamCount >= r[j].teamCount
  {
    var opts := SortOptions("teamCount", Some(dir));
    var r := FilteredTournaments(ts, query, filters, opts, lower, rank);
    forall i, j | 0 <= i < j < |r|
      ensures if dir == "asc" then r[i].teamCount <= r[j].teamCount else r[i].teamCount >= r[j].teamCount
    {
      assert SortKey(opts, rank)(r[i]) <= SortKey(opts, rank)(r[j]);
      TeamCountKey(dir, rank, r[i]);
      TeamCountKey(dir, rank, r[j]);
    }
  }

  /** The key of the `teamCount` field. */
  lemma TeamCountKey(dir: string, rank: string -> int, t: Tournament)
    ensures dir == "asc" ==> SortKey(SortOptions("teamCount", Some(dir)), rank)(t) == t.teamCount as real
    ensures dir != "asc" ==> SortKey(SortOptions("teamCount", Some(dir)), rank)(t) == -(t.teamCount as real)
  {
    var opts := SortOptions("teamCount", Some(dir));
    assert opts.field != "name" by { assert opts.field[0] != "name"[0]; }
    assert opts.field != "startDate" by { assert opts.field[0] != "startDate"[0]; }
    assert opts.field == "teamCount";
    assert SortKey(opts, rank)(t) == DirectionSign(opts) * (t.teamCount as real);
    assert dir == "asc" ==> DirectionSign(opts) == 1.0;
  }

  /** A field the comparator does not know leaves the filtered order as
      it is. */
  lemma UnknownFieldKeepsOrder(ts: seq<Tournament>, query: string, filters: SearchFilters, opts: SortOptions,
                               lower: char -> char, rank: string -> int)
    requires opts.field !in {"name", "startDate", "teamCount", "country"}
    ensures FilteredTournaments(ts, query, filters, opts, lower, rank) == Filter(ts, t => Keep(t, query, filters, lower))
  {
    ConstantKeyKeepsOrder(Filter(ts, t => Keep(t, query, filters, lower)), SortKey(opts, rank), 0.0);
  }

  // ---------------------------------------------------------------------
  // The sort <select>
  // ---------------------------------------------------------------------

  /** The `<select>` value of a sort option: `"{field}-{direction}"`. */
  function SortValue(field: string, direction: string): string {
    field + "-" + direction
  }

  /** `const [field, direction] = value.split('-')`: the first two parts;
      a missing second part is `undefined`. */
  function ParseSortOption(value: string): (opts: SortOptions)
    ensures opts.field == Split(value, '-')[0]
    ensures |Split(value, '-')| >= 2 <==> opts.direction.Some?
    ensures opts.direction.Some? ==> opts.direction.value == Split(value, '-')[1]
  {
    var parts := Split(value, '-');
    SortOptions(parts[0], if |parts| >= 2 then Some(parts[1]) else None)
  }

  /** Parsing an option value gives back its field and direction, for
      any field and direction without a `-` (all the offered options). */
  lemma ParseSortValue(field: string, direction: string)
    requires '-' !in field && '-' !in direction
    ensures ParseSortOption(SortValue(field, direction)) == SortOptions(field, Some(direction))
  {
    var parts := [field, direction];
    SplitJoin(parts, '-');
    assert Join(parts, '-') == field + "-" + direction by {
      assert parts[1..] == [direction];
    }
  }
}

=== FILE: lib_utils.dfy ===
/** The shared helpers of `lib/utils.ts`: table arithmetic, colour
    classes, text truncation and grouping. */
module LibUtils {
  import opened Text
  import opened Sorting

  /** `calculateGoalDifference` */
  function GoalDifference(goalsFor: int, goalsAgainst: int): (d: int)
    ensures goalsAgainst + d == goalsFor
    ensures d > 0 <==> goalsFor > goalsAgainst
  {
    goalsFor - goalsAgainst
  }

  /** `calculatePoints`: three per win, one per draw. */
  function Points(wins: int, draws: int): (p: int)
    ensures p - draws == 3 * wins
    ensures wins >= 0 && draws >= 0 ==> p >= 0 && p >= wins
  {
    wins * 3 + draws
  }

  /** One more win is worth exactly three more points, one more draw
      exactly one. */
  lemma PointsIncrements(wins: int, draws: int)
    ensures Points(wins + 1, draws) == Points(wins, draws) + 3
    ensures Points(wins, draws + 1) == Points(wins, draws) + 1
  {
  }

  const VictoryClass: string := "bg-brand-victory text-white"
  const DrawClass: string := "bg-brand-draw text-white"
  const DefeatClass: string := "bg-brand-defeat text-white"
  const MutedClass: string := "bg-muted text-muted-foreground"

  /** `getTeamFormColor`. The argument is the raw form letter, so the
      `default` branch is reachable for values outside the declared union. */
  function FormColor(result: string): (c: string)
    ensures result == "W" <==> c == VictoryClass
    ensures result == "D" <==> c == DrawClass
    ensures result == "L" <==> c == DefeatClass
    ensures result !in {"W", "D", "L"} <==> c == MutedClass
  {
    if result == "W" then VictoryClass
    else if result == "D" then DrawClass
    else if result == "L" then DefeatClass
    else MutedClass
  }

  const SuccessClass: string := "bg-brand-success text-white"
  const WarningClass: string := "bg-brand-warning text-black"

  /** `getTournamentStatusColor`: `completed` shares the muted default. */
  function TournamentStatusColor(status: string): (c: string)
    ensures status == "active" <==> c == SuccessClass
    ensures status == "upcoming" <==> c == WarningClass
    ensures status != "active" && status != "upcoming" <==> c == MutedClass
  {
    if status == "active" then SuccessClass
    else if status == "completed" then MutedClass
    else if status == "upcoming" then WarningClass
    else MutedClass
  }

  /** `truncateText`: JavaScript's `slice(0, maxLength)` counts a negative
      bound from the end. */
  function TruncateText(text: string, maxLength: int): (r: string)
    ensures |text| <= maxLength ==> r == text
    ensures 0 <= maxLength < |text| ==> r == text[..maxLength] + "..." && |r| == maxLength + 3
    ensures maxLength < 0 ==> r == text[..ClampIndex(maxLength, |text|)] + "..."
    ensures |text| > maxLength ==> |r| >= 3 && r[|r| - 3..] == "..."
  {
    if |text| <= maxLength then text
    else Slice(text, 0, maxLength) + "..."
  }

  /** What remains of a truncated text once its ellipsis is removed is
      a prefix of the original, never longer than the limit. */
  lemma TruncateKeepsPrefix(text: string, maxLength: int)
    requires |text| > maxLength
    ensures var r := TruncateText(text, maxLength);
            var kept := r[..|r| - 3];
            kept <= text && (maxLength >= 0 ==> |kept| == maxLength)
  {
  }

  // ---------------------------------------------------------------------
  // groupBy
  // ---------------------------------------------------------------------

  /** The items of `s` whose key is `k`, in input order (the reference
      definition of one group). */
  function GroupOf<T, K(==)>(s: seq<T>, keyFn: T -> K, k: K): (g: seq<T>)
    ensures |g| <= |s|
    ensures forall i :: 0 <= i < |g| ==> keyFn(g[i]) == k && g[i] in s
    ensures forall i :: 0 <= i < |s| && keyFn(s[i]) == k ==> s[i] in g
    decreases |s|
  {
    if |s| == 0 then []
    else
      var init := GroupOf(s[..|s| - 1], keyFn, k);
      var x := s[|s| - 1];
      assert forall i :: 0 <= i < |s| - 1 ==> s[i] == s[..|s| - 1][i];
      if keyFn(x) == k then init + [x] else init
  }

  /** `groupBy`: the `reduce` over the array, which appends each item to
      the group of its key, creating the group on first use. Keys that
      name inherited members of `Object.prototype` are not modelled. */
  function GroupBy<T, K(==, !new)>(s: seq<T>, keyFn: T -> K): (groups: map<K, seq<T>>)
    ensures forall k :: k in groups <==> exists i :: 0 <= i < |s| && keyFn(s[i]) == k
    ensures forall k :: k in groups ==> groups[k] == GroupOf(s, keyFn, k) && |groups[k]| > 0
    decreases |s|
  {
    if |s| == 0 then map[]
    else
      var groups := GroupBy(s[..|s| - 1], keyFn);
      AppendKeys(s, keyFn, groups);
      AppendGroups(s, keyFn, groups);
      Append(groups, keyFn(s[|s| - 1]), s[|s| - 1])
  }

  /** One step of the `reduce`: `x` joins the group of `key`, which is
      created when missing. */
  function Append<T, K>(groups: map<K, seq<T>>, key: K, x: T): map<K, seq<T>> {
    if key !in groups then groups[key := [x]] else groups[key := groups[key] + [x]]
  }

  /** After the step, the keys are those of the longer input. */
  lemma AppendKeys<T, K>(s: seq<T>, keyFn: T -> K, groups: map<K, seq<T>>)
    requires |s| > 0
    requires forall k :: k in groups <==> exists i :: 0 <= i < |s| - 1 && keyFn(s[i]) == k
    ensures var g := Append(groups, keyFn(s[|s| - 1]), s[|s| - 1]);
            forall k :: k in g <==> exists i :: 0 <= i < |s| && keyFn(s[i]) == k
  {
    var g := Append(groups, keyFn(s[|s| - 1]), s[|s| - 1]);
    forall k | k in g ensures exists i :: 0 <= i < |s| && keyFn(s[i]) == k {
      if k != keyFn(s[|s| - 1]) {
        assert k in groups;
      }
    }
  }

  /** After the step, each group is the reference group of the longer
      input. */
  lemma AppendGroups<T, K>(s: seq<T>, keyFn: T -> K, groups: map<K, seq<T>>)
    requires |s| > 0
    requires forall k :: k in groups <==> exists i :: 0 <= i < |s| - 1 && keyFn(s[i]) == k
    requires forall k :: k in groups ==> groups[k] == GroupOf(s[..|s| - 1], keyFn, k) && |groups[k]| > 0
    ensures var g := Append(groups, keyFn(s[|s| - 1]), s[|s| - 1]);
            forall k :: k in g ==> g[k] == GroupOf(s, keyFn, k) && |g[k]| > 0
  {
    var init := s[..|s| - 1];
    var x := s[|s| - 1];
    var g := Append(groups, keyFn(x), x);
    forall k | k in g ensures g[k] == GroupOf(s, keyFn, k) && |g[k]| > 0 {
      assert GroupOf(s, keyFn, k) == if keyFn(x) == k then GroupOf(init, keyFn, k) + [x] else GroupOf(init, keyFn, k);
      if k == keyFn(x) && k !in groups {
        assert forall i :: 0 <= i < |init| ==> init[i] == s[i];
        NoGroupWithoutKey(init, keyFn, k);
      }
    }
  }

  lemma NoGroupWithoutKey<T, K>(s: seq<T>, keyFn: T -> K, k: K)
    requires forall i :: 0 <= i < |s| ==> keyFn(s[i]) != k
    ensures GroupOf(s, keyFn, k) == []
  {
  }

  /** Indices of the items with key `k`, increasing. */
  function GroupIndices<T, K(==)>(s: seq<T>, keyFn: T -> K, k: K): (idx: seq<nat>)
    ensures forall i :: 0 <= i < |idx| ==> idx[i] < |s| && keyFn(s[idx[i]]) == k
    ensures forall i, j :: 0 <= i < j < |idx| ==> idx[i] < idx[j]
    ensures forall p :: 0 <= p < |s| && keyFn(s[p]) == k ==> p in idx
    decreases |s|
  {
    if |s| == 0 then []
    else
      var init := GroupIndices(s[..|s| - 1], keyFn, k);
      if keyFn(s[|s| - 1]) == k then init + [|s| - 1] else init
  }

  /** A group is the input restricted to the positions holding its key,
      in their original order: grouping never reorders items. */
  lemma {:induction false} GroupIsSubsequence<T, K>(s: seq<T>, keyFn: T -> K, k: K)
    ensures var g := GroupOf(s, keyFn, k);
            var idx := GroupIndices(s, keyFn, k);
            |g| == |idx| && forall i :: 0 <= i < |g| ==> g[i] == s[idx[i]]
    decreases |s|
  {
    if |s| > 0 {
      var init := s[..|s| - 1];
      GroupIsSubsequence(init, keyFn, k);
      assert forall i :: 0 <= i < |init| ==> init[i] == s[i];
    }
  }

  /** Grouping preserves order, so a group of a sorted input is sorted. */
  lemma {:induction false} GroupOfKeepsSorted<T, K>(s: seq<T>, keyFn: T -> K, k: K, order: T -> real)
    requires SortedBy(s, order)
    ensures SortedBy(GroupOf(s, keyFn, k), order)
    decreases |s|
  {
    if |s| > 0 {
      var init := s[..|s| - 1];
      var x := s[|s| - 1];
      assert SortedBy(init, order);
      GroupOfKeepsSorted(init, keyFn, k, order);
      var g := GroupOf(init, keyFn, k);
      if keyFn(x) == k {
        forall i | 0 <= i < |g| ensures order(g[i]) <= order(x) {
          var p :| 0 <= p < |init| && init[p] == g[i];
          assert s[p] == g[i];
        }
      }
    }
  }

  /** Number of items of `s` whose key occurs in `ks`. */
  function CountKeyed<T, K(==)>(s: seq<T>, keyFn: T -> K, ks: seq<K>): (n: nat)
    ensures n <= |s|
    decreases |s|
  {
    if |s| == 0 then 0
    else CountKeyed(s[..|s| - 1], keyFn, ks) + (if keyFn(s[|s| - 1]) in ks then 1 else 0)
  }

  /** Total size of the groups named in `ks`. */
  function SumGroupSizes<T, K(==)>(s: seq<T>, keyFn: T -> K, ks: seq<K>): nat
    decreases |ks|
  {
    if |ks| == 0 then 0
    else |GroupOf(s, keyFn, ks[0])| + SumGroupSizes(s, keyFn, ks[1..])
  }

  lemma {:induction false} SumGroupSizesSnoc<T, K>(s: seq<T>, keyFn: T -> K, ks: seq<K>, x: T)
    requires forall i, j :: 0 <= i < j < |ks| ==> ks[i] != ks[j]
    ensures SumGroupSizes(s + [x], keyFn, ks) ==
            SumGroupSizes(s, keyFn, ks) + (if keyFn(x) in ks then 1 else 0)
    decreases |ks|
  {
    if |ks| > 0 {
      assert (s + [x])[..|s + [x]| - 1] == s;
      SumGroupSizesSnoc(s, keyFn, ks[1..], x);
      if keyFn(x) == ks[0] {
        assert keyFn(x) !in ks[1..];
      }
    }
  }

  /** Over distinct keys, the groups together hold exactly the items whose
      key is among them. */
  lemma {:induction false} SumGroupSizesCounts<T, K>(s: seq<T>, keyFn: T -> K, ks: seq<K>)
    requires forall i, j :: 0 <= i < j < |ks| ==> ks[i] != ks[j]
    ensures SumGroupSizes(s, keyFn, ks) == CountKeyed(s, keyFn, ks)
    decreases |s|
  {
    if |s| == 0 {
      SumEmpty(keyFn, ks);
    } else {
      var init := s[..|s| - 1];
      SumGroupSizesCounts(init, keyFn, ks);
      assert s == init + [s[|s| - 1]];
      SumGroupSizesSnoc(init, keyFn, ks, s[|s| - 1]);
    }
  }

  lemma {:induction false} SumEmpty<T, K>(keyFn: T -> K, ks: seq<K>)
    ensures SumGroupSizes([], keyFn, ks) == 0
    decreases |ks|
  {
    if |ks| > 0 {
      SumEmpty(keyFn, ks[1..]);
    }
  }

  lemma {:induction false} CountKeyedAll<T, K>(s: seq<T>, keyFn: T -> K, ks: seq<K>)
    requires forall i :: 0 <= i < |s| ==> keyFn(s[i]) in ks
    ensures CountKeyed(s, keyFn, ks) == |s|
    decreases |s|
  {
    if |s| > 0 {
      var init := s[..|s| - 1];
      assert forall i :: 0 <= i < |init| ==> init[i] == s[i];
      CountKeyedAll(init, keyFn, ks);
    }
  }

  /** The sizes of the groups of `groupBy` add up to the input length:
      nothing is lost or duplicated. `ks` enumerates the group keys. */
  lemma GroupSizesSumToLength<T, K(!new)>(s: seq<T>, keyFn: T -> K, ks: seq<K>)
    requires forall i, j :: 0 <= i < j < |ks| ==> ks[i] != ks[j]
    requires forall k :: k in ks <==> k in GroupBy(s, keyFn)
    ensures SumGroupSizes(s, keyFn, ks) == |s|
  {
    SumGroupSizesCounts(s, keyFn, ks);
    assert forall i :: 0 <= i < |s| ==> keyFn(s[i]) in GroupBy(s, keyFn);
    CountKeyedAll(s, keyFn, ks);
  }
}

=== FILE: match_details.dfy ===
/** The match-details dialog of `MatchDetailsModal`: the merged timeline
    of goals and other events, the header score, the status labels and
    the messages shown instead of a timeline. */
module MatchDetails {
  import opened Wrappers
  import opened Text
  import opened Sorting
  import opened Domain

  // ---------------------------------------------------------------------
  // Status labels
  // ---------------------------------------------------------------------

  /** `getStatusText`: `finished` and `completed` share one label. */
  function StatusText(status: string): (t: string)
    ensures status == "scheduled" ==> t == "Programado"
    ensures status == "live" ==> t == "En Vivo"
    ensures status == "finished" || status == "completed" ==> t == "Completado"
    ensures status == "pending" ==> t == "Pendiente"
    ensures status !in {"scheduled", "live", "finished", "completed", "pending"} ==> t == status
  {
    if status == "scheduled" then "Programado"
    else if status == "live" then "En Vivo"
    else if status == "finished" || status == "completed" then "Completado"
    else if status == "pending" then "Pendiente"
    else status
  }

  /** Only `finished` and `completed` read "Completado" (apart from the
      status literally called that), and exactly the statuses without a
      label of their own are shown verbatim. */
  lemma StatusTextLabels(status: string)
    ensures StatusText(status) == "Completado" <==> status in {"finished", "completed", "Completado"}
    ensures StatusText(status) == status <==>
              status !in {"scheduled", "live", "finished", "completed", "pending"}
  {
  }

  const ScheduledColor: string := "bg-blue-100 text-blue-800 border-blue-200"
  const LiveColor: string := "bg-green-100 text-green-800 border-green-200"
  const CompletedColor: string := "bg-purple-100 text-purple-800 border-purple-200"
  const PendingColor: string := "bg-yellow-100 text-yellow-800 border-yellow-200"
  const OtherColor: string := "bg-gray-100 text-gray-800 border-gray-200"

  /** `getStatusColor` */
  function StatusColor(status: string): (c: string)
    ensures c == ScheduledColor <==> status == "scheduled"
    ensures c == LiveColor <==> status == "live"
    ensures c == CompletedColor <==> status == "finished" || status == "completed"
    ensures c == PendingColor <==> status == "pending"
    ensures c == OtherColor <==> status !in {"scheduled", "live", "finished", "completed", "pending"}
  {
    if status == "scheduled" then ScheduledColor
    else if status == "live" then LiveColor
    else if status == "finished" || status == "completed" then CompletedColor
    else if status == "pending" then PendingColor
    else OtherColor
  }

  /** `getEventIcon`: one symbol per known event type, a bullet otherwise. */
  function EventIcon(kind: string): (icon: string)
    ensures kind == "goal" <==> icon == "⚽"
    ensures kind == "yellow_card" <==> icon == "\U{1F7E8}"
    ensures kind == "red_card" <==> icon == "\U{1F7E5}"
    ensures kind == "blue_card" <==> icon == "\U{1F7E6}"
    ensures kind == "substitution" <==> icon == "\U{1F504}"
    ensures kind !in {"goal", "yellow_card", "red_card", "blue_card", "substitution"} <==> icon == "•"
  {
    if kind == "goal" then "⚽"
    else if kind == "yellow_card" then "\U{1F7E8}"
    else if kind == "red_card" then "\U{1F7E5}"
    else if kind == "blue_card" then "\U{1F7E6}"
    else if kind == "substitution" then "\U{1F504}"
    else "•"
  }

  const GoalColor: string := "text-green-600"
  const YellowCardColor: string := "text-yellow-600"
  const RedCardColor: string := "text-red-600"
  const BlueCardColor: string := "text-blue-600"
  const SubstitutionColor: string := "text-blue-700"
  const OtherEventColor: string := "text-gray-600"

  /** `getEventColor`: one colour per known event type, grey otherwise. */
  function EventColor(kind: string): (c: string)
    ensures kind == "goal" <==> c == GoalColor
    ensures kind == "yellow_card" <==> c == YellowCardColor
    ensures kind == "red_card" <==> c == RedCardColor
    ensures kind == "blue_card" <==> c == BlueCardColor
    ensures kind == "substitution" <==> c == SubstitutionColor
    ensures kind !in {"goal", "yellow_card", "red_card", "blue_card", "substitution"} <==> c == OtherEventColor
  {
    if kind == "goal" then GoalColor
    else if kind == "yellow_card" then YellowCardColor
    else if kind == "red_card" then RedCardColor
    else if kind == "blue_card" then BlueCardColor
    else if kind == "substitution" then SubstitutionColor
    else OtherEventColor
  }

  /** The note under a goal: penalty, own goal or free kick; nothing for
      any other kind of goal. */
  function GoalNote(subType: Option<string>): (note: string)
    ensures subType == Some("penalty") <==> note == "(Penal)"
    ensures subType == Some("own_goal") <==> note == "(Autogol)"
    ensures subType == Some("free_kick") <==> note == "(Tiro libre)"
    ensures subType !in {Some("penalty"), Some("own_goal"), Some("free_kick")} <==> note == ""
  {
    if subType == Some("penalty") then "(Penal)"
    else if subType == Some("own_goal") then "(Autogol)"
    else if subType == Some("free_kick") then "(Tiro libre)"
    else ""
  }

  // ---------------------------------------------------------------------
  // Team names
  // ---------------------------------------------------------------------

  /** A JavaScript-truthy optional string: present and non-empty. */
  predicate Truthy(s: Option<string>) {
    s.Some? && s.value != []
  }

  /** `a || b || fallback` over optional strings. */
  function FirstTruthy(a: Option<string>, b: Option<string>, fallback: string): (r: string)
    ensures Truthy(a) ==> r == a.value
    ensures !Truthy(a) && Truthy(b) ==> r == b.value
    ensures !Truthy(a) && !Truthy(b) ==> r == fallback
  {
    if Truthy(a) then a.value else if Truthy(b) then b.value else fallback
  }

  function NameOf(t: Option<Team>): (n: Option<string>)
    ensures n.Some? <==> t.Some?
    ensures t.Some? ==> n.value == t.value.name
  {
    if t.Some? then Some(t.value.name) else None
  }

  /** The home side's name in the timeline: the team's name, else the
      match's home team name, else "Local". */
  function HomeName(m: Match, teams: seq<Team>): (n: string)
    ensures n != []
  {
    FirstTruthy(NameOf(FindTeam(teams, m.homeTeamId)), m.homeTeamName, "Local")
  }

  /** The away side's name, ending in "Visitante". */
  function AwayName(m: Match, teams: seq<Team>): (n: string)
    ensures n != []
  {
    FirstTruthy(NameOf(FindTeam(teams, m.awayTeamId)), m.awayTeamName, "Visitante")
  }

  /** The name next to an entry: the home chain exactly when the entry's
      team is the home team (ids compared as strings). */
  function SideName(m: Match, teams: seq<Team>, teamId: string): (n: string)
    ensures teamId == m.homeTeamId ==> n == HomeName(m, teams)
    ensures teamId != m.homeTeamId ==> n == AwayName(m, teams)
  {
    if teamId == m.homeTeamId then HomeName(m, teams) else AwayName(m, teams)
  }

  /** The heading above each side: like the timeline chain, but ending in
      `Equipo {id}`. */
  function HeadingName(t: Option<Team>, matchName: Option<string>, teamId: string): (n: string)
    ensures t.Some? && t.value.name != [] ==> n == t.value.name
    ensures (t.None? || t.value.name == []) && Truthy(matchName) ==> n == matchName.value
    ensures (t.None? || t.value.name == []) && !Truthy(matchName) ==> n == "Equipo " + teamId
  {
    FirstTruthy(NameOf(t), matchName, "Equipo " + teamId)
  }

  // ---------------------------------------------------------------------
  // Timeline
  // ---------------------------------------------------------------------

  datatype TimelineEvent = TimelineEvent(
    id: string,
    minute: int,
    kind: string,
    teamId: string,
    teamName: string,
    playerName: string,
    relatedPlayerName: Option<string>,
    subType: Option<string>)

  /** The entry for a goal: kind `goal`, the goal's kind as sub-type. */
  function GoalEntry(m: Match, teams: seq<Team>, g: Goal): (e: TimelineEvent)
    ensures e.kind == "goal" && e.minute == g.minute && e.id == g.id
  {
    TimelineEvent(g.id, g.minute, "goal", g.teamId, SideName(m, teams, g.teamId),
                  g.playerName, None, Some(g.kind))
  }

  /** The entry for a non-goal event, copying its fields. */
  function EventEntry(m: Match, teams: seq<Team>, ev: MatchEvent): (e: TimelineEvent)
    ensures e.kind == ev.kind && e.minute == ev.minute && e.id == ev.id
  {
    TimelineEvent(ev.id, ev.minute, ev.kind, ev.teamId, SideName(m, teams, ev.teamId),
                  ev.playerName, ev.relatedPlayerName, ev.subType)
  }

  /** Events of type `goal` are skipped: the goals list already has them. */
  predicate IsOtherEvent(ev: MatchEvent) {
    ev.kind != "goal"
  }

  function GoalEntries(m: Match, teams: seq<Team>): (es: seq<TimelineEvent>)
    ensures |es| == |m.goals.GetOr([])|
    ensures forall i :: 0 <= i < |es| ==> es[i] == GoalEntry(m, teams, m.goals.GetOr([])[i])
  {
    var goals := m.goals.GetOr([]);
    seq(|goals|, i requires 0 <= i < |goals| => GoalEntry(m, teams, goals[i]))
  }

  function OtherEvents(m: Match): (evs: seq<MatchEvent>)
    ensures forall i :: 0 <= i < |evs| ==> evs[i].kind != "goal"
  {
    Filter(m.events.GetOr([]), IsOtherEvent)
  }

  function EventEntries(m: Match, teams: seq<Team>): (es: seq<TimelineEvent>)
    ensures |es| == |OtherEvents(m)|
    ensures forall i :: 0 <= i < |es| ==> es[i] == EventEntry(m, teams, OtherEvents(m)[i])
  {
    var evs := OtherEvents(m);
    seq(|evs|, i requires 0 <= i < |evs| => EventEntry(m, teams, evs[i]))
  }

  function MinuteKey(e: TimelineEvent): real {
    e.minute as real
  }

  /** `createTimelineEvents`: goal entries then other-event entries,
      stably sorted by minute. */
  function Timeline(m: Match, teams: seq<Team>): (t: seq<TimelineEvent>)
    ensures multiset(t) == multiset(GoalEntries(m, teams) + EventEntries(m, teams))
    ensures forall i, j :: 0 <= i < j < |t| ==> t[i].minute <= t[j].minute
  {
    var t := SortByKey(GoalEntries(m, teams) + EventEntries(m, teams), MinuteKey);
    assert forall i, j :: 0 <= i < j < |t| ==> MinuteKey(t[i]) <= MinuteKey(t[j]);
    t
  }

  /** The timeline has one entry per goal plus one per event that is not
      a goal. */
  lemma TimelineLength(m: Match, teams: seq<Team>)
    ensures |Timeline(m, teams)| == |m.goals.GetOr([])| + |Filter(m.events.GetOr([]), IsOtherEvent)|
  {
    var t := Timeline(m, teams);
    assert |multiset(t)| == |multiset(GoalEntries(m, teams) + EventEntries(m, teams))|;
  }

  /** An entry is a goal exactly when it comes from the goals list: no
      entry taken from the events has type `goal`. */
  lemma TimelineGoalsFromGoals(m: Match, teams: seq<Team>, e: TimelineEvent)
    requires e in Timeline(m, teams)
    ensures e.kind == "goal" <==> e in GoalEntries(m, teams)
    ensures e.kind != "goal" <==> e in EventEntries(m, teams)
  {
    assert e in multiset(GoalEntries(m, teams) + EventEntries(m, teams));
    EntryKinds(m, teams);
  }

  lemma EntryKinds(m: Match, teams: seq<Team>)
    ensures forall x :: x in GoalEntries(m, teams) ==> x.kind == "goal"
    ensures forall x :: x in EventEntries(m, teams) ==> x.kind != "goal"
  {
    var gs, es := GoalEntries(m, teams), EventEntries(m, teams);
    forall x: TimelineEvent | x in es ensures x.kind != "goal" {
      var i :| 0 <= i < |es| && es[i] == x;
      assert x.kind == OtherEvents(m)[i].kind;
    }
    forall x: TimelineEvent | x in gs ensures x.kind == "goal" {
      var i :| 0 <= i < |gs| && gs[i] == x;
    }
  }

  /** Every entry names the home side exactly when its team is the home
      team, and the away side otherwise. */
  lemma TimelineTeamNames(m: Match, teams: seq<Team>, e: TimelineEvent)
    requires e in Timeline(m, teams)
    ensures e.teamName == if e.teamId == m.homeTeamId then HomeName(m, teams) else AwayName(m, teams)
  {
    assert e in multiset(GoalEntries(m, teams) + EventEntries(m, teams));
    EntriesNamed(m, teams);
  }

  lemma EntriesNamed(m: Match, teams: seq<Team>)
    ensures forall x :: x in GoalEntries(m, teams) + EventEntries(m, teams) ==>
              x.teamName == SideName(m, teams, x.teamId)
  {
    var gs, es := GoalEntries(m, teams), EventEntries(m, teams);
    forall x: TimelineEvent | x in gs + es ensures x.teamName == SideName(m, teams, x.teamId) {
      if x in gs {
        var i :| 0 <= i < |gs| && gs[i] == x;
      } else {
        var i :| 0 <= i < |es| && es[i] == x;
      }
    }
  }

  // ---------------------------------------------------------------------
  // Header score
  // ---------------------------------------------------------------------

  /** `match.result?.homeScore ?? match.homeScore` */
  function HomeScore(m: Match): (s: Option<int>)
    ensures m.result.Some? ==> s == Some(m.result.value.homeScore)
    ensures m.result.None? ==> s == m.homeScore
  {
    if m.result.Some? then Some(m.result.value.homeScore) else m.homeScore
  }

  /** `match.result?.awayScore ?? match.awayScore` */
  function AwayScore(m: Match): (s: Option<int>)
    ensures m.result.Some? ==> s == Some(m.result.value.awayScore)
    ensures m.result.None? ==> s == m.awayScore
  {
    if m.result.Some? then Some(m.result.value.awayScore) else m.awayScore
  }

  predicate IsOver(status: string) {
    status == "finished" || status == "completed"
  }

  predicate ShowsScore(m: Match) {
    IsOver(m.status) && HomeScore(m).Some? && AwayScore(m).Some?
  }

  /** The header between the teams: the score or "vs". */
  function ScoreText(m: Match): (text: string)
    ensures ShowsScore(m) ==> text == IntToString(HomeScore(m).value) + " - " + IntToString(AwayScore(m).value)
    ensures !ShowsScore(m) ==> text == "vs"
  {
    if ShowsScore(m) then IntToString(HomeScore(m).value) + " - " + IntToString(AwayScore(m).value)
    else "vs"
  }

  /** The header reads "vs" exactly when the score is not shown; an
      official result, when present, decides the score whatever the
      legacy fields say. */
  lemma ScoreTextRule(m: Match)
    ensures ScoreText(m) == "vs" <==> !ShowsScore(m)
    ensures m.result.Some? && IsOver(m.status) ==>
              ScoreText(m) == IntToString(m.result.value.homeScore) + " - " + IntToString(m.result.value.awayScore)
  {
    if ShowsScore(m) {
      assert |ScoreText(m)| >= 5;
    }
  }

  /** Changing only the legacy score fields does not change the header
      of a match that carries an official result. */
  lemma ResultOverridesLegacy(m: Match, home: Option<int>, away: Option<int>)
    requires m.result.Some?
    ensures ScoreText(m.(homeScore := home, awayScore := away)) == ScoreText(m)
  {
  }

  // ---------------------------------------------------------------------
  // What the dialog shows
  // ---------------------------------------------------------------------

  /** The dialog renders only for a present match. */
  predicate Renders(m: Option<Match>) {
    m.Some?
  }

  /** The timeline section appears exactly when it has entries. */
  predicate ShowsTimeline(m: Match, teams: seq<Team>) {
    |Timeline(m, teams)| > 0
  }

  /** "No events recorded": an empty timeline of a match that is over. */
  predicate ShowsNoEvents(m: Match, teams: seq<Team>) {
    |Timeline(m, teams)| == 0 && IsOver(m.status)
  }

  /** "Not started yet": a pending or scheduled match. */
  predicate ShowsNotStarted(m: Match) {
    m.status == "pending" || m.status == "scheduled"
  }

  /** The no-events note never shows together with the not-started
      note or with a timeline, and a match that is over with neither
      goals nor other events always shows it. */
  lemma BodiesExclusive(m: Match, teams: seq<Team>)
    ensures !(ShowsNoEvents(m, teams) && ShowsNotStarted(m))
    ensures !(ShowsNoEvents(m, teams) && ShowsTimeline(m, teams))
    ensures IsOver(m.status) && |m.goals.GetOr([])| == 0 && |OtherEvents(m)| == 0 ==> ShowsNoEvents(m, teams)
  {
    TimelineLength(m, teams);
  }
}

=== FILE: matches_table.dfy ===
/** The fixture list of `MatchesTable`: matches sorted newest first,
    grouped into one card per matchday, cards ordered by matchday
    descending, and the per-match score, status and team labels. */
module MatchesTable {
  import opened Wrappers
  import opened Text
  import opened Sorting
  import opened Domain
  import opened LibUtils

  // ---------------------------------------------------------------------
  // Status labels
  // ---------------------------------------------------------------------

  /** `getStatusText` */
  function StatusText(status: string): (t: string)
    ensures status == "scheduled" ==> t == "Programado"
    ensures status == "live" ==> t == "En Vivo"
    ensures status == "finished" ==> t == "Finalizado"
    ensures status !in {"scheduled", "live", "finished"} ==> t == status
  {
    if status == "scheduled" then "Programado"
    else if status == "live" then "En Vivo"
    else if status == "finished" then "Finalizado"
    else status
  }

  /** Exactly the statuses without a label of their own are shown as
      they are. */
  lemma StatusTextPassesThrough(status: string)
    ensures StatusText(status) == status <==> status !in {"scheduled", "live", "finished"}
  {
  }

  const ScheduledColor: string := "text-blue-600 bg-blue-50"
  const LiveColor: string := "text-green-600 bg-green-50"
  const NeutralColor: string := "text-gray-600 bg-gray-50"

  /** `getStatusColor`: `finished` shares the default colour. */
  function StatusColor(status: string): (c: string)
    ensures c == ScheduledColor <==> status == "scheduled"
    ensures c == LiveColor <==> status == "live"
    ensures c == NeutralColor <==> status != "scheduled" && status != "live"
  {
    if status == "scheduled" then ScheduledColor
    else if status == "live" then LiveColor
    else if status == "finished" then NeutralColor
    else NeutralColor
  }

  // ---------------------------------------------------------------------
  // Score
  // ---------------------------------------------------------------------

  /** The score is shown only for a finished match with both scores. */
  predicate ShowsScore(m: Match) {
    m.status == "finished" && m.homeScore.Some? && m.awayScore.Some?
  }

  /** The text between the two teams: `"{home} - {away}"` or `"vs"`. */
  function ScoreLabel(m: Match): (shown: string)
    ensures ShowsScore(m) ==> shown == IntToString(m.homeScore.value) + " - " + IntToString(m.awayScore.value)
    ensures !ShowsScore(m) ==> shown == "vs"
  {
    if ShowsScore(m) then IntToString(m.homeScore.value) + " - " + IntToString(m.awayScore.value)
    else "vs"
  }

  /** A score label can never be mistaken for "vs": the label is "vs"
      exactly when the score is not shown. */
  lemma ScoreLabelIsVsIff(m: Match)
    ensures ScoreLabel(m) == "vs" <==> !ShowsScore(m)
  {
    if ShowsScore(m) {
      assert |ScoreLabel(m)| >= 5;
    }
  }

  /** Two finished matches with the same label have the same score. */
  lemma ScoreLabelDeterminesScore(m: Match, n: Match)
    requires ShowsScore(m) && ShowsScore(n)
    requires m.homeScore.value >= 0 && m.awayScore.value >= 0
    requires n.homeScore.value >= 0 && n.awayScore.value >= 0
    requires ScoreLabel(m) == ScoreLabel(n)
    ensures m.homeScore == n.homeScore && m.awayScore == n.awayScore
  {
    var a, b := IntToString(m.homeScore.value), IntToString(m.awayScore.value);
    var c, d := IntToString(n.homeScore.value), IntToString(n.awayScore.value);
    DigitsSpaceSplit(a, b, c, d);
    IntToStringInjective(m.homeScore.value, n.homeScore.value);
    IntToStringInjective(m.awayScore.value, n.awayScore.value);
  }

  /** `a + " - " + b` splits back into its digit runs. */
  lemma DigitsSpaceSplit(a: string, b: string, c: string, d: string)
    requires AllDigits(a) && AllDigits(b) && AllDigits(c) && AllDigits(d)
    requires a + " - " + b == c + " - " + d
    ensures a == c && b == d
  {
    var s := a + " - " + b;
    SeparatorAt(a, b);
    SeparatorAt(c, d);
    if |a| < |c| {
      assert false;
    } else if |c| < |a| {
      assert false;
    }
    assert a == s[..|a|] == c;
    assert b == s[|a| + 3..] == d;
  }

  lemma SeparatorAt(a: string, b: string)
    ensures (a + " - " + b)[|a|] == ' '
    ensures (a + " - " + b)[..|a|] == a
  {
  }

  // ---------------------------------------------------------------------
  // Team labels
  // ---------------------------------------------------------------------

  /** The badge text: the first three characters of the team's short
      name, upper-cased, or `IND` when the team is unknown or the short
      name is empty. */
  function TeamBadge(teams: seq<Team>, teamId: string, upper: char -> char): (b: string)
    ensures FindTeam(teams, teamId).None? ==> b == "IND"
    ensures FindTeam(teams, teamId).Some? && FindTeam(teams, teamId).value.shortName == [] ==> b == "IND"
    ensures FindTeam(teams, teamId).Some? && FindTeam(teams, teamId).value.shortName != [] ==>
              var sn := FindTeam(teams, teamId).value.shortName;
              |b| == if |sn| < 3 then |sn| else 3
    ensures FindTeam(teams, teamId).Some? && FindTeam(teams, teamId).value.shortName != [] ==>
              forall i :: 0 <= i < |b| ==> b[i] == upper(FindTeam(teams, teamId).value.shortName[i])
  {
    match FindTeam(teams, teamId)
    case None => "IND"
    case Some(t) =>
      var s := MapChars(Slice(t.shortName, 0, 3), upper);
      if s == [] then "IND" else s
  }

  /** The team name, or `Ind` plus the last character of the id when
      the team is unknown or unnamed. */
  function TeamName(teams: seq<Team>, teamId: string): (n: string)
    ensures FindTeam(teams, teamId).Some? && FindTeam(teams, teamId).value.name != [] ==>
              n == FindTeam(teams, teamId).value.name
    ensures FindTeam(teams, teamId).None? || FindTeam(teams, teamId).value.name == [] ==>
              |n| == 3 + (if teamId == [] then 0 else 1) && n[..3] == "Ind"
    ensures (FindTeam(teams, teamId).None? || FindTeam(teams, teamId).value.name == []) && teamId != [] ==>
              |n| == 4 && n[3] == teamId[|teamId| - 1]
  {
    var t := FindTeam(teams, teamId);
    if t.Some? && t.value.name != [] then t.value.name
    else "Ind" + SliceFrom(teamId, -1)
  }

  /** The badge colour: the team's primary colour, or `#666`. */
  function TeamColor(teams: seq<Team>, teamId: string): (c: string)
    ensures c != []
    ensures FindTeam(teams, teamId).Some? && FindTeam(teams, teamId).value.colors.primary != [] ==>
              c == FindTeam(teams, teamId).value.colors.primary
    ensures FindTeam(teams, teamId).None? || FindTeam(teams, teamId).value.colors.primary == [] ==> c == "#666"
  {
    var t := FindTeam(teams, teamId);
    if t.Some? && t.value.colors.primary != [] then t.value.colors.primary else "#666"
  }

  // ---------------------------------------------------------------------
  // Sorting and grouping
  // ---------------------------------------------------------------------

  /** Sort key for "newest first": the comparator is `b.date - a.date`. */
  function NewestFirst(m: Match): real {
    -(m.date as real)
  }

  /** `[...matches].sort(...)`: a permutation of the input, newest first.
      The input is a value, so it is not mutated. */
  function SortedMatches(matches: seq<Match>): (r: seq<Match>)
    ensures multiset(r) == multiset(matches) && |r| == |matches|
    ensures forall i, j :: 0 <= i < j < |r| ==> r[i].date >= r[j].date
  {
    var r := SortByKey(matches, NewestFirst);
    assert forall i, j :: 0 <= i < j < |r| ==> NewestFirst(r[i]) <= NewestFirst(r[j]);
    r
  }

  /** Every match carries a matchday (an absent one is not modelled). */
  ghost predicate AllHaveMatchday(matches: seq<Match>) {
    forall m :: m in matches ==> m.matchday.Some?
  }

  /** The grouping key; only read for matches that carry a matchday. */
  function MatchdayOf(m: Match): int {
    m.matchday.GetOr(0)
  }

  /** `groupedByMatchday` */
  function GroupedByMatchday(matches: seq<Match>): map<int, seq<Match>> {
    GroupBy(SortedMatches(matches), MatchdayOf)
  }

  function Matchdays(s: seq<Match>): (ds: seq<int>)
    ensures |ds| == |s|
    ensures forall i :: 0 <= i < |s| ==> ds[i] == MatchdayOf(s[i])
  {
    seq(|s|, i requires 0 <= i < |s| => MatchdayOf(s[i]))
  }

  /** One rendered card. */
  datatype MatchdayCard = MatchdayCard(matchday: int, matches: seq<Match>)

  /** The matchdays present, largest first: `Object.entries` of the
      grouping sorted with `Number(b) - Number(a)`. */
  function MatchdayOrder(matches: seq<Match>): (order: seq<int>)
    ensures StrictlyDecreasing(order)
    ensures forall d :: d in order <==> d in GroupedByMatchday(matches)
  {
    var sorted := SortedMatches(matches);
    var order := DistinctDescending(Matchdays(sorted));
    GroupKeysAreMatchdays(sorted);
    order
  }

  lemma GroupKeysAreMatchdays(sorted: seq<Match>)
    ensures forall d :: d in Matchdays(sorted) <==> d in GroupBy(sorted, MatchdayOf)
  {
    var ds := Matchdays(sorted);
    forall d | d in ds ensures d in GroupBy(sorted, MatchdayOf) {
      var i :| 0 <= i < |ds| && ds[i] == d;
      assert MatchdayOf(sorted[i]) == d;
    }
    forall d | d in GroupBy(sorted, MatchdayOf) ensures d in ds {
      var i :| 0 <= i < |sorted| && MatchdayOf(sorted[i]) == d;
      assert ds[i] == d;
    }
  }

  /** The cards in render order, one per matchday present. */
  function Cards(matches: seq<Match>): (cards: seq<MatchdayCard>)
    ensures |cards| == |MatchdayOrder(matches)|
    ensures forall i :: 0 <= i < |cards| ==>
              cards[i].matchday == MatchdayOrder(matches)[i] &&
              cards[i].matches == GroupedByMatchday(matches)[cards[i].matchday]
  {
    var order := MatchdayOrder(matches);
    var groups := GroupedByMatchday(matches);
    OrderKeysPresent(order, groups);
    CardsOf(order, groups)
  }

  /** One card per listed matchday, with its group. */
  function CardsOf(order: seq<int>, groups: map<int, seq<Match>>): (cards: seq<MatchdayCard>)
    requires forall i :: 0 <= i < |order| ==> order[i] in groups
    ensures |cards| == |order|
    ensures forall i :: 0 <= i < |cards| ==> cards[i] == MatchdayCard(order[i], groups[order[i]])
  {
    seq(|order|, i requires 0 <= i < |order| => MatchdayCard(order[i], groups[order[i]]))
  }

  lemma OrderKeysPresent(order: seq<int>, groups: map<int, seq<Match>>)
    requires forall d :: d in order <==> d in groups
    ensures forall i :: 0 <= i < |order| ==> order[i] in groups
  {
    forall i | 0 <= i < |order| ensures order[i] in groups {
      var d := order[i];
      assert d in order;
    }
  }

  /** Cards come in strictly descending matchday order. */
  lemma CardsDescending(matches: seq<Match>)
    ensures var cards := Cards(matches);
            forall i, j :: 0 <= i < j < |cards| ==> cards[i].matchday > cards[j].matchday
  {
    var order := MatchdayOrder(matches);
    assert StrictlyDecreasing(order);
  }

  /** There is a card for exactly the matchdays some match carries. */
  lemma CardsForPresentMatchdays(matches: seq<Match>, d: int)
    requires AllHaveMatchday(matches)
    ensures (exists i :: 0 <= i < |Cards(matches)| && Cards(matches)[i].matchday == d) <==>
            (exists m :: m in matches && m.matchday == Some(d))
  {
    var order := MatchdayOrder(matches);
    PresentMatchdays(matches, SortedMatches(matches), order, d);
    if d in order {
      var i :| 0 <= i < |order| && order[i] == d;
      assert Cards(matches)[i].matchday == d;
    }
  }

  lemma PresentMatchdays(matches: seq<Match>, sorted: seq<Match>, order: seq<int>, d: int)
    requires AllHaveMatchday(matches)
    requires multiset(sorted) == multiset(matches)
    requires forall k :: k in order <==> k in GroupBy(sorted, MatchdayOf)
    ensures d in order <==> exists m :: m in matches && m.matchday == Some(d)
  {
    if d in order {
      var p :| 0 <= p < |sorted| && MatchdayOf(sorted[p]) == d;
      assert sorted[p] in multiset(matches);
      assert sorted[p] in matches && sorted[p].matchday == Some(d);
    }
    if m :| m in matches && m.matchday == Some(d) {
      assert m in multiset(sorted);
      var p :| 0 <= p < |sorted| && sorted[p] == m;
      assert MatchdayOf(sorted[p]) == d;
    }
  }

  /** Each match lands in the card of its own matchday ... */
  lemma CardOfOwnMatchday(matches: seq<Match>, m: Match)
    requires AllHaveMatchday(matches)
    requires m in matches
    ensures exists i :: 0 <= i < |Cards(matches)| && Cards(matches)[i].matchday == m.matchday.value &&
                        m in Cards(matches)[i].matches
  {
    var d := m.matchday.value;
    CardsForPresentMatchdays(matches, d);
    var i :| 0 <= i < |Cards(matches)| && Cards(matches)[i].matchday == d;
    assert Cards(matches)[i].matches == GroupOf(SortedMatches(matches), MatchdayOf, d);
    InOwnGroup(matches, SortedMatches(matches), m);
  }

  /** ... and in no other. */
  lemma OnlyCardOfOwnMatchday(matches: seq<Match>, m: Match, j: int)
    requires m.matchday.Some?
    requires 0 <= j < |Cards(matches)| && m in Cards(matches)[j].matches
    ensures Cards(matches)[j].matchday == m.matchday.value
  {
    var card := Cards(matches)[j];
    assert card.matches == GroupOf(SortedMatches(matches), MatchdayOf, card.matchday);
    InGroupHasKey(SortedMatches(matches), card.matchday, m);
  }

  lemma InOwnGroup(matches: seq<Match>, sorted: seq<Match>, m: Match)
    requires multiset(sorted) == multiset(matches)
    requires m in matches
    ensures m in GroupOf(sorted, MatchdayOf, MatchdayOf(m))
  {
    assert m in multiset(sorted);
    var p :| 0 <= p < |sorted| && sorted[p] == m;
  }

  lemma InGroupHasKey(sorted: seq<Match>, d: int, m: Match)
    requires m in GroupOf(sorted, MatchdayOf, d)
    ensures MatchdayOf(m) == d
  {
    var g := GroupOf(sorted, MatchdayOf, d);
    var i :| 0 <= i < |g| && g[i] == m;
  }

  /** Within a card, matches stay newest first: grouping keeps the
      sorted order. */
  lemma CardsNewestFirst(matches: seq<Match>, i: int)
    requires 0 <= i < |Cards(matches)|
    ensures var g := Cards(matches)[i].matches;
            forall a, b :: 0 <= a < b < |g| ==> g[a].date >= g[b].date
  {
    var sorted := SortedMatches(matches);
    var card := Cards(matches)[i];
    assert card.matches == GroupOf(sorted, MatchdayOf, card.matchday);
    GroupNewestFirst(sorted, card.matchday);
  }

  lemma GroupNewestFirst(sorted: seq<Match>, d: int)
    requires forall i, j :: 0 <= i < j < |sorted| ==> sorted[i].date >= sorted[j].date
    ensures var g := GroupOf(sorted, MatchdayOf, d);
            forall a, b :: 0 <= a < b < |g| ==> g[a].date >= g[b].date
  {
    assert SortedBy(sorted, NewestFirst);
    GroupOfKeepsSorted(sorted, MatchdayOf, d, NewestFirst);
    var g := GroupOf(sorted, MatchdayOf, d);
    assert forall a, b :: 0 <= a < b < |g| ==> NewestFirst(g[a]) <= NewestFirst(g[b]);
  }

  function CardSizes(cards: seq<MatchdayCard>): nat
    decreases |cards|
  {
    if |cards| == 0 then 0 else |cards[0].matches| + CardSizes(cards[1..])
  }

  /** The cards together hold every match exactly as often as the input
      does, in total: nothing is dropped or shown twice. */
  lemma CardsCoverAll(matches: seq<Match>)
    ensures CardSizes(Cards(matches)) == |matches|
  {
    var sorted := SortedMatches(matches);
    var order := MatchdayOrder(matches);
    assert forall i, j :: 0 <= i < j < |order| ==> order[i] != order[j];
    GroupSizesSumToLength(sorted, MatchdayOf, order);
    SizesAgree(sorted, Cards(matches), order);
  }

  lemma {:induction false} SizesAgree(sorted: seq<Match>, cards: seq<MatchdayCard>, ks: seq<int>)
    requires |ks| == |cards|
    requires forall i :: 0 <= i < |cards| ==>
               ks[i] == cards[i].matchday && cards[i].matches == GroupOf(sorted, MatchdayOf, ks[i])
    ensures CardSizes(cards) == SumGroupSizes(sorted, MatchdayOf, ks)
    decreases |cards|
  {
    if |cards| > 0 {
      SizesAgree(sorted, cards[1..], ks[1..]);
    }
  }

  /** The "no matches" card is shown exactly when the list is empty,
      which is exactly when no matchday card is rendered. */
  predicate ShowsEmptyState(matches: seq<Match>) {
    |matches| == 0
  }

  lemma EmptyStateIffNoCards(matches: seq<Match>)
    ensures ShowsEmptyState(matches) <==> |Cards(matches)| == 0
  {
    var sorted := SortedMatches(matches);
    if |matches| > 0 {
      assert |sorted| > 0;
      assert MatchdayOf(sorted[0]) in GroupedByMatchday(matches);
    } else {
      assert sorted == [];
      assert forall d :: d !in GroupedByMatchday(matches);
    }
  }
}

=== FILE: mock_data.dfy ===
/** The sample data set that stands in for the API when it is
    unreachable: the league table of the sample league, the lookups by id,
    and the top-scorer list. */
module MockData {
  import opened Wrappers
  import opened Text
  import opened Sorting
  import opened Domain
  import LibUtils

  // ---------------------------------------------------------------------
  // The sample league table
  // ---------------------------------------------------------------------

  /** One sample standing, with every form list of the fixture. */
  function Row(teamId: string, position: int, played: int, won: int, drawn: int, lost: int,
               goalsFor: int, goalsAgainst: int, goalDifference: int, points: int,
               form: seq<FormResult>): Standing {
    Standing(teamId, position, played, won, drawn, lost, goalsFor, goalsAgainst, goalDifference, points, Some(form))
  }

  /** `argentineStandings` */
  const ArgentineStandings: seq<Standing> := [
    Row("boca-juniors", 1, 15, 11, 3, 1, 28, 8, 20, 36, [W, W, D, W, W]),
    Row("river-plate", 2, 15, 10, 4, 1, 32, 12, 20, 34, [W, D, W, W, W]),
    Row("racing-club", 3, 15, 9, 5, 1, 25, 10, 15, 32, [D, W, W, D, W]),
    Row("independiente", 4, 15, 8, 4, 3, 24, 15, 9, 28, [L, W, D, W, W]),
    Row("san-lorenzo", 5, 15, 7, 6, 2, 21, 14, 7, 27, [D, D, W, W, D]),
    Row("estudiantes", 6, 15, 6, 7, 2, 19, 13, 6, 25, [D, L, D, W, D])
  ]

  /** A standing whose derived columns agree with the rules the table
      helpers compute them by. */
  predicate ConsistentStanding(st: Standing) {
    && st.points == LibUtils.Points(st.won, st.drawn)
    && st.goalDifference == LibUtils.GoalDifference(st.goalsFor, st.goalsAgainst)
    && st.played == st.won + st.drawn + st.lost
  }

  /** Every sample row is consistent; positions run 1 to 6 in order and
      points strictly decrease down the table. */
  lemma SampleTableConsistent()
    ensures |ArgentineStandings| == 6
    ensures forall i :: 0 <= i < |ArgentineStandings| ==> ConsistentStanding(ArgentineStandings[i])
    ensures forall i :: 0 <= i < |ArgentineStandings| ==> ArgentineStandings[i].position == i + 1
    ensures forall i, j :: 0 <= i < j < |ArgentineStandings| ==>
              ArgentineStandings[i].points > ArgentineStandings[j].points
  {
    var s := ArgentineStandings;
    assert ConsistentStanding(s[0]) && ConsistentStanding(s[1]) && ConsistentStanding(s[2]);
    assert ConsistentStanding(s[3]) && ConsistentStanding(s[4]) && ConsistentStanding(s[5]);
    forall i, j | 0 <= i < j < |s|
      ensures s[i].points > s[j].points
    {
      assert s[i].points == [36, 34, 32, 28, 27, 25][i];
      assert s[j].points == [36, 34, 32, 28, 27, 25][j];
    }
  }

  // ---------------------------------------------------------------------
  // Lookups
  // ---------------------------------------------------------------------

  /** `getTournamentById`: `tournaments.find`. */
  function GetTournamentById(tournaments: seq<Tournament>, id: string): (r: Option<Tournament>)
    ensures r.None? <==> forall i :: 0 <= i < |tournaments| ==> tournaments[i].id != id
    ensures r.Some? ==> exists i :: 0 <= i < |tournaments| && tournaments[i] == r.value &&
                          forall j :: 0 <= j < i ==> tournaments[j].id != id
    ensures r.Some? ==> r.value.id == id
  {
    if |tournaments| == 0 then None
    else if tournaments[0].id == id then Some(tournaments[0])
    else
      var r := GetTournamentById(tournaments[1..], id);
      if r.Some? then
        var k :| 0 <= k < |tournaments[1..]| && tournaments[1..][k] == r.value &&
                 forall j :: 0 <= j < k ==> tournaments[1..][j].id != id;
        assert tournaments[k + 1] == r.value;
        r
      else r
  }

  /** The one key of `mockData`. */
  const SampleTournamentId: string := "liga-argentina-2024"

  /** The properties every plain object inherits from `Object.prototype`;
      indexing `mockData` with one of them reaches the inherited value. */
  const ObjectPrototypeKeys: set<string> := {
    "constructor", "hasOwnProperty", "isPrototypeOf", "propertyIsEnumerable",
    "toLocaleString", "toString", "valueOf", "__proto__",
    "__defineGetter__", "__defineSetter__", "__lookupGetter__", "__lookupSetter__"
  }

  /** What `mockData[id]` evaluates to. */
  datatype Lookup = OwnEntry(data: TournamentData) | Inherited(key: string) | Undefined {
    /** JavaScript truthiness: only `undefined` is falsy. */
    predicate Truthy() {
      !Undefined?
    }
  }

  /** `getTournamentData` as written: a plain index into the object
      literal. `sample` is the sample league's record. */
  function GetTournamentDataAsWritten(sample: TournamentData, id: string): (r: Lookup)
    ensures r.OwnEntry? <==> id == SampleTournamentId
    ensures r.Inherited? <==> id in ObjectPrototypeKeys
  {
    if id == SampleTournamentId then OwnEntry(sample)
    else if id in ObjectPrototypeKeys then Inherited(id)
    else Undefined
  }

  /** The id `toString` gets a truthy value that is not tournament data,
      although the declared result is tournament data or `undefined`; a
      caller's `|| null` passes it on as if it were found. */
  lemma InheritedKeyLooksFound(sample: TournamentData)
    ensures GetTournamentDataAsWritten(sample, "toString").Truthy()
    ensures !GetTournamentDataAsWritten(sample, "toString").OwnEntry?
  {
  }

  /** `getTournamentData` restricted to the object's own key. */
  function GetTournamentData(sample: TournamentData, id: string): (r: Option<TournamentData>)
    ensures r.Some? <==> id == SampleTournamentId
    ensures r.Some? ==> r.value == sample
  {
    if id == SampleTournamentId then Some(sample) else None
  }

  /** The corrected lookup agrees with the written one on every id that is
      not an inherited key, and is found exactly when the written one
      holds tournament data. */
  lemma CorrectedAgreesOffPrototype(sample: TournamentData, id: string)
    ensures GetTournamentData(sample, id).Some? <==> GetTournamentDataAsWritten(sample, id).OwnEntry?
    ensures id !in ObjectPrototypeKeys ==>
              (GetTournamentData(sample, id).Some? <==> GetTournamentDataAsWritten(sample, id).Truthy())
  {
    assert SampleTournamentId !in ObjectPrototypeKeys;
  }

  // ---------------------------------------------------------------------
  // getTopScorers
  // ---------------------------------------------------------------------

  /** `{ ...stat, player, team }`. A team that is not found stays
      `undefined`. */
  datatype TopScorer = TopScorer(stat: PlayerStats, player: Player, team: Option<Team>)

  function OfTournament(tournamentId: string): PlayerStats -> bool {
    (s: PlayerStats) => s.tournamentId == tournamentId
  }

  function GoalsDescending(): PlayerStats -> real {
    (s: PlayerStats) => -(s.goals as real)
  }

  /** The statistics of one tournament, most goals first. */
  function ByGoals(stats: seq<PlayerStats>, tournamentId: string): (r: seq<PlayerStats>)
    ensures multiset(r) == multiset(Filter(stats, OfTournament(tournamentId)))
    ensures |r| == |Filter(stats, OfTournament(tournamentId))|
    ensures forall i :: 0 <= i < |r| ==> r[i] in stats && r[i].tournamentId == tournamentId
    ensures forall i, j :: 0 <= i < j < |r| ==> r[i].goals >= r[j].goals
  {
    var f := Filter(stats, OfTournament(tournamentId));
    var r := SortByKey(f, GoalsDescending());
    forall i | 0 <= i < |r|
      ensures r[i] in stats && r[i].tournamentId == tournamentId
    {
      assert r[i] in multiset(f);
      var k :| 0 <= k < |f| && f[k] == r[i];
    }
    assert forall i, j :: 0 <= i < j < |r| ==> GoalsDescending()(r[i]) <= GoalsDescending()(r[j]);
    r
  }

  /** `.slice(0, limit)` of those. */
  function SelectedStats(stats: seq<PlayerStats>, tournamentId: string, limit: int): (r: seq<PlayerStats>)
    ensures forall i :: 0 <= i < |r| ==> r[i] in stats && r[i].tournamentId == tournamentId
    ensures forall i, j :: 0 <= i < j < |r| ==> r[i].goals >= r[j].goals
    ensures limit >= 0 ==> |r| <= limit
    ensures limit >= 0 ==> |r| == if |Filter(stats, OfTournament(tournamentId))| < limit
                                   then |Filter(stats, OfTournament(tournamentId))| else limit
  {
    PrefixOf(ByGoals(stats, tournamentId), limit)
  }

  /** The selection holds the top scorers: every statistic of the
      tournament that was left out has no more goals than any selected
      one. */
  lemma SelectedAreTop(stats: seq<PlayerStats>, tournamentId: string, limit: int)
    ensures var sel := SelectedStats(stats, tournamentId, limit);
            multiset(sel) <= multiset(Filter(stats, OfTournament(tournamentId)))
    ensures var sel := SelectedStats(stats, tournamentId, limit);
            forall x, i :: x in multiset(Filter(stats, OfTournament(tournamentId))) - multiset(sel) && 0 <= i < |sel| ==>
              x.goals <= sel[i].goals
  {
    var sorted := ByGoals(stats, tournamentId);
    var sel := SelectedStats(stats, tournamentId, limit);
    assert sel == sorted[..|sel|];
    PrefixIsTop(sorted, |sel|);
  }

  /** Of a list ordered by goals, most first, a prefix holds the top
      scorers: whatever the rest holds has no more goals than any entry of
      the prefix. */
  lemma PrefixIsTop(sorted: seq<PlayerStats>, n: nat)
    requires n <= |sorted|
    requires forall i, j :: 0 <= i < j < |sorted| ==> sorted[i].goals >= sorted[j].goals
    ensures multiset(sorted[..n]) <= multiset(sorted)
    ensures forall x, i :: x in multiset(sorted) - multiset(sorted[..n]) && 0 <= i < n ==> x.goals <= sorted[i].goals
  {
    assert sorted == sorted[..n] + sorted[n..];
    assert multiset(sorted) == multiset(sorted[..n]) + multiset(sorted[n..]);
    forall x, i | x in multiset(sorted) - multiset(sorted[..n]) && 0 <= i < n
      ensures x.goals <= sorted[i].goals
    {
      assert x in multiset(sorted[n..]);
      var k :| 0 <= k < |sorted[n..]| && sorted[n..][k] == x;
      assert sorted[n + k] == x;
    }
  }

  /** `slice(0, limit)` keeps a prefix, so it keeps the order and the
      membership facts of its input. */
  function PrefixOf(s: seq<PlayerStats>, limit: int): (r: seq<PlayerStats>)
    ensures |r| <= |s| && r == s[..|r|]
    ensures limit >= 0 ==> |r| == if |s| < limit then |s| else limit
  {
    Slice(s, 0, limit)
  }

  /** Decorating the selected statistics: when a player is missing,
      reading `player.teamId` of `undefined` throws (`None`); a missing
      team is kept as `undefined`. */
  function Decorate(selected: seq<PlayerStats>, players: seq<Player>, teams: seq<Team>): (r: Option<seq<TopScorer>>)
    ensures r.Some? <==> forall i :: 0 <= i < |selected| ==> FindPlayer(players, selected[i].playerId).Some?
    ensures r.Some? ==> |r.value| == |selected|
    ensures r.Some? ==> forall i :: 0 <= i < |selected| ==>
              && r.value[i].stat == selected[i]
              && r.value[i].player == FindPlayer(players, selected[i].playerId).value
              && r.value[i].team == FindTeam(teams, r.value[i].player.teamId)
  {
    if |selected| == 0 then Some([])
    else
      var p := FindPlayer(players, selected[0].playerId);
      var rest := Decorate(selected[1..], players, teams);
      if p.None? then None
      else if rest.None? then None
      else Some([TopScorer(selected[0], p.value, FindTeam(teams, p.value.teamId))] + rest.value)
  }

  /** `getTopScorers` over the given statistics, players and teams. */
  function GetTopScorers(stats: seq<PlayerStats>, players: seq<Player>, teams: seq<Team>,
                         tournamentId: string, limit: int): (r: Option<seq<TopScorer>>)
    ensures r.Some? ==> limit >= 0 ==> |r.value| <= limit
    ensures r.Some? ==> |r.value| == |SelectedStats(stats, tournamentId, limit)|
    ensures r.Some? ==> forall i :: 0 <= i < |r.value| ==> r.value[i].stat == SelectedStats(stats, tournamentId, limit)[i]
    ensures r.Some? ==> forall i :: 0 <= i < |r.value| ==>
              r.value[i].stat in stats && r.value[i].stat.tournamentId == tournamentId &&
              r.value[i].player.id == r.value[i].stat.playerId
    ensures r.Some? ==> forall i, j :: 0 <= i < j < |r.value| ==> r.value[i].stat.goals >= r.value[j].stat.goals
  {
    Decorate(SelectedStats(stats, tournamentId, limit), players, teams)
  }

  /** The statistics a top-scorer list was built from. */
  function StatsOf(ts: seq<TopScorer>): (r: seq<PlayerStats>)
    ensures |r| == |ts| && forall i :: 0 <= i < |ts| ==> r[i] == ts[i].stat
  {
    if |ts| == 0 then [] else [ts[0].stat] + StatsOf(ts[1..])
  }

  /** `getTopScorers` returns the top scorers of the tournament: its
      entries are statistics of that tournament, and every statistic of
      the tournament it leaves out has no more goals than any entry. */
  lemma TopScorersAreTop(stats: seq<PlayerStats>, players: seq<Player>, teams: seq<Team>,
                         tournamentId: string, limit: int)
    requires GetTopScorers(stats, players, teams, tournamentId, limit).Some?
    ensures var r := GetTopScorers(stats, players, teams, tournamentId, limit).value;
            multiset(StatsOf(r)) <= multiset(Filter(stats, OfTournament(tournamentId)))
    ensures var r := GetTopScorers(stats, players, teams, tournamentId, limit).value;
            forall x, i ::
              (x in multiset(Filter(stats, OfTournament(tournamentId))) - multiset(StatsOf(r)) && 0 <= i < |r|) ==>
              x.goals <= r[i].stat.goals
  {
    var r := GetTopScorers(stats, players, teams, tournamentId, limit).value;
    assert StatsOf(r) == SelectedStats(stats, tournamentId, limit);
    SelectedAreTop(stats, tournamentId, limit);
  }

  /** The default `limit` of `getTopScorers`. */
  const DefaultTopScorersLimit: int := 10

  /** `getTopScorers(tournamentId)` with the limit left out. */
  function GetTopScorersDefault(stats: seq<PlayerStats>, players: seq<Player>, teams: seq<Team>,
                                tournamentId: string): (r: Option<seq<TopScorer>>)
    ensures r.Some? ==> |r.value| <= 10
    ensures r.Some? ==> forall i :: 0 <= i < |r.value| ==>
              r.value[i].stat in stats && r.value[i].stat.tournamentId == tournamentId
  {
    GetTopScorers(stats, players, teams, tournamentId, DefaultTopScorersLimit)
  }

  /** With every player known the list is produced, and its length is the
      smaller of the limit and the number of statistics of the
      tournament. */
  lemma TopScorersLength(stats: seq<PlayerStats>, players: seq<Player>, teams: seq<Team>,
                         tournamentId: string, limit: nat)
    requires forall s :: s in stats ==> FindPlayer(players, s.playerId).Some?
    ensures var r := GetTopScorers(stats, players, teams, tournamentId, limit);
            var n := |Filter(stats, OfTournament(tournamentId))|;
            r.Some? && |r.value| == if n < limit then n else limit
  {
    var sel := SelectedStats(stats, tournamentId, limit);
    assert forall i :: 0 <= i < |sel| ==> sel[i] in stats;
  }
}

=== FILE: players_table.dfy ===
/** The player statistics list of `PlayersTable`: an optional team
    filter, a descending sort on the chosen column, and the highlighted
    top entry. */
module PlayersTable {
  import opened Wrappers
  import opened Sorting
  import opened Domain

  /** The sortable columns; `goals` is the initial choice. */
  datatype SortColumn = Goals | Assists | Matches | AverageGoalsPerGame

  const InitialColumn: SortColumn := Goals

  function ColumnValue(p: PlayerStats, c: SortColumn): real {
    match c
    case Goals => p.goals as real
    case Assists => p.assists as real
    case Matches => p.matches as real
    case AverageGoalsPerGame => p.averageGoalsPerGame
  }

  /** The comparator `b.x - a.x` as a key: largest first. */
  function DescendingKey(c: SortColumn): PlayerStats -> real {
    (p: PlayerStats) => -ColumnValue(p, c)
  }

  /** The filter: everything when no team is chosen, else the statistics
      whose player is known and plays for that team. */
  function TeamFilter(players: seq<Player>, filterTeam: string): PlayerStats -> bool {
    (stat: PlayerStats) =>
      filterTeam == [] ||
      (var p := FindPlayer(players, stat.playerId); p.Some? && p.value.teamId == filterTeam)
  }

  /** `filteredAndSortedStats` */
  function FilteredAndSorted(stats: seq<PlayerStats>, players: seq<Player>, filterTeam: string, c: SortColumn)
    : (r: seq<PlayerStats>)
    ensures |r| <= |stats|
    ensures multiset(r) == multiset(Filter(stats, TeamFilter(players, filterTeam)))
    ensures forall i, j :: 0 <= i < j < |r| ==> ColumnValue(r[i], c) >= ColumnValue(r[j], c)
  {
    var r := SortByKey(Filter(stats, TeamFilter(players, filterTeam)), DescendingKey(c));
    assert forall i, j :: 0 <= i < j < |r| ==> DescendingKey(c)(r[i]) <= DescendingKey(c)(r[j]);
    r
  }

  /** A statistic is listed exactly when it passes the team filter: with
      no team chosen every statistic is listed, otherwise exactly those
      whose player exists and has that team. */
  lemma FilterMembership(stats: seq<PlayerStats>, players: seq<Player>, filterTeam: string, c: SortColumn,
                         stat: PlayerStats)
    ensures stat in FilteredAndSorted(stats, players, filterTeam, c) <==>
            stat in stats &&
            (filterTeam == [] ||
             (FindPlayer(players, stat.playerId).Some? && FindPlayer(players, stat.playerId).value.teamId == filterTeam))
  {
    var f := Filter(stats, TeamFilter(players, filterTeam));
    var r := FilteredAndSorted(stats, players, filterTeam, c);
    assert stat in r <==> stat in multiset(f);
    if stat in f {
      var i :| 0 <= i < |f| && f[i] == stat;
      assert TeamFilter(players, filterTeam)(stat);
    }
    if stat in stats && TeamFilter(players, filterTeam)(stat) {
      var i :| 0 <= i < |stats| && stats[i] == stat;
    }
  }

  /** With no team chosen the list is a permutation of all statistics. */
  lemma NoFilterKeepsAll(stats: seq<PlayerStats>, players: seq<Player>, c: SortColumn)
    ensures multiset(FilteredAndSorted(stats, players, "", c)) == multiset(stats)
  {
    FilterAll(stats, TeamFilter(players, ""));
  }

  /** `topScorer`: the first entry, absent exactly when the list is
      empty; it leads the chosen column. */
  function TopScorer(stats: seq<PlayerStats>, players: seq<Player>, filterTeam: string, c: SortColumn)
    : (top: Option<PlayerStats>)
    ensures top.None? <==> |FilteredAndSorted(stats, players, filterTeam, c)| == 0
    ensures top.Some? ==> top.value == FilteredAndSorted(stats, players, filterTeam, c)[0]
  {
    var r := FilteredAndSorted(stats, players, filterTeam, c);
    if |r| == 0 then None else Some(r[0])
  }

  /** The highlighted entry has the largest value of the chosen column
      among the listed statistics. */
  lemma TopScorerLeads(stats: seq<PlayerStats>, players: seq<Player>, filterTeam: string, c: SortColumn,
                       stat: PlayerStats)
    requires stat in FilteredAndSorted(stats, players, filterTeam, c)
    ensures var top := TopScorer(stats, players, filterTeam, c);
            top.Some? && ColumnValue(top.value, c) >= ColumnValue(stat, c)
  {
    var r := FilteredAndSorted(stats, players, filterTeam, c);
    var i :| 0 <= i < |r| && r[i] == stat;
  }
}

=== FILE: pwa.dfy ===
/** `PWAProvider`: the install-prompt state machine. The browser events,
    the two timers and the user's actions are events; the stored
    `pwa-install-prompt-shown` flag is a boolean; whether the page runs on
    a development host, and whether it runs standalone at start-up, are
    parameters. The prompt object itself is only present or absent. */
module Pwa {
  /** The provider's state plus what the browser holds for it: the flag
      in local storage, the number of pending three-second timers, and
      the pending development timer with the `isInstalled` it captured. */
  datatype PwaState = PwaState(
    hasPrompt: bool,
    showModal: bool,
    installable: bool,
    shownFlag: bool,
    promptTimers: nat,
    devTimerPending: bool,
    installedAtStart: bool)

  /** What the install prompt's `userChoice` settles to, or `Failed` when
      `prompt()` or `userChoice` rejects. */
  datatype Outcome = Accepted | Dismissed | Failed

  datatype Event =
    | BeforeInstallPrompt
    | AppInstalled
    | PromptTimerFires
    | DevTimerFires
    | InstallPwa(outcome: Outcome)
    | CloseInstallModal
    | ShowInstallPrompt
    | ForceShowInstallModal

  /** The state after the mount effect: installable is forced off when
      already standalone, and on in development; the development timer is
      armed in development. */
  function Start(storedFlag: bool, standalone: bool, dev: bool): (s: PwaState)
    ensures standalone ==> !s.installable
    ensures !standalone ==> s.installable == dev
    ensures !s.hasPrompt && !s.showModal && s.promptTimers == 0
    ensures s.devTimerPending == dev && s.installedAtStart == standalone && s.shownFlag == storedFlag
  {
    PwaState(false, false, !standalone && dev, storedFlag, 0, dev, standalone)
  }

  /** `handleBeforeInstallPrompt` */
  function OnBeforeInstallPrompt(s: PwaState): (r: PwaState)
    ensures r.hasPrompt && r.installable
    ensures r.promptTimers == if s.shownFlag then s.promptTimers else s.promptTimers + 1
    ensures r.showModal == s.showModal && r.shownFlag == s.shownFlag
    ensures r.devTimerPending == s.devTimerPending && r.installedAtStart == s.installedAtStart
  {
    s.(hasPrompt := true, installable := true,
       promptTimers := if !s.shownFlag then s.promptTimers + 1 else s.promptTimers)
  }

  /** `handleAppInstalled` */
  function OnAppInstalled(s: PwaState): (r: PwaState)
    ensures !r.hasPrompt && !r.installable && !r.showModal && r.shownFlag
    ensures r.promptTimers == s.promptTimers && r.devTimerPending == s.devTimerPending
    ensures r.installedAtStart == s.installedAtStart
  {
    s.(hasPrompt := false, installable := false, showModal := false, shownFlag := true)
  }

  /** The three-second timer as written: it opens the modal without
      looking at the flag again. */
  function OnPromptTimerAsWritten(s: PwaState): (r: PwaState)
    ensures s.promptTimers > 0 ==> r == s.(showModal := true, promptTimers := s.promptTimers - 1)
    ensures s.promptTimers == 0 ==> r == s
  {
    if s.promptTimers > 0 then s.(showModal := true, promptTimers := s.promptTimers - 1) else s
  }

  /** The three-second timer re-reading the flag when it fires, as the
      development timer does. */
  function OnPromptTimer(s: PwaState): (r: PwaState)
    ensures s.promptTimers > 0 ==> r == s.(showModal := s.showModal || !s.shownFlag, promptTimers := s.promptTimers - 1)
    ensures s.promptTimers == 0 ==> r == s
  {
    if s.promptTimers > 0 then
      s.(showModal := if !s.shownFlag then true else s.showModal, promptTimers := s.promptTimers - 1)
    else s
  }

  /** The development timer: opens the modal unless the flag is set or the
      app was standalone at start-up. */
  function OnDevTimer(s: PwaState): (r: PwaState)
    ensures !s.devTimerPending ==> r == s
    ensures s.devTimerPending ==>
              r == s.(devTimerPending := false, showModal := s.showModal || (!s.shownFlag && !s.installedAtStart))
  {
    if !s.devTimerPending then s
    else s.(devTimerPending := false,
            showModal := if !s.shownFlag && !s.installedAtStart then true else s.showModal)
  }

  /** `installPWA`. Without a prompt it does nothing outside development
      and simulates an install in development; with one, the flag is set
      only on acceptance, and the prompt and modal are cleared on either
      answer; a rejected promise changes nothing. */
  function InstallPwa(s: PwaState, outcome: Outcome, dev: bool): (r: PwaState)
    ensures r.shownFlag <==> s.shownFlag || (!s.hasPrompt && dev) || (s.hasPrompt && outcome == Accepted)
    ensures (!s.hasPrompt && !dev) || (s.hasPrompt && outcome == Failed) ==> r == s
    ensures !s.hasPrompt && dev ==> !r.showModal && !r.installable && !r.hasPrompt
    ensures s.hasPrompt && outcome != Failed ==> !r.hasPrompt && !r.showModal && r.installable == s.installable
    ensures r.promptTimers == s.promptTimers && r.devTimerPending == s.devTimerPending
    ensures r.installedAtStart == s.installedAtStart
  {
    if !s.hasPrompt then
      if dev then s.(shownFlag := true, showModal := false, installable := false) else s
    else
      match outcome
      case Failed => s
      case Accepted => s.(shownFlag := true, hasPrompt := false, showModal := false)
      case Dismissed => s.(hasPrompt := false, showModal := false)
  }

  /** `closeInstallModal` */
  function OnCloseInstallModal(s: PwaState): (r: PwaState)
    ensures !r.showModal && r.shownFlag
    ensures r.(showModal := s.showModal, shownFlag := s.shownFlag) == s
  {
    s.(showModal := false, shownFlag := true)
  }

  /** `showInstallPrompt` */
  function OnShowInstallPrompt(s: PwaState): (r: PwaState)
    ensures r.showModal
    ensures r.(showModal := s.showModal) == s
  {
    s.(showModal := true)
  }

  /** `forceShowInstallModal` */
  function OnForceShowInstallModal(s: PwaState): (r: PwaState)
    ensures r.showModal && r.installable
    ensures r.(showModal := s.showModal, installable := s.installable) == s
  {
    s.(installable := true, showModal := true)
  }

  /** One event, with the three-second timer as written or corrected. */
  function Step(s: PwaState, e: Event, dev: bool, asWritten: bool): PwaState {
    match e
    case BeforeInstallPrompt => OnBeforeInstallPrompt(s)
    case AppInstalled => OnAppInstalled(s)
    case PromptTimerFires => if asWritten then OnPromptTimerAsWritten(s) else OnPromptTimer(s)
    case DevTimerFires => OnDevTimer(s)
    case InstallPwa(o) => InstallPwa(s, o, dev)
    case CloseInstallModal => OnCloseInstallModal(s)
    case ShowInstallPrompt => OnShowInstallPrompt(s)
    case ForceShowInstallModal => OnForceShowInstallModal(s)
  }

  function Run(s: PwaState, events: seq<Event>, dev: bool, asWritten: bool): PwaState
    decreases |events|
  {
    if |events| == 0 then s else Run(Step(s, events[0], dev, asWritten), events[1..], dev, asWritten)
  }

  /** The stored flag is never cleared: once set, it stays set whatever
      happens next. */
  lemma {:induction false} FlagStaysSet(s: PwaState, events: seq<Event>, dev: bool, asWritten: bool)
    requires s.shownFlag
    ensures Run(s, events, dev, asWritten).shownFlag
    decreases |events|
  {
    if |events| > 0 {
      FlagStaysSet(Step(s, events[0], dev, asWritten), events[1..], dev, asWritten);
    }
  }

  /** Only the user's explicit requests open the modal on their own. */
  predicate OpensOnRequest(e: Event) {
    e == ShowInstallPrompt || e == ForceShowInstallModal
  }

  /** With the corrected timer, once the flag is set and the modal is
      closed, only an explicit request can open the modal again. */
  lemma {:induction false} ClosedStaysClosed(s: PwaState, events: seq<Event>, dev: bool)
    requires s.shownFlag && !s.showModal
    requires forall i :: 0 <= i < |events| ==> !OpensOnRequest(events[i])
    ensures !Run(s, events, dev, false).showModal
    decreases |events|
  {
    if |events| > 0 {
      var t := Step(s, events[0], dev, false);
      assert t.shownFlag && !t.showModal;
      ClosedStaysClosed(t, events[1..], dev);
    }
  }

  /** As written, a three-second timer armed before the app is installed
      reopens the install modal after the install: the modal shows while
      the app is not installable and the flag is set. */
  lemma InstalledAppReopensModal()
    ensures var s := Run(Start(false, false, false), [BeforeInstallPrompt, AppInstalled, PromptTimerFires], false, true);
            s.showModal && !s.installable && s.shownFlag
  {
    var s0 := Start(false, false, false);
    var s1 := Step(s0, BeforeInstallPrompt, false, true);
    var s2 := Step(s1, AppInstalled, false, true);
    var s3 := Step(s2, PromptTimerFires, false, true);
    assert s3.showModal && !s3.installable && s3.shownFlag;
    assert [BeforeInstallPrompt, AppInstalled, PromptTimerFires][1..] == [AppInstalled, PromptTimerFires];
    assert [AppInstalled, PromptTimerFires][1..] == [PromptTimerFires];
    assert [PromptTimerFires][1..] == [];
  }

  /** The corrected timer agrees with the written one whenever the flag
      is still unset when it fires. */
  lemma TimersAgreeBeforeFlag(s: PwaState)
    requires !s.shownFlag
    ensures OnPromptTimer(s) == OnPromptTimerAsWritten(s)
  {
  }
}

=== FILE: sorting.dfy ===
/** Ordering and filtering of sequences.

    Every `Array.prototype.sort` in the front end is called with a
    comparator of the shape `(a, b) => key(a) - key(b)` (possibly times a
    constant direction). Since ES2019 `sort` is required to be stable, its
    result is fully determined: the stable sort of the input by `key`.
    `SortByKey` is such a stable sort (insertion sort that puts a new
    element before the first element of equal or greater key). */
module Sorting {

  /** `s` is ordered by `key`, smallest first. */
  ghost predicate SortedBy<T>(s: seq<T>, key: T -> real) {
    forall i, j :: 0 <= i < j < |s| ==> key(s[i]) <= key(s[j])
  }

  lemma SortedTail<T>(s: seq<T>, key: T -> real)
    requires |s| > 0 && SortedBy(s, key)
    ensures SortedBy(s[1..], key)
    ensures forall e :: e in s[1..] ==> key(s[0]) <= key(e)
  {
    forall e | e in s[1..] ensures key(s[0]) <= key(e) {
      var k :| 0 <= k < |s[1..]| && s[1..][k] == e;
      assert s[k + 1] == e;
    }
  }

  /** Every element of `s` is at least `lo` under `key`. */
  ghost predicate AllAtLeast<T>(s: seq<T>, key: T -> real, lo: real) {
    forall e :: e in s ==> lo <= key(e)
  }

  lemma ConsSorted<T>(x: T, s: seq<T>, key: T -> real)
    requires SortedBy(s, key) && AllAtLeast(s, key, key(x))
    ensures SortedBy([x] + s, key)
  {
    var r := [x] + s;
    forall i, j | 0 <= i < j < |r| ensures key(r[i]) <= key(r[j]) {
      if i == 0 {
        assert r[j] == s[j - 1] && s[j - 1] in s;
      } else {
        assert r[i] == s[i - 1] && r[j] == s[j - 1];
      }
    }
  }

  /** Insert `x` into sorted `s` before the first element whose key is at
      least `key(x)`. */
  function Insert<T>(x: T, s: seq<T>, key: T -> real): (r: seq<T>)
    requires SortedBy(s, key)
    ensures SortedBy(r, key)
    ensures multiset(r) == multiset(s) + multiset{x}
    ensures |r| == |s| + 1
    decreases |s|
  {
    if |s| == 0 then [x]
    else if key(x) <= key(s[0]) then
      SortedTail(s, key);
      ConsSorted(x, s, key);
      [x] + s
    else
      SortedTail(s, key);
      var rest := Insert(x, s[1..], key);
      InsertedAtLeast(x, s, key, rest);
      ConsSorted(s[0], rest, key);
      assert s == [s[0]] + s[1..];
      [s[0]] + rest
  }

  lemma InsertedAtLeast<T>(x: T, s: seq<T>, key: T -> real, rest: seq<T>)
    requires |s| > 0 && SortedBy(s, key) && key(s[0]) < key(x)
    requires multiset(rest) == multiset(s[1..]) + multiset{x}
    ensures AllAtLeast(rest, key, key(s[0]))
  {
    SortedTail(s, key);
    forall e | e in rest ensures key(s[0]) <= key(e) {
      assert e in multiset(rest);
      if e != x {
        assert e in multiset(s[1..]);
      }
    }
  }

  /** Stable sort of `s` by `key`, smallest key first. */
  function SortByKey<T>(s: seq<T>, key: T -> real): (r: seq<T>)
    ensures SortedBy(r, key)
    ensures multiset(r) == multiset(s)
    ensures |r| == |s|
    decreases |s|
  {
    if |s| == 0 then []
    else
      assert s == [s[0]] + s[1..];
      Insert(s[0], SortByKey(s[1..], key), key)
  }

  /** An already ordered sequence is left exactly as it is: the sort does
      not reorder elements of equal key. */
  lemma {:induction false} SortSortedIsIdentity<T>(s: seq<T>, key: T -> real)
    requires SortedBy(s, key)
    ensures SortByKey(s, key) == s
    decreases |s|
  {
    if |s| > 0 {
      SortedTail(s, key);
      SortSortedIsIdentity(s[1..], key);
      InsertSmallest(s[0], s[1..], key);
      assert s == [s[0]] + s[1..];
    }
  }

  /** An element no larger than the head goes in front. */
  lemma InsertSmallest<T>(x: T, s: seq<T>, key: T -> real)
    requires SortedBy(s, key)
    requires forall e :: e in s ==> key(x) <= key(e)
    ensures Insert(x, s, key) == [x] + s
  {
    if |s| > 0 {
      assert s[0] in s;
    }
  }

  /** A comparator that is always 0 (a constant key) leaves the order
      unchanged. */
  lemma ConstantKeyKeepsOrder<T>(s: seq<T>, key: T -> real, c: real)
    requires forall e :: e in s ==> key(e) == c
    ensures SortByKey(s, key) == s
  {
    SortSortedIsIdentity(s, key);
  }

  /** Elements of a sorted result are the elements of the input. */
  lemma SortMembers<T>(s: seq<T>, key: T -> real)
    ensures forall e :: e in SortByKey(s, key) <==> e in s
  {
    var r := SortByKey(s, key);
    forall e ensures e in r <==> e in s {
      assert e in r <==> e in multiset(r);
      assert e in s <==> e in multiset(s);
    }
  }

  // ---------------------------------------------------------------------
  // Filtering
  // ---------------------------------------------------------------------

  /** `s.filter(p)` */
  function Filter<T>(s: seq<T>, p: T -> bool): (r: seq<T>)
    ensures |r| <= |s|
    ensures forall i :: 0 <= i < |r| ==> r[i] in s && p(r[i])
    ensures forall i :: 0 <= i < |s| && p(s[i]) ==> s[i] in r
    ensures multiset(r) <= multiset(s)
    decreases |s|
  {
    if |s| == 0 then []
    else
      assert s == [s[0]] + s[1..];
      (if p(s[0]) then [s[0]] else []) + Filter(s[1..], p)
  }

  /** Filtering keeps the relative order, so it keeps sortedness. */
  lemma {:induction false} FilterKeepsSorted<T>(s: seq<T>, p: T -> bool, key: T -> real)
    requires SortedBy(s, key)
    ensures SortedBy(Filter(s, p), key)
    decreases |s|
  {
    if |s| > 0 {
      SortedTail(s, key);
      FilterKeepsSorted(s[1..], p, key);
      if p(s[0]) {
        ConsSorted(s[0], Filter(s[1..], p), key);
      }
    }
  }

  /** A filter whose predicate holds everywhere keeps everything. */
  lemma {:induction false} FilterAll<T>(s: seq<T>, p: T -> bool)
    requires forall e :: e in s ==> p(e)
    ensures Filter(s, p) == s
    decreases |s|
  {
    if |s| > 0 {
      FilterAll(s[1..], p);
      assert s == [s[0]] + s[1..];
    }
  }

  // ---------------------------------------------------------------------
  // Distinct keys
  // ---------------------------------------------------------------------

  ghost predicate NonIncreasing(s: seq<int>) {
    forall i, j :: 0 <= i < j < |s| ==> s[i] >= s[j]
  }

  ghost predicate StrictlyDecreasing(s: seq<int>) {
    forall i, j :: 0 <= i < j < |s| ==> s[i] > s[j]
  }

  /** Drop adjacent repetitions. */
  function Dedup(s: seq<int>): (r: seq<int>)
    ensures forall x :: x in r <==> x in s
    ensures |r| <= |s|
    ensures |s| > 0 ==> |r| > 0 && r[0] == s[0]
    ensures NonIncreasing(s) ==> StrictlyDecreasing(r)
    decreases |s|
  {
    if |s| <= 1 then s
    else if s[0] == s[1] then
      assert s[1..] == [s[1]] + s[2..];
      Dedup(s[1..])
    else
      var rest := Dedup(s[1..]);
      DedupHead(s, rest);
      [s[0]] + rest
  }

  lemma DedupHead(s: seq<int>, rest: seq<int>)
    requires |s| > 1 && s[0] != s[1]
    requires forall x :: x in rest <==> x in s[1..]
    requires |rest| > 0 && rest[0] == s[1]
    requires NonIncreasing(s[1..]) ==> StrictlyDecreasing(rest)
    ensures NonIncreasing(s) ==> StrictlyDecreasing([s[0]] + rest)
  {
    if NonIncreasing(s) {
      assert NonIncreasing(s[1..]);
      var r := [s[0]] + rest;
      forall i, j | 0 <= i < j < |r| ensures r[i] > r[j] {
        if i == 0 {
          assert r[j] in rest;
          var k :| 0 <= k < |s[1..]| && s[1..][k] == r[j];
          assert s[0] >= s[1] >= s[k + 1];
        }
      }
    }
  }

  function NegateInt(x: int): real {
    -(x as real)
  }

  /** The distinct values of `s`, largest first. */
  function DistinctDescending(s: seq<int>): (r: seq<int>)
    ensures StrictlyDecreasing(r)
    ensures forall x :: x in r <==> x in s
  {
    var sorted := SortByKey(s, NegateInt);
    SortMembers(s, NegateInt);
    assert NonIncreasing(sorted) by {
      forall i, j | 0 <= i < j < |sorted| ensures sorted[i] >= sorted[j] {
        assert NegateInt(sorted[i]) <= NegateInt(sorted[j]);
      }
    }
    Dedup(sorted)
  }
}

=== FILE: standings_table.dfy ===
/** The league table of `StandingsTable`: the column-sort state machine,
    the sorted rows, the playoff highlight, the goal-difference cell and
    the recent-form window. */
module StandingsTable {
  import opened Wrappers
  import opened Text
  import opened Sorting
  import opened Domain

  // ---------------------------------------------------------------------
  // Sort state
  // ---------------------------------------------------------------------

  /** The columns (`keyof Standing`). */
  datatype Field =
    | TeamId | Position | Played | Won | Drawn | Lost
    | GoalsFor | GoalsAgainst | GoalDifference | Points | Form

  datatype Direction = Asc | Desc

  datatype SortState = SortState(sortBy: Field, direction: Direction)

  /** The state when the table first renders. */
  const InitialSort: SortState := SortState(Position, Asc)

  function Flip(d: Direction): Direction {
    if d == Asc then Desc else Asc
  }

  /** `handleSort`: the current column flips direction, another column
      becomes current in ascending order. */
  function HandleSort(s: SortState, field: Field): (r: SortState)
    ensures r.sortBy == field
    ensures s.sortBy == field ==> r.direction != s.direction
    ensures s.sortBy != field ==> r.direction == Asc
  {
    if s.sortBy == field then SortState(field, Flip(s.direction))
    else SortState(field, Asc)
  }

  /** Clicking the same column twice restores the state; clicking a new
      column and then it again gives descending order. */
  lemma HandleSortTwice(s: SortState, field: Field)
    ensures s.sortBy == field ==> HandleSort(HandleSort(s, field), field) == s
    ensures s.sortBy != field ==> HandleSort(HandleSort(s, field), field) == SortState(field, Desc)
  {
  }

  /** The arrow next to a header: none unless it is the current column,
      up for ascending. */
  datatype Arrow = NoArrow | Up | Down

  function HeaderArrow(s: SortState, field: Field): (a: Arrow)
    ensures a == NoArrow <==> s.sortBy != field
    ensures a == Up <==> s.sortBy == field && s.direction == Asc
  {
    if s.sortBy != field then NoArrow
    else if s.direction == Asc then Up
    else Down
  }

  // ---------------------------------------------------------------------
  // Sorted rows
  // ---------------------------------------------------------------------

  /** `a[sortBy]` when it is a number. */
  function NumericValue(st: Standing, f: Field): (v: Option<int>)
    ensures v.None? <==> f == TeamId || f == Form
  {
    match f
    case Position => Some(st.position)
    case Played => Some(st.played)
    case Won => Some(st.won)
    case Drawn => Some(st.drawn)
    case Lost => Some(st.lost)
    case GoalsFor => Some(st.goalsFor)
    case GoalsAgainst => Some(st.goalsAgainst)
    case GoalDifference => Some(st.goalDifference)
    case Points => Some(st.points)
    case TeamId => None
    case Form => None
  }

  /** The comparator `(a - b) * direction` as a key; non-numeric columns
      compare equal (key 0). */
  function SortKey(s: SortState): Standing -> real {
    (st: Standing) =>
      var v := NumericValue(st, s.sortBy);
      if v.None? then 0.0
      else if s.direction == Asc then v.value as real
      else -(v.value as real)
  }

  /** `sortedStandings`: a permutation of a copy of the rows. */
  function SortedStandings(standings: seq<Standing>, s: SortState): (r: seq<Standing>)
    ensures multiset(r) == multiset(standings) && |r| == |standings|
  {
    SortByKey(standings, SortKey(s))
  }

  /** A numeric column is non-decreasing ascending and non-increasing
      descending. */
  lemma SortedByColumn(standings: seq<Standing>, s: SortState)
    requires s.sortBy != TeamId && s.sortBy != Form
    ensures var r := SortedStandings(standings, s);
            forall i, j :: 0 <= i < j < |r| ==>
              if s.direction == Asc then NumericValue(r[i], s.sortBy).value <= NumericValue(r[j], s.sortBy).value
              else NumericValue(r[i], s.sortBy).value >= NumericValue(r[j], s.sortBy).value
  {
    var r := SortedStandings(standings, s);
    assert SortedBy(r, SortKey(s));
    forall i, j | 0 <= i < j < |r|
      ensures if s.direction == Asc then NumericValue(r[i], s.sortBy).value <= NumericValue(r[j], s.sortBy).value
              else NumericValue(r[i], s.sortBy).value >= NumericValue(r[j], s.sortBy).value
    {
      assert SortKey(s)(r[i]) <= SortKey(s)(r[j]);
    }
  }

  /** Sorting on the team id or the form column leaves the rows in their
      given order. */
  lemma NonNumericKeepsOrder(standings: seq<Standing>, s: SortState)
    requires s.sortBy == TeamId || s.sortBy == Form
    ensures SortedStandings(standings, s) == standings
  {
    ConstantKeyKeepsOrder(standings, SortKey(s), 0.0);
  }

  // ---------------------------------------------------------------------
  // Row decoration
  // ---------------------------------------------------------------------

  /** `getPositionStyle`: the playoff highlight needs a configured, truthy
      and positive count (null, undefined and 0 are falsy). */
  function PositionStyle(playoffTeamsCount: Option<int>, position: int): (style: string)
    ensures style == "qualification-champions" <==>
              playoffTeamsCount.Some? && playoffTeamsCount.value > 0 && position <= playoffTeamsCount.value
    ensures style != "qualification-champions" ==> style == ""
  {
    if playoffTeamsCount.Some? && playoffTeamsCount.value != 0 &&
       playoffTeamsCount.value > 0 && position <= playoffTeamsCount.value
    then "qualification-champions"
    else ""
  }

  /** The highlighted rows are a prefix of the positions: if a position
      is highlighted, so is every better one. */
  lemma PositionStyleDownwardClosed(count: Option<int>, p: int, q: int)
    requires q <= p
    requires PositionStyle(count, p) == "qualification-champions"
    ensures PositionStyle(count, q) == "qualification-champions"
  {
  }

  /** The goal-difference cell: a `+` before a positive number. */
  function GoalDifferenceText(gd: int): (t: string)
    ensures |t| > 0
  {
    (if gd > 0 then "+" else "") + IntToString(gd)
  }

  /** The sign of the cell's first character is the sign of the goal
      difference. */
  lemma GoalDifferenceSign(gd: int)
    ensures GoalDifferenceText(gd)[0] == '+' <==> gd > 0
    ensures GoalDifferenceText(gd)[0] == '-' <==> gd < 0
    ensures gd == 0 ==> GoalDifferenceText(gd) == "0"
  {
    var digits := IntToString(gd);
    if gd >= 0 {
      assert IsDigit(digits[0]);
    }
  }

  /** The cell colour: victory for positive, defeat for negative. */
  function GoalDifferenceClass(gd: int): (c: string)
    ensures c == "text-brand-victory" <==> gd > 0
    ensures c == "text-brand-defeat" <==> gd < 0
    ensures c == "text-muted-foreground" <==> gd == 0
  {
    if gd > 0 then "text-brand-victory"
    else if gd < 0 then "text-brand-defeat"
    else "text-muted-foreground"
  }

  /** `form.slice(-5)`: the most recent five results at most. */
  function FormWindow(form: seq<FormResult>): (w: seq<FormResult>)
    ensures |w| == if |form| < 5 then |form| else 5
    ensures w == form[|form| - |w|..]
  {
    SliceFrom(form, -5)
  }

  /** Appending a result shifts the window by one: the newest result is
      shown last and, with five already shown, the oldest drops out. */
  lemma FormWindowAppend(form: seq<FormResult>, x: FormResult)
    ensures var w := FormWindow(form + [x]);
            w[|w| - 1] == x &&
            w[..|w| - 1] == (if |form| < 5 then FormWindow(form) else FormWindow(form)[1..])
  {
    var f := form + [x];
    var w := FormWindow(f);
    assert w == f[|f| - |w|..];
    if |form| < 5 {
      assert w[..|w| - 1] == form;
    } else {
      assert w[..|w| - 1] == form[|form| - 4..];
    }
  }
}

=== FILE: statistics_table.dfy ===
/** The statistics view of `StatisticsTable`: scorers by goals, the
    fair-play table (card totals per team) and the defence table (goals
    conceded per standing), and the highlighted top entry of the chosen
    category. */
module StatisticsTable {
  import opened Wrappers
  import opened Sorting
  import opened Domain

  // ---------------------------------------------------------------------
  // Scorers
  // ---------------------------------------------------------------------

  function MostGoalsFirst(p: PlayerStats): real {
    -(p.goals as real)
  }

  /** `scorersData`: the statistics by goals, most first. (The source
      sorts the array it was given in place; here the result is a new
      value.) */
  function ScorersData(stats: seq<PlayerStats>): (r: seq<PlayerStats>)
    ensures multiset(r) == multiset(stats) && |r| == |stats|
    ensures forall i, j :: 0 <= i < j < |r| ==> r[i].goals >= r[j].goals
  {
    var r := SortByKey(stats, MostGoalsFirst);
    assert forall i, j :: 0 <= i < j < |r| ==> MostGoalsFirst(r[i]) <= MostGoalsFirst(r[j]);
    r
  }

  // ---------------------------------------------------------------------
  // Fair play
  // ---------------------------------------------------------------------

  /** `members.reduce((sum, m) => sum + (m.count || 0), 0)` for one kind
      of card. */
  function CardSum(members: seq<Member>, count: Member -> Option<int>): int
    decreases |members|
  {
    if |members| == 0 then 0
    else CardSum(members[..|members| - 1], count) + count(members[|members| - 1]).GetOr(0)
  }

  /** The sum over a squad split in two is the sum of the two sums. */
  lemma {:induction false} CardSumAppend(a: seq<Member>, b: seq<Member>, count: Member -> Option<int>)
    ensures CardSum(a + b, count) == CardSum(a, count) + CardSum(b, count)
    decreases |b|
  {
    if |b| > 0 {
      var b' := b[..|b| - 1];
      assert (a + b)[..|a + b| - 1] == a + b';
      CardSumAppend(a, b', count);
    } else {
      assert a + b == a;
    }
  }

  /** With no negative counts recorded, no sum is negative. */
  lemma {:induction false} CardSumNonNegative(members: seq<Member>, count: Member -> Option<int>)
    requires forall m :: m in members ==> count(m).GetOr(0) >= 0
    ensures CardSum(members, count) >= 0
    decreases |members|
  {
    if |members| > 0 {
      CardSumNonNegative(members[..|members| - 1], count);
    }
  }

  function Yellow(m: Member): Option<int> { m.yellowCards }
  function Red(m: Member): Option<int> { m.redCards }
  function Blue(m: Member): Option<int> { m.blueCards }

  datatype TeamCardStats = TeamCardStats(
    teamId: string,
    teamName: string,
    team: Team,
    totalCards: int,
    yellowCards: int,
    redCards: int,
    blueCards: int)

  /** One fair-play row: the team's three card sums and their total; a
      team without members has all zeros. */
  function CardStats(team: Team): (r: TeamCardStats)
    ensures r.teamId == team.id && r.teamName == team.name && r.team == team
    ensures r.totalCards == r.yellowCards + r.redCards + r.blueCards
    ensures r.yellowCards == CardSum(team.members.GetOr([]), Yellow)
    ensures r.redCards == CardSum(team.members.GetOr([]), Red)
    ensures r.blueCards == CardSum(team.members.GetOr([]), Blue)
    ensures team.members.None? ==> r.totalCards == 0 && r.yellowCards == 0 && r.redCards == 0 && r.blueCards == 0
  {
    var ms := team.members.GetOr([]);
    var y, rd, b := CardSum(ms, Yellow), CardSum(ms, Red), CardSum(ms, Blue);
    TeamCardStats(team.id, team.name, team, y + rd + b, y, rd, b)
  }

  /** A team's total is the sum over its members of each member's own
      three counts. */
  function MemberCards(m: Member): Option<int> {
    Some(m.yellowCards.GetOr(0) + m.redCards.GetOr(0) + m.blueCards.GetOr(0))
  }

  lemma {:induction false} TotalIsPerMemberSum(members: seq<Member>)
    ensures CardSum(members, Yellow) + CardSum(members, Red) + CardSum(members, Blue) ==
            CardSum(members, MemberCards)
    decreases |members|
  {
    if |members| > 0 {
      TotalIsPerMemberSum(members[..|members| - 1]);
    }
  }

  function FewestCardsFirst(r: TeamCardStats): real {
    r.totalCards as real
  }

  function AllCardStats(teams: seq<Team>): (rows: seq<TeamCardStats>)
    ensures |rows| == |teams|
    ensures forall i :: 0 <= i < |teams| ==> rows[i] == CardStats(teams[i])
  {
    seq(|teams|, i requires 0 <= i < |teams| => CardStats(teams[i]))
  }

  /** `fairplayData`: one row per team, fewest cards first. */
  function FairplayData(teams: seq<Team>): (r: seq<TeamCardStats>)
    ensures multiset(r) == multiset(AllCardStats(teams)) && |r| == |teams|
    ensures forall i, j :: 0 <= i < j < |r| ==> r[i].totalCards <= r[j].totalCards
  {
    var r := SortByKey(AllCardStats(teams), FewestCardsFirst);
    assert forall i, j :: 0 <= i < j < |r| ==> FewestCardsFirst(r[i]) <= FewestCardsFirst(r[j]);
    r
  }

  /** Every team has its row in the fair-play table, and every row
      belongs to a team. */
  lemma FairplayRowsAreTeams(teams: seq<Team>, row: TeamCardStats, t: Team)
    ensures row in FairplayData(teams) ==> row.team in teams && row == CardStats(row.team)
    ensures t in teams ==> CardStats(t) in FairplayData(teams)
  {
    var rows := AllCardStats(teams);
    var r := FairplayData(teams);
    if row in r {
      assert row in multiset(rows);
      var i :| 0 <= i < |rows| && rows[i] == row;
    }
    if t in teams {
      var i :| 0 <= i < |teams| && teams[i] == t;
      assert rows[i] in multiset(r);
    }
  }

  // ---------------------------------------------------------------------
  // Defence
  // ---------------------------------------------------------------------

  datatype TeamDefenseStats = TeamDefenseStats(
    teamId: string,
    teamName: string,
    team: Option<Team>,
    goalsAgainst: int,
    cleanSheets: int,
    played: int)

  /** One defence row; the name falls back to `Equipo {teamId}`. Clean
      sheets are not computed and are always 0. */
  function DefenseStats(teams: seq<Team>, st: Standing): (r: TeamDefenseStats)
    ensures r.teamId == st.teamId && r.goalsAgainst == st.goalsAgainst && r.played == st.played
    ensures r.cleanSheets == 0
    ensures r.team == FindTeam(teams, st.teamId)
    ensures r.team.Some? && r.team.value.name != [] ==> r.teamName == r.team.value.name
    ensures r.team.None? || r.team.value.name == [] ==> r.teamName == "Equipo " + st.teamId
  {
    var team := FindTeam(teams, st.teamId);
    var name := if team.Some? && team.value.name != [] then team.value.name else "Equipo " + st.teamId;
    TeamDefenseStats(st.teamId, name, team, st.goalsAgainst, 0, st.played)
  }

  function AllDefenseStats(teams: seq<Team>, standings: seq<Standing>): (rows: seq<TeamDefenseStats>)
    ensures |rows| == |standings|
    ensures forall i :: 0 <= i < |standings| ==> rows[i] == DefenseStats(teams, standings[i])
  {
    seq(|standings|, i requires 0 <= i < |standings| => DefenseStats(teams, standings[i]))
  }

  function FewestConcededFirst(r: TeamDefenseStats): real {
    r.goalsAgainst as real
  }

  /** `defenseData`: one row per standing, fewest goals conceded first. */
  function DefenseData(teams: seq<Team>, standings: seq<Standing>): (r: seq<TeamDefenseStats>)
    ensures multiset(r) == multiset(AllDefenseStats(teams, standings)) && |r| == |standings|
    ensures forall i, j :: 0 <= i < j < |r| ==> r[i].goalsAgainst <= r[j].goalsAgainst
  {
    var r := SortByKey(AllDefenseStats(teams, standings), FewestConcededFirst);
    assert forall i, j :: 0 <= i < j < |r| ==> FewestConcededFirst(r[i]) <= FewestConcededFirst(r[j]);
    r
  }

  /** Every row of the defence table comes from a standing with the same
      goals conceded, and has no clean sheets. */
  lemma DefenseRowsAreStandings(teams: seq<Team>, standings: seq<Standing>, row: TeamDefenseStats)
    requires row in DefenseData(teams, standings)
    ensures exists st :: st in standings && row == DefenseStats(teams, st)
    ensures row.cleanSheets == 0
  {
    var rows := AllDefenseStats(teams, standings);
    assert row in multiset(rows);
    var i :| 0 <= i < |rows| && rows[i] == row;
    assert standings[i] in standings;
  }

  // ---------------------------------------------------------------------
  // Top entry
  // ---------------------------------------------------------------------

  datatype Category = Scorers | Fairplay | Defense

  /** `getCategoryTitle` */
  function CategoryTitle(c: Category): string {
    match c
    case Scorers => "Máximo Goleador"
    case Fairplay => "Fair Play"
    case Defense => "Valla Menos Vencida"
  }

  /** Each category has its own title. */
  lemma CategoryTitlesDistinct(a: Category, b: Category)
    ensures CategoryTitle(a) == CategoryTitle(b) <==> a == b
  {
  }

  /** `getPositionName` */
  function PositionName(p: PlayerPosition): string {
    match p
    case GK => "Portero"
    case DEF => "Defensor"
    case MID => "Mediocampista"
    case FWD => "Delantero"
  }

  lemma PositionNamesDistinct(a: PlayerPosition, b: PlayerPosition)
    ensures PositionName(a) == PositionName(b) <==> a == b
  {
  }

  datatype Entry =
    | ScorerEntry(stats: PlayerStats)
    | FairplayEntry(cards: TeamCardStats)
    | DefenseEntry(defense: TeamDefenseStats)

  /** `topEntry`: the first row of the chosen category's list; absent
      (and the highlight hidden) when that list is empty. */
  function TopEntry(c: Category, stats: seq<PlayerStats>, teams: seq<Team>, standings: seq<Standing>): (e: Option<Entry>)
    ensures c == Scorers ==> (e.Some? <==> |stats| > 0)
    ensures c == Fairplay ==> (e.Some? <==> |teams| > 0)
    ensures c == Defense ==> (e.Some? <==> |standings| > 0)
    ensures e.Some? && c == Scorers ==> e.value == ScorerEntry(ScorersData(stats)[0])
    ensures e.Some? && c == Fairplay ==> e.value == FairplayEntry(FairplayData(teams)[0])
    ensures e.Some? && c == Defense ==> e.value == DefenseEntry(DefenseData(teams, standings)[0])
  {
    match c
    case Scorers =>
      var r := ScorersData(stats);
      if |r| == 0 then None else Some(ScorerEntry(r[0]))
    case Fairplay =>
      var r := FairplayData(teams);
      if |r| == 0 then None else Some(FairplayEntry(r[0]))
    case Defense =>
      var r := DefenseData(teams, standings);
      if |r| == 0 then None else Some(DefenseEntry(r[0]))
  }

  /** The highlighted scorer has the most goals of all statistics. */
  lemma TopScorerHasMostGoals(stats: seq<PlayerStats>, teams: seq<Team>, standings: seq<Standing>, p: PlayerStats)
    requires p in stats
    ensures var e := TopEntry(Scorers, stats, teams, standings);
            e.Some? && e.value.stats.goals >= p.goals
  {
    var r := ScorersData(stats);
    assert p in multiset(r);
    var i :| 0 <= i < |r| && r[i] == p;
  }

  /** The highlighted fair-play team has no more cards than any team. */
  lemma TopFairplayHasFewestCards(stats: seq<PlayerStats>, teams: seq<Team>, standings: seq<Standing>, t: Team)
    requires t in teams
    ensures var e := TopEntry(Fairplay, stats, teams, standings);
            e.Some? && e.value.cards.totalCards <= CardStats(t).totalCards
  {
    FairplayRowsAreTeams(teams, CardStats(t), t);
    var r := FairplayData(teams);
    var i :| 0 <= i < |r| && r[i] == CardStats(t);
  }

  /** The highlighted defence has conceded no more than any standing. */
  lemma TopDefenseConcededLeast(stats: seq<PlayerStats>, teams: seq<Team>, standings: seq<Standing>, st: Standing)
    requires st in standings
    ensures var e := TopEntry(Defense, stats, teams, standings);
            e.Some? && e.value.defense.goalsAgainst <= st.goalsAgainst
  {
    var rows := AllDefenseStats(teams, standings);
    var r := DefenseData(teams, standings);
    var k :| 0 <= k < |standings| && standings[k] == st;
    assert rows[k] in multiset(r);
    var i :| 0 <= i < |r| && r[i] == rows[k];
  }
}

=== FILE: team_avatar.dfy ===
/** `TeamAvatar`: the initials shown when a team has no logo, and which
    of the props supplies the name, the id and the background colour.
    Upper-casing is a per-character map `upper`. */
module TeamAvatar {
  import opened Wrappers
  import opened Text
  import opened Domain

  /** The `teamId` prop is a string or a number. */
  datatype AvatarId = IdText(text: string) | IdNumber(number: int)

  /** JavaScript truthiness of an id: a non-empty string or a non-zero
      number. */
  predicate IdTruthy(id: Option<AvatarId>) {
    match id
    case None => false
    case Some(IdText(t)) => t != []
    case Some(IdNumber(n)) => n != 0
  }

  /** `String(teamId)` */
  function IdString(id: AvatarId): (s: string) {
    match id
    case IdText(t) => t
    case IdNumber(n) => IntToString(n)
  }

  /** The name branch is taken for a present name with a non-blank trim. */
  predicate NameUsable(name: Option<string>) {
    name.Some? && name.value != [] && |Trim(name.value)| > 0
  }

  /** `(p[0] || '')`: the first character as a string, or nothing. */
  function FirstCharOf(p: string): (r: string)
    ensures |r| <= 1
    ensures |r| == 1 <==> |p| > 0
    ensures |r| == 1 ==> r[0] == p[0]
  {
    if |p| > 0 then [p[0]] else ""
  }

  /** `getTeamInitials` */
  function TeamInitials(name: Option<string>, id: Option<AvatarId>, upper: char -> char): (ini: string)
    ensures NameUsable(name) ==> 1 <= |ini| <= 2 && ini[0] == upper(Trim(name.value)[0])
    ensures !NameUsable(name) && IdTruthy(id) ==>
              |IdString(id.value)| > 0 && |ini| == 2 && ini[0] == 'T' &&
              ini[1] == IdString(id.value)[|IdString(id.value)| - 1]
    ensures !NameUsable(name) && !IdTruthy(id) ==> ini == "T?"
  {
    if NameUsable(name) then
      var t := Trim(name.value);
      var parts := Split(t, ' ');
      SplitFirstPart(t, ' ');
      MapChars(FirstCharOf(parts[0]) + (if |parts| >= 2 then FirstCharOf(parts[1]) else ""), upper)
    else if IdTruthy(id) then
      var s := IdString(id.value);
      assert |s| > 0;
      "T" + SliceFrom(s, -1)
    else
      "T?"
  }

  /** The second initial, stated on the trimmed name: with no space there
      is one initial; otherwise there is a second one exactly when the
      character after the first space is present and not itself a space,
      and it is that character, upper-cased. */
  lemma {:induction false} SecondInitial(name: string, id: Option<AvatarId>, upper: char -> char)
    requires NameUsable(Some(name))
    ensures ' ' !in Trim(name) ==> |TeamInitials(Some(name), id, upper)| == 1
    ensures forall k :: 0 <= k < |Trim(name)| && Trim(name)[k] == ' ' && ' ' !in Trim(name)[..k] ==>
              var ini := TeamInitials(Some(name), id, upper);
              (|ini| == 2 <==> k + 1 < |Trim(name)| && Trim(name)[k + 1] != ' ') &&
              (|ini| == 2 ==> ini[1] == upper(Trim(name)[k + 1]))
  {
    var t := Trim(name);
    var ini := TeamInitials(Some(name), id, upper);
    if ' ' !in t {
      SplitNoSeparator(t, ' ');
    }
    forall k | 0 <= k < |t| && t[k] == ' ' && ' ' !in t[..k]
      ensures (|ini| == 2 <==> k + 1 < |t| && t[k + 1] != ' ') && (|ini| == 2 ==> ini[1] == upper(t[k + 1]))
    {
      SplitAtFirst(t, ' ', k);
      var rest := t[k + 1..];
      SplitFirstPart(rest, ' ');
      SplitFirstPart(t, ' ');
      assert |rest| > 0 ==> rest[0] == t[k + 1];
    }
  }

  /** The initials and colour the avatar draws, with the names it took. */
  datatype AvatarView = AvatarView(name: Option<string>, id: Option<AvatarId>, initials: string, color: string)

  /** `team?.name || teamName`, `team?.id || teamId`,
      `team?.colors?.primary || '#666'`. */
  function Avatar(team: Option<Team>, teamName: Option<string>, teamId: Option<AvatarId>, upper: char -> char)
    : (v: AvatarView)
    ensures v.initials == TeamInitials(v.name, v.id, upper)
    ensures team.Some? && team.value.name != [] ==> v.name == Some(team.value.name)
    ensures (team.None? || team.value.name == []) ==> v.name == teamName
    ensures team.Some? && team.value.id != [] ==> v.id == Some(IdText(team.value.id))
    ensures (team.None? || team.value.id == []) ==> v.id == teamId
    ensures v.color == "#666" <==> team.None? || team.value.colors.primary in {"", "#666"}
    ensures v.color != "#666" ==> team.Some? && v.color == team.value.colors.primary
  {
    var name := if team.Some? && team.value.name != [] then Some(team.value.name) else teamName;
    var id := if team.Some? && team.value.id != [] then Some(IdText(team.value.id)) else teamId;
    var color := if team.Some? && team.value.colors.primary != [] then team.value.colors.primary else "#666";
    AvatarView(name, id, TeamInitials(name, id, upper), color)
  }

  /** A team with a name decides the initials whatever the loose props
      say. */
  lemma TeamNameWins(team: Team, teamName: Option<string>, teamId: Option<AvatarId>, upper: char -> char)
    requires NameUsable(Some(team.name))
    ensures Avatar(Some(team), teamName, teamId, upper).initials ==
            Avatar(Some(team), None, None, upper).initials
  {
  }
}

=== FILE: team_members.dfy ===
/** `TeamMembersModal`: the open guard, the member count in the header,
    the age of a member, and the shirt-number badge. Today's date is a
    parameter. */
module TeamMembers {
  import opened Wrappers
  import opened Text
  import opened Domain

  /** The modal draws nothing unless it is open and has a team. */
  function Renders(isOpen: bool, team: Option<Team>): (shown: bool)
    ensures shown ==> team.Some?
    ensures !isOpen ==> !shown
    ensures isOpen && team.Some? ==> shown
  {
    isOpen && team.Some?
  }

  // ---------------------------------------------------------------------
  // Age
  // ---------------------------------------------------------------------

  /** `(a.month, a.day)` comes strictly before `(b.month, b.day)`. */
  predicate DayOfYearBefore(a: CalendarDate, b: CalendarDate) {
    a.month < b.month || (a.month == b.month && a.day < b.day)
  }

  /** `calculateAge`: the difference of the years, one less when this
      year's birthday is still to come. */
  function CalculateAge(today: CalendarDate, birth: CalendarDate): (age: int)
    ensures age == today.year - birth.year || age == today.year - birth.year - 1
  {
    var age := today.year - birth.year;
    var monthDiff := today.month - birth.month;
    if monthDiff < 0 || (monthDiff == 0 && today.day < birth.day) then age - 1 else age
  }

  /** Calendar order on dates: year, then month, then day. */
  predicate OnOrBefore(a: CalendarDate, b: CalendarDate) {
    a.year < b.year || (a.year == b.year && !DayOfYearBefore(b, a))
  }

  /** The `n`-th birthday (on the birth month and day, `n` years on). */
  function Anniversary(birth: CalendarDate, n: int): CalendarDate {
    CalendarDate(birth.year + n, birth.month, birth.day)
  }

  /** The age is the number of birthdays reached: the `age`-th birthday
      is on or before today and the next one is after it. */
  lemma AgeCountsBirthdays(today: CalendarDate, birth: CalendarDate)
    ensures OnOrBefore(Anniversary(birth, CalculateAge(today, birth)), today)
    ensures !OnOrBefore(Anniversary(birth, CalculateAge(today, birth) + 1), today)
  {
  }

  /** On the birthday itself the age is the difference of the years. */
  lemma AgeOnBirthday(today: CalendarDate, birth: CalendarDate)
    requires today.month == birth.month && today.day == birth.day
    ensures CalculateAge(today, birth) == today.year - birth.year
  {
  }

  /** A year later, on the same calendar day, the age is one more. */
  lemma AgeGrowsYearly(today: CalendarDate, birth: CalendarDate)
    ensures CalculateAge(CalendarDate(today.year + 1, today.month, today.day), birth) == CalculateAge(today, birth) + 1
  {
  }

  /** The age line: the age in years, or "not available" without a date
      of birth. */
  function AgeText(today: CalendarDate, member: Member): (t: string)
    ensures member.dateOfBirth.None? <==> t == "Edad no disponible"
    ensures member.dateOfBirth.Some? ==> t == IntToString(CalculateAge(today, member.dateOfBirth.value)) + " años"
  {
    match member.dateOfBirth
    case None => "Edad no disponible"
    case Some(d) =>
      var digits := IntToString(CalculateAge(today, d));
      assert digits[0] != 'E' by {
        assert digits[0] == '-' || IsDigit(digits[0]);
      }
      assert (digits + " años")[0] == digits[0];
      digits + " años"
  }

  // ---------------------------------------------------------------------
  // Header count and badges
  // ---------------------------------------------------------------------

  /** `team.membersCount || team.members?.length || 0`: a zero count
      falls through to the list length, and an empty list to 0. */
  function MemberCount(team: Team): (n: int)
    ensures team.membersCount.Some? && team.membersCount.value != 0 ==> n == team.membersCount.value
    ensures (team.membersCount.None? || team.membersCount.value == 0) && team.members.Some? ==>
              n == |team.members.value|
    ensures (team.membersCount.None? || team.membersCount.value == 0) && team.members.None? ==> n == 0
  {
    if team.membersCount.Some? && team.membersCount.value != 0 then team.membersCount.value
    else if team.members.Some? && |team.members.value| != 0 then |team.members.value|
    else 0
  }

  /** The count shown is never negative unless the configured count is. */
  lemma MemberCountNonNegative(team: Team)
    requires team.membersCount.None? || team.membersCount.value >= 0
    ensures MemberCount(team) >= 0
  {
  }

  /** The members grid is drawn for a non-empty list; otherwise the
      "no members" message is. */
  function ShowsMembers(team: Team): (grid: bool)
    ensures grid <==> team.members.Some? && |team.members.value| > 0
  {
    team.members.Some? && |team.members.value| > 0
  }

  /** `member.tshirtNumber || '?'`: a missing or zero number shows `?`. */
  function ShirtLabel(member: Member): (t: string)
    ensures t == "?" <==> member.tshirtNumber.None? || member.tshirtNumber.value == 0
    ensures t != "?" ==> t == IntToString(member.tshirtNumber.value)
  {
    if member.tshirtNumber.Some? && member.tshirtNumber.value != 0 then
      var digits := IntToString(member.tshirtNumber.value);
      assert digits[0] == '-' || IsDigit(digits[0]);
      digits
    else "?"
  }
}

=== FILE: teams_grid.dfy ===
/** `TeamsGrid`: the search over team names, short names and cities, the
    name order, the "shown of total" count, and the members modal state.
    Lower-casing is a per-character map `lower`; `localeCompare` is a
    collation rank `rank`. */
module TeamsGrid {
  import opened Wrappers
  import opened Text
  import opened Sorting
  import opened Domain

  /** The search predicate: the lower-cased query occurs in the
      lower-cased name, short name or (when there is one) city. */
  predicate Matches(team: Team, query: string, lower: char -> char) {
    || Contains(MapChars(team.name, lower), MapChars(query, lower))
    || Contains(MapChars(team.shortName, lower), MapChars(query, lower))
    || (team.city.Some? && Contains(MapChars(team.city.value, lower), MapChars(query, lower)))
  }

  /** The sort field is fixed at `name`, so the comparator is
      `a.name.localeCompare(b.name)`. */
  function NameKey(rank: string -> int): Team -> real {
    (t: Team) => rank(t.name) as real
  }

  /** `filteredAndSortedTeams` */
  function FilteredAndSorted(teams: seq<Team>, query: string, lower: char -> char, rank: string -> int)
    : (r: seq<Team>)
    ensures |r| <= |teams|
    ensures multiset(r) == multiset(Filter(teams, t => Matches(t, query, lower)))
    ensures forall i, j :: 0 <= i < j < |r| ==> rank(r[i].name) <= rank(r[j].name)
  {
    var r := SortByKey(Filter(teams, t => Matches(t, query, lower)), NameKey(rank));
    assert forall i, j :: 0 <= i < j < |r| ==> NameKey(rank)(r[i]) <= NameKey(rank)(r[j]);
    r
  }

  /** A team is shown exactly when it is one of the teams and matches the
      query in its name, short name or city. */
  lemma ShownIff(teams: seq<Team>, query: string, lower: char -> char, rank: string -> int, team: Team)
    ensures team in FilteredAndSorted(teams, query, lower, rank) <==>
            team in teams &&
            (|| Contains(MapChars(team.name, lower), MapChars(query, lower))
             || Contains(MapChars(team.shortName, lower), MapChars(query, lower))
             || (team.city.Some? && Contains(MapChars(team.city.value, lower), MapChars(query, lower))))
  {
    var f := Filter(teams, t => Matches(t, query, lower));
    assert team in FilteredAndSorted(teams, query, lower, rank) <==> team in multiset(f);
    if team in f {
      var i :| 0 <= i < |f| && f[i] == team;
    }
    if team in teams && Matches(team, query, lower) {
      var i :| 0 <= i < |teams| && teams[i] == team;
    }
  }

  /** An empty search shows every team. */
  lemma EmptyQueryShowsAll(teams: seq<Team>, lower: char -> char, rank: string -> int)
    ensures multiset(FilteredAndSorted(teams, "", lower, rank)) == multiset(teams)
  {
    forall t: Team | t in teams
      ensures Matches(t, "", lower)
    {
      assert MapChars("", lower) == "";
      ContainsEmpty(MapChars(t.name, lower));
    }
    FilterAll(teams, t => Matches(t, "", lower));
  }

  /** "Mostrando {shown} de {total} equipos" */
  function ShownCount(teams: seq<Team>, query: string, lower: char -> char, rank: string -> int)
    : (counts: (nat, nat))
    ensures counts.1 == |teams|
    ensures counts.0 <= counts.1
    ensures counts.0 == |Filter(teams, t => Matches(t, query, lower))|
  {
    (|FilteredAndSorted(teams, query, lower, rank)|, |teams|)
  }

  // ---------------------------------------------------------------------
  // The members modal
  // ---------------------------------------------------------------------

  datatype ModalState = ModalState(selected: Option<Team>, open: bool)

  const ClosedModal: ModalState := ModalState(None, false)

  /** `openTeamModal` */
  function OpenTeamModal(s: ModalState, team: Team): (r: ModalState)
    ensures r.open && r.selected == Some(team)
  {
    ModalState(Some(team), true)
  }

  /** `closeTeamModal` */
  function CloseTeamModal(s: ModalState): (r: ModalState)
    ensures !r.open && r.selected.None?
  {
    ClosedModal
  }

  /** The modal is open exactly when a team is selected, in every state
      the two handlers can reach from the closed start. */
  predicate Consistent(s: ModalState) {
    s.open <==> s.selected.Some?
  }

  lemma HandlersKeepConsistent(s: ModalState, team: Team)
    requires Consistent(s)
    ensures Consistent(OpenTeamModal(s, team)) && Consistent(CloseTeamModal(s))
    ensures CloseTeamModal(OpenTeamModal(s, team)) == ClosedModal
  {
  }
}

=== FILE: text.dfy ===
/** String helpers with the semantics of the JavaScript built-ins the
    front end calls: `startsWith`, `includes`, `split`, `trim`, `slice`
    and the decimal rendering of integers (`String(n)` / `toString()`). */
module Text {

  // ---------------------------------------------------------------------
  // Prefixes and substrings
  // ---------------------------------------------------------------------

  /** `s.startsWith(p)` */
  predicate StartsWith(s: string, p: string) {
    |p| <= |s| && s[..|p|] == p
  }

  /** `t` occurs in `s` at offset `i`. */
  ghost predicate OccursAt(s: string, t: string, i: int) {
    0 <= i && i + |t| <= |s| && s[i..i + |t|] == t
  }

  /** `s.includes(t)`: try every start offset from the left. */
  predicate Contains(s: string, t: string)
    decreases |s|
  {
    StartsWith(s, t) || (|s| > 0 && Contains(s[1..], t))
  }

  /** The scan finds `t` exactly when `t` occurs somewhere in `s`. */
  lemma {:induction false} ContainsIff(s: string, t: string)
    ensures Contains(s, t) <==> exists i :: OccursAt(s, t, i)
    decreases |s|
  {
    if StartsWith(s, t) {
      assert OccursAt(s, t, 0);
    } else if |s| > 0 {
      ContainsIff(s[1..], t);
      if Contains(s[1..], t) {
        var i :| OccursAt(s[1..], t, i);
        assert s[1..][i..i + |t|] == s[i + 1..i + 1 + |t|];
        assert OccursAt(s, t, i + 1);
      } else {
        forall i | 0 < i && OccursAt(s, t, i)
          ensures OccursAt(s[1..], t, i - 1)
        {
          assert s[1..][i - 1..i - 1 + |t|] == s[i..i + |t|];
        }
        assert !OccursAt(s, t, 0);
      }
    }
  }

  /** Every string contains the empty string (`s.includes('') === true`). */
  lemma ContainsEmpty(s: string)
    ensures Contains(s, "")
  {
    assert StartsWith(s, "");
  }

  /** A string contains itself. */
  lemma ContainsSelf(s: string)
    ensures Contains(s, s)
  {
    assert StartsWith(s, s);
  }

  /** A string whose first character does not occur in `s` is not a
      substring of `s`. */
  lemma NotContainedByFirstChar(s: string, t: string)
    requires |t| > 0 && t[0] !in s
    ensures !Contains(s, t)
  {
    ContainsIff(s, t);
    forall i | 0 <= i && i + |t| <= |s| ensures !OccursAt(s, t, i) {
      assert s[i..i + |t|][0] == s[i] && s[i] in s;
    }
  }

  /** An occurrence at a known offset is found. */
  lemma ContainsAt(s: string, t: string, i: nat)
    requires i + |t| <= |s| && s[i..i + |t|] == t
    ensures Contains(s, t)
  {
    ContainsIff(s, t);
    assert OccursAt(s, t, i);
  }

  // ---------------------------------------------------------------------
  // split / join on a one-character separator
  // ---------------------------------------------------------------------

  /** `s.split(sep)` for a one-character separator: always at least one
      part (`''.split(' ')` is `['']`), and empty parts where separators
      are adjacent. */
  function Split(s: string, sep: char): (parts: seq<string>)
    ensures |parts| >= 1
    ensures forall i :: 0 <= i < |parts| ==> sep !in parts[i]
    decreases |s|
  {
    if |s| == 0 then [""]
    else
      var rest := Split(s[1..], sep);
      if s[0] == sep then [""] + rest
      else [[s[0]] + rest[0]] + rest[1..]
  }

  /** `parts.join(sep)` */
  function Join(parts: seq<string>, sep: char): string
    decreases |parts|
  {
    if |parts| == 0 then ""
    else if |parts| == 1 then parts[0]
    else parts[0] + [sep] + Join(parts[1..], sep)
  }

  /** Joining the parts of a split gives the original string back. */
  lemma {:induction false} JoinSplit(s: string, sep: char)
    ensures Join(Split(s, sep), sep) == s
    decreases |s|
  {
    if |s| > 0 {
      JoinSplit(s[1..], sep);
      var rest := Split(s[1..], sep);
      if s[0] == sep {
        assert ([""] + rest)[1..] == rest;
        assert s == [sep] + s[1..];
      } else {
        var parts := [[s[0]] + rest[0]] + rest[1..];
        assert Split(s, sep) == parts;
        if |rest| == 1 {
          assert s == [s[0]] + s[1..];
        } else {
          assert parts[1..] == rest[1..];
          assert Join(rest, sep) == rest[0] + [sep] + Join(rest[1..], sep);
          assert s == [s[0]] + s[1..];
        }
      }
    }
  }

  /** Splitting `w + t` where `w` has no separator glues `w` onto the
      first part of `t`. */
  lemma {:induction false} SplitPrefix(w: string, t: string, sep: char)
    requires sep !in w
    ensures Split(w + t, sep) == [w + Split(t, sep)[0]] + Split(t, sep)[1..]
    decreases |w|
  {
    if |w| > 0 {
      assert (w + t)[1..] == w[1..] + t;
      assert w[0] in w;
      SplitPrefix(w[1..], t, sep);
      assert [w[0]] + (w[1..] + Split(t, sep)[0]) == w + Split(t, sep)[0];
    } else {
      var p := Split(t, sep);
      assert w + t == t;
      assert w + p[0] == p[0];
      assert p == [p[0]] + p[1..];
    }
  }

  /** Splitting a join of separator-free parts gives the parts back. */
  lemma {:induction false} SplitJoin(parts: seq<string>, sep: char)
    requires |parts| >= 1
    requires forall i :: 0 <= i < |parts| ==> sep !in parts[i]
    ensures Split(Join(parts, sep), sep) == parts
    decreases |parts|
  {
    if |parts| == 1 {
      SplitPrefix(parts[0], "", sep);
      assert parts[0] + "" == parts[0];
    } else {
      var rest := parts[1..];
      SplitJoin(rest, sep);
      var tail := Join(rest, sep);
      assert Join(parts, sep) == parts[0] + ([sep] + tail);
      SplitPrefix(parts[0], [sep] + tail, sep);
      assert ([sep] + tail)[1..] == tail;
      assert Split([sep] + tail, sep) == [""] + rest;
      assert parts[0] + "" == parts[0];
    }
  }

  /** The first part of a split is empty exactly when the string is
      empty or starts with the separator; otherwise it starts with the
      string's first character. */
  lemma SplitFirstPart(s: string, sep: char)
    ensures |Split(s, sep)[0]| > 0 <==> |s| > 0 && s[0] != sep
    ensures |s| > 0 && s[0] != sep ==> Split(s, sep)[0][0] == s[0]
  {
  }

  /** A string without the separator splits into itself alone. */
  lemma SplitNoSeparator(s: string, sep: char)
    requires sep !in s
    ensures Split(s, sep) == [s]
  {
    SplitPrefix(s, "", sep);
    assert s + "" == s;
  }

  /** Splitting at the first separator: the part before it, then the
      split of what follows it. */
  lemma SplitAtFirst(s: string, sep: char, k: nat)
    requires k < |s| && s[k] == sep && sep !in s[..k]
    ensures Split(s, sep) == [s[..k]] + Split(s[k + 1..], sep)
  {
    var t := s[k..];
    assert s == s[..k] + t;
    SplitPrefix(s[..k], t, sep);
    assert t[1..] == s[k + 1..];
    assert Split(t, sep) == [""] + Split(s[k + 1..], sep);
    assert s[..k] + "" == s[..k];
  }

  // ---------------------------------------------------------------------
  // trim
  // ---------------------------------------------------------------------

  /** The characters `String.prototype.trim` removes and `\s` matches:
      ECMAScript WhiteSpace (including every Unicode Zs character) and
      LineTerminator. */
  predicate IsWhiteSpace(c: char) {
    || c == ' ' || c == '\t' || c == '\n' || c == '\r'
    || c == '\U{000B}' || c == '\U{000C}' || c == '\U{00A0}' || c == '\U{FEFF}'
    || c == '\U{2028}' || c == '\U{2029}' || c == '\U{1680}'
    || ('\U{2000}' <= c <= '\U{200A}')
    || c == '\U{202F}' || c == '\U{205F}' || c == '\U{3000}'
  }

  /** First index at or after `i` that is not white space. */
  function SkipWhiteSpace(s: string, i: nat): (j: nat)
    requires i <= |s|
    ensures i <= j <= |s|
    ensures forall k :: i <= k < j ==> IsWhiteSpace(s[k])
    ensures j < |s| ==> !IsWhiteSpace(s[j])
    decreases |s| - i
  {
    if i < |s| && IsWhiteSpace(s[i]) then SkipWhiteSpace(s, i + 1) else i
  }

  /** Index one past the last non-white-space character at or after `lo`. */
  function TrimmedEnd(s: string, lo: nat, j: nat): (e: nat)
    requires lo <= j <= |s|
    ensures lo <= e <= j
    ensures forall k :: e <= k < j ==> IsWhiteSpace(s[k])
    ensures e > lo ==> !IsWhiteSpace(s[e - 1])
    decreases j
  {
    if j > lo && IsWhiteSpace(s[j - 1]) then TrimmedEnd(s, lo, j - 1) else j
  }

  /** `s.trim()` */
  function Trim(s: string): (r: string)
    ensures |r| <= |s|
    ensures |r| == 0 <==> forall k :: 0 <= k < |s| ==> IsWhiteSpace(s[k])
    ensures |r| > 0 ==> !IsWhiteSpace(r[0]) && !IsWhiteSpace(r[|r| - 1])
    ensures exists a :: OccursAt(s, r, a)
  {
    var a := SkipWhiteSpace(s, 0);
    var b := TrimmedEnd(s, a, |s|);
    assert OccursAt(s, s[a..b], a);
    assert a < |s| ==> b > a;
    s[a..b]
  }

  // ---------------------------------------------------------------------
  // Per-character case mapping
  // ---------------------------------------------------------------------

  /** `toLowerCase` / `toUpperCase` abstracted as a per-character map. */
  function MapChars(s: string, f: char -> char): (r: string)
    ensures |r| == |s|
    ensures forall i :: 0 <= i < |s| ==> r[i] == f(s[i])
  {
    seq(|s|, i requires 0 <= i < |s| => f(s[i]))
  }

  // ---------------------------------------------------------------------
  // Decimal numbers
  // ---------------------------------------------------------------------

  predicate IsDigit(c: char) {
    '0' <= c <= '9'
  }

  predicate AllDigits(s: string) {
    forall i :: 0 <= i < |s| ==> IsDigit(s[i])
  }

  function DigitValue(c: char): (d: nat)
    requires IsDigit(c)
    ensures d < 10
  {
    (c as int) - ('0' as int)
  }

  function DigitChar(d: nat): (c: char)
    requires d < 10
    ensures IsDigit(c) && DigitValue(c) == d
  {
    ('0' as int + d) as char
  }

  /** Value of a run of decimal digits, most significant first. */
  function DigitsValue(s: string): nat
    requires AllDigits(s)
    decreases |s|
  {
    if |s| == 0 then 0
    else DigitsValue(s[..|s| - 1]) * 10 + DigitValue(s[|s| - 1])
  }

  /** Decimal rendering of a natural number, no leading zeros. */
  function NatToString(n: nat): (s: string)
    ensures |s| >= 1 && AllDigits(s)
    ensures s[|s| - 1] == DigitChar(n % 10)
    ensures n >= 10 ==> s[0] != '0'
    decreases n
  {
    if n < 10 then [DigitChar(n)]
    else NatToString(n / 10) + [DigitChar(n % 10)]
  }

  /** Parsing the rendering of `n` gives `n` back. */
  lemma {:induction false} NatToStringRoundTrip(n: nat)
    ensures DigitsValue(NatToString(n)) == n
    decreases n
  {
    if n >= 10 {
      NatToStringRoundTrip(n / 10);
      var s := NatToString(n);
      assert s[..|s| - 1] == NatToString(n / 10);
    }
  }

  /** `String(n)` / `n.toString()` for an integer. */
  function IntToString(n: int): (s: string)
    ensures |s| >= 1
    ensures n >= 0 ==> AllDigits(s)
    ensures n < 0 ==> s[0] == '-' && AllDigits(s[1..])
  {
    if n < 0 then "-" + NatToString(-n) else NatToString(n)
  }

  /** Distinct integers render to distinct strings, so stringified ids
      stay distinct. */
  lemma IntToStringInjective(a: int, b: int)
    requires IntToString(a) == IntToString(b)
    ensures a == b
  {
    var s := IntToString(a);
    assert (a < 0) == (s[0] == '-');
    assert (b < 0) == (IntToString(b)[0] == '-');
    if a >= 0 {
      assert NatToString(a) == NatToString(b);
      NatToStringRoundTrip(a);
      NatToStringRoundTrip(b);
    } else {
      var na: nat, nb: nat := -a, -b;
      assert s == "-" + NatToString(na) == "-" + NatToString(nb);
      assert NatToString(na) == s[1..] == NatToString(nb);
      NatToStringRoundTrip(na);
      NatToStringRoundTrip(nb);
    }
  }

  // ---------------------------------------------------------------------
  // Array.prototype.slice / String.prototype.slice
  // ---------------------------------------------------------------------

  /** How `slice` interprets an index: negative counts from the end,
      everything is clamped into `[0, len]`. */
  function ClampIndex(i: int, len: nat): (r: nat)
    ensures r <= len
    ensures 0 <= i <= len ==> r == i
    ensures i > len ==> r == len
    ensures i < 0 && len + i >= 0 ==> r == len + i
    ensures i < 0 && len + i < 0 ==> r == 0
  {
    if i < 0 then (if len + i < 0 then 0 else len + i)
    else if i > len then len
    else i
  }

  /** `s.slice(start, end)` */
  function Slice<T>(s: seq<T>, start: int, end: int): (r: seq<T>)
    ensures |r| <= |s|
    ensures ClampIndex(start, |s|) <= ClampIndex(end, |s|) ==>
              r == s[ClampIndex(start, |s|)..ClampIndex(end, |s|)]
    ensures ClampIndex(start, |s|) > ClampIndex(end, |s|) ==> r == []
  {
    var a := ClampIndex(start, |s|);
    var b := ClampIndex(end, |s|);
    if a <= b then s[a..b] else []
  }

  /** `s.slice(start)` */
  function SliceFrom<T>(s: seq<T>, start: int): (r: seq<T>)
    ensures r == s[ClampIndex(start, |s|)..]
  {
    Slice(s, start, |s|)
  }
}

=== FILE: tournament_card.dfy ===
/** `TournamentCard`: the status badge, the format label, the matchday
    progress and the card's link. */
module TournamentCard {
  import opened Wrappers
  import opened Text
  import opened Domain
  import BottomNav

  /** `getStatusText` */
  function StatusText(status: TournamentStatus): (t: string)
    ensures |t| > 0
    ensures status == Active <==> t == "En curso"
    ensures status == Completed <==> t == "Finalizado"
    ensures status == Upcoming <==> t == "Próximamente"
  {
    match status
    case Active => "En curso"
    case Completed => "Finalizado"
    case Upcoming => "Próximamente"
  }

  /** Different statuses get different badges. */
  lemma StatusTextInjective(a: TournamentStatus, b: TournamentStatus)
    requires StatusText(a) == StatusText(b)
    ensures a == b
  {
  }

  /** The format line: league and knockout by name, anything else as
      groups plus knockout. */
  function FormatLabel(format: TournamentFormat): (t: string)
    ensures format == League <==> t == "Liga"
    ensures format == Knockout <==> t == "Eliminación"
    ensures format == GroupKnockout <==> t == "Grupos + Eliminación"
  {
    match format
    case League => "Liga"
    case Knockout => "Eliminación"
    case GroupKnockout => "Grupos + Eliminación"
  }

  /** `currentMatchday && totalMatchdays`: both present and non-zero. */
  predicate ShowsProgress(t: Tournament) {
    t.currentMatchday.Some? && t.currentMatchday.value != 0 &&
    t.totalMatchdays.Some? && t.totalMatchdays.value != 0
  }

  /** `J{currentMatchday}/{totalMatchdays}`, when it is shown. */
  function ProgressText(t: Tournament): (p: Option<string>)
    ensures p.Some? <==> ShowsProgress(t)
    ensures p.Some? ==> |p.value| > 0 && p.value[0] == 'J'
  {
    if ShowsProgress(t) then
      Some("J" + IntToString(t.currentMatchday.value) + "/" + IntToString(t.totalMatchdays.value))
    else None
  }

  /** The progress text gives back both matchday numbers: splitting it at
      the slash recovers the current and total matchday. */
  lemma {:induction false} ProgressTextDetermines(t: Tournament, u: Tournament)
    requires ShowsProgress(t) && ShowsProgress(u)
    requires ProgressText(t) == ProgressText(u)
    ensures t.currentMatchday == u.currentMatchday && t.totalMatchdays == u.totalMatchdays
  {
    var a, b := IntToString(t.currentMatchday.value), IntToString(t.totalMatchdays.value);
    var c, d := IntToString(u.currentMatchday.value), IntToString(u.totalMatchdays.value);
    NoSlash(t.currentMatchday.value);
    NoSlash(t.totalMatchdays.value);
    NoSlash(u.currentMatchday.value);
    NoSlash(u.totalMatchdays.value);
    SplitAtSlash("J" + a, b);
    SplitAtSlash("J" + c, d);
    assert "J" + a + "/" + b == "J" + c + "/" + d;
    assert ("J" + a)[1..] == a && ("J" + c)[1..] == c;
    IntToStringInjective(t.currentMatchday.value, u.currentMatchday.value);
    IntToStringInjective(t.totalMatchdays.value, u.totalMatchdays.value);
  }

  lemma NoSlash(n: int)
    ensures '/' !in IntToString(n)
  {
  }

  lemma SplitAtSlash(x: string, y: string)
    requires '/' !in x && '/' !in y
    ensures Split(x + "/" + y, '/') == [x, y]
  {
    var parts := [x, y];
    assert parts[1..] == [y];
    SplitJoin(parts, '/');
  }

  /** The card links to `/tournament/{id}`. */
  function CardLink(t: Tournament): (path: string)
    ensures StartsWith(path, BottomNav.TournamentPrefix)
    ensures path[|BottomNav.TournamentPrefix|..] == t.id
  {
    BottomNav.TournamentPrefix + t.id
  }

  /** Following the card opens that tournament's page on the standings
      tab (for an id the route pattern accepts). */
  lemma CardLinkOpensStandings(t: Tournament)
    requires |t.id| > 0 && '/' !in t.id
    ensures BottomNav.RouteNav(CardLink(t)) == BottomNav.TournamentNav(t.id, BottomNav.DefaultTab)
  {
    BottomNav.BareTournamentDefaultsToStandings(t.id);
  }
}

=== FILE: tournament_service.dfy ===
/** The API-to-domain mapping of `TournamentService`: the status and
    format normalisers, the record mappers, and the players built from
    the top-scorers response. Numeric API ids are stringified with
    `toString()`; dates are parsed by a parameter `parseDate`. */
module TournamentService {
  import opened Wrappers
  import opened Text
  import opened Domain

  // ---------------------------------------------------------------------
  // API records (the fields the mappers read)
  // ---------------------------------------------------------------------

  datatype ApiTournament = ApiTournament(
    id: int,
    name: string,
    description: string,
    status: string,
    format: string,
    playoffTeamsCount: Option<int>,
    maxTeams: int,
    startDate: string,
    endDate: string,
    logo: Option<string>)

  datatype ApiTeam = ApiTeam(teamId: int, teamName: string, teamLogo: Option<string>)

  datatype ApiStanding = ApiStanding(
    position: int,
    teamId: int,
    played: int,
    won: int,
    drawn: int,
    lost: int,
    goalsFor: int,
    goalsAgainst: int,
    goalDifference: int,
    points: int,
    form: seq<FormResult>)

  datatype ApiMatchResult = ApiMatchResult(homeScore: int, awayScore: int)

  datatype ApiMatch = ApiMatch(
    id: int,
    tournamentId: int,
    homeTeamId: int,
    awayTeamId: int,
    scheduledAt: string,
    status: string,
    round: int,
    phase: string,
    venueName: Option<string>,
    result: Option<ApiMatchResult>)

  datatype ApiTopScorer = ApiTopScorer(userId: string, name: string, teamName: string, goals: int)

  datatype ApiTopScorersResponse = ApiTopScorersResponse(tournamentId: int, topScorers: seq<ApiTopScorer>)

  // ---------------------------------------------------------------------
  // Normalisers
  // ---------------------------------------------------------------------

  /** `mapMatchStatus`: total, onto the three statuses the views know. */
  function MapMatchStatus(status: string): (r: string)
    ensures r in {"scheduled", "live", "finished"}
    ensures status == "scheduled" || status == "pending" ==> r == "scheduled"
    ensures status == "live" ==> r == "live"
    ensures status == "completed" ==> r == "finished"
  {
    if status == "scheduled" || status == "pending" then "scheduled"
    else if status == "live" then "live"
    else if status == "completed" then "finished"
    else "scheduled"
  }

  /** The preimage of each result: only `completed` becomes `finished`,
      only `live` stays `live`, and everything else (unknown values and
      `finished` itself included) becomes `scheduled`. */
  lemma MapMatchStatusPreimage(status: string)
    ensures MapMatchStatus(status) == "finished" <==> status == "completed"
    ensures MapMatchStatus(status) == "live" <==> status == "live"
    ensures MapMatchStatus(status) == "scheduled" <==> status != "completed" && status != "live"
  {
  }

  /** The API spelling of a tournament status. */
  function TournamentStatusName(s: TournamentStatus): string {
    match s
    case Active => "active"
    case Completed => "completed"
    case Upcoming => "upcoming"
  }

  /** `mapTournamentStatus`: unknown values (such as `cancelled`) fall
      back to active. */
  function MapTournamentStatus(status: string): (r: TournamentStatus)
    ensures status !in {"active", "completed", "upcoming"} ==> r == Active
  {
    if status == "active" then Active
    else if status == "completed" then Completed
    else if status == "upcoming" then Upcoming
    else Active
  }

  /** The normaliser inverts the spelling: a known status survives the
      round trip unchanged, and a string maps to `s` only if it is `s`'s
      spelling or (for `Active`) unknown. */
  lemma MapTournamentStatusRoundTrip(s: TournamentStatus, status: string)
    ensures MapTournamentStatus(TournamentStatusName(s)) == s
    ensures MapTournamentStatus(status) == s <==>
              status == TournamentStatusName(s) ||
              (s == Active && status !in {"active", "completed", "upcoming"})
  {
  }

  function TournamentFormatName(f: TournamentFormat): string {
    match f
    case League => "league"
    case Knockout => "knockout"
    case GroupKnockout => "group-knockout"
  }

  /** `mapTournamentFormat`: substring tests, `knockout` first. */
  function MapTournamentFormat(format: string): (r: TournamentFormat)
    ensures r == GroupKnockout <==> Contains(format, "knockout") && Contains(format, "group")
    ensures r == Knockout <==> Contains(format, "knockout") && !Contains(format, "group")
    ensures r == League <==> !Contains(format, "knockout")
  {
    if Contains(format, "knockout") then
      (if Contains(format, "group") then GroupKnockout else Knockout)
    else League
  }

  /** The normaliser recognises each format's own spelling. */
  lemma MapTournamentFormatRoundTrip(f: TournamentFormat)
    ensures MapTournamentFormat(TournamentFormatName(f)) == f
  {
    match f
    case League => LeagueRecognised();
    case Knockout => KnockoutRecognised();
    case GroupKnockout => GroupKnockoutRecognised();
  }

  lemma LeagueRecognised()
    ensures !Contains("league", "knockout")
  {
    NotContainedByFirstChar("league", "knockout");
  }

  lemma KnockoutRecognised()
    ensures Contains("knockout", "knockout") && !Contains("knockout", "group")
  {
    ContainsSelf("knockout");
    NotContainedByFirstChar("knockout", "group");
  }

  lemma GroupKnockoutRecognised()
    ensures Contains("group-knockout", "knockout") && Contains("group-knockout", "group")
  {
    ContainsAt("group-knockout", "knockout", 6);
    ContainsAt("group-knockout", "group", 0);
  }

  // ---------------------------------------------------------------------
  // Teams
  // ---------------------------------------------------------------------

  /** The first characters of the non-empty words, concatenated: `word[0]`
      of an empty word is `undefined`, which `join('')` writes as nothing. */
  function Initials(words: seq<string>): (r: string)
    ensures |r| <= |words|
    decreases |words|
  {
    if |words| == 0 then ""
    else (if words[0] == [] then "" else [words[0][0]]) + Initials(words[1..])
  }

  /** Number of non-empty words. */
  function CountNonEmpty(words: seq<string>): nat
    decreases |words|
  {
    if |words| == 0 then 0
    else (if words[0] == [] then 0 else 1) + CountNonEmpty(words[1..])
  }

  /** Each initial is the first character of a word, one per non-empty
      word. */
  lemma {:induction false} InitialsCount(words: seq<string>)
    ensures |Initials(words)| == CountNonEmpty(words)
    ensures forall k :: 0 <= k < |Initials(words)| ==>
              exists w :: w in words && w != [] && w[0] == Initials(words)[k]
    decreases |words|
  {
    if |words| > 0 {
      InitialsCount(words[1..]);
      var rest := Initials(words[1..]);
      var r := Initials(words);
      forall k | 0 <= k < |r| ensures exists w :: w in words && w != [] && w[0] == r[k] {
        if words[0] != [] && k == 0 {
          assert words[0] in words;
        } else {
          var j := if words[0] == [] then k else k - 1;
          assert r[k] == rest[j];
          var w :| w in words[1..] && w != [] && w[0] == rest[j];
          assert w in words;
        }
      }
    }
  }

  /** `teamName.split(' ').map(w => w[0]).join('').substring(0, 3)` */
  function ShortName(teamName: string): (sn: string)
    ensures |sn| <= 3
    ensures sn <= Initials(Split(teamName, ' '))
  {
    var initials := Initials(Split(teamName, ' '));
    if |initials| <= 3 then initials else initials[..3]
  }

  /** The short name has one letter per word, up to three, and every
      letter starts a word of the name. */
  lemma ShortNameLetters(teamName: string)
    ensures var words := Split(teamName, ' ');
            |ShortName(teamName)| == if CountNonEmpty(words) < 3 then CountNonEmpty(words) else 3
    ensures forall k :: 0 <= k < |ShortName(teamName)| ==>
              exists w :: w in Split(teamName, ' ') && w != [] && w[0] == ShortName(teamName)[k]
  {
    var words := Split(teamName, ' ');
    InitialsCount(words);
    var sn := ShortName(teamName);
    forall k | 0 <= k < |sn| ensures exists w :: w in words && w != [] && w[0] == sn[k] {
      assert sn[k] == Initials(words)[k];
    }
  }

  const DefaultPrimary: string := "#1f2937"
  const DefaultSecondary: string := "#374151"

  /** `mapApiTeamToTeam` */
  function MapTeam(t: ApiTeam): (team: Team)
    ensures team.id == IntToString(t.teamId) && team.name == t.teamName
    ensures team.shortName == ShortName(t.teamName) && team.logo == t.teamLogo
    ensures team.country == "Unknown" && team.colors == TeamColors(DefaultPrimary, DefaultSecondary)
    ensures team.founded.None? && team.city.None? && team.members.None? && team.membersCount.None?
  {
    Team(IntToString(t.teamId), t.teamName, ShortName(t.teamName), t.teamLogo, None, None,
         "Unknown", TeamColors(DefaultPrimary, DefaultSecondary), None, None)
  }

  /** Distinct API team ids give distinct team ids. */
  lemma MapTeamIdsDistinct(a: ApiTeam, b: ApiTeam)
    requires a.teamId != b.teamId
    ensures MapTeam(a).id != MapTeam(b).id
  {
    if MapTeam(a).id == MapTeam(b).id {
      IntToStringInjective(a.teamId, b.teamId);
    }
  }

  // ---------------------------------------------------------------------
  // Standings, matches, tournaments
  // ---------------------------------------------------------------------

  /** `mapApiStandingToStanding` */
  function MapStanding(s: ApiStanding): (r: Standing)
    ensures r.teamId == IntToString(s.teamId)
    ensures r.position == s.position && r.played == s.played
    ensures r.won == s.won && r.drawn == s.drawn && r.lost == s.lost
    ensures r.goalsFor == s.goalsFor && r.goalsAgainst == s.goalsAgainst
    ensures r.goalDifference == s.goalDifference && r.points == s.points
    ensures r.form == Some(s.form)
  {
    Standing(IntToString(s.teamId), s.position, s.played, s.won, s.drawn, s.lost,
             s.goalsFor, s.goalsAgainst, s.goalDifference, s.points, Some(s.form))
  }

  /** Standings mapping loses nothing: the API record is recovered from
      the mapped one (the id through its decimal rendering). */
  function UnmapStanding(r: Standing, teamId: int): ApiStanding {
    ApiStanding(r.position, teamId, r.played, r.won, r.drawn, r.lost,
                r.goalsFor, r.goalsAgainst, r.goalDifference, r.points, r.form.GetOr([]))
  }

  lemma MapStandingLossless(s: ApiStanding, t: ApiStanding)
    ensures UnmapStanding(MapStanding(s), s.teamId) == s
    ensures MapStanding(s) == MapStanding(t) ==> s == t
  {
    if MapStanding(s) == MapStanding(t) {
      IntToStringInjective(s.teamId, t.teamId);
    }
  }

  /** `mapApiMatchToMatch`: ids stringified, the round becomes the
      matchday, scores come from the result, the status is normalised.
      The team names, goals and events are not copied. */
  function MapMatch(m: ApiMatch, parseDate: string -> int): (r: Match)
    ensures r.id == IntToString(m.id) && r.tournamentId == IntToString(m.tournamentId)
    ensures r.homeTeamId == IntToString(m.homeTeamId) && r.awayTeamId == IntToString(m.awayTeamId)
    ensures r.matchday == Some(m.round) && r.round.None?
    ensures m.result.Some? ==> r.homeScore == Some(m.result.value.homeScore) &&
                               r.awayScore == Some(m.result.value.awayScore)
    ensures m.result.None? ==> r.homeScore.None? && r.awayScore.None?
    ensures r.status == MapMatchStatus(m.status) && r.status in {"scheduled", "live", "finished"}
    ensures r.venue == m.venueName && r.phase == Some(m.phase) && r.date == parseDate(m.scheduledAt)
    ensures r.homeTeamName.None? && r.awayTeamName.None? && r.result.None?
    ensures r.goals.None? && r.events.None?
  {
    Match(IntToString(m.id), IntToString(m.tournamentId), IntToString(m.homeTeamId),
          IntToString(m.awayTeamId),
          if m.result.Some? then Some(m.result.value.homeScore) else None,
          if m.result.Some? then Some(m.result.value.awayScore) else None,
          parseDate(m.scheduledAt), Some(m.round), None, Some(m.phase),
          MapMatchStatus(m.status), m.venueName, None, None, None, None, None)
  }

  /** A mapped match shows its score in the fixture list exactly when the
      API match is completed and has a result. */
  lemma MappedMatchScoreShown(m: ApiMatch, parseDate: string -> int)
    ensures var r := MapMatch(m, parseDate);
            (r.status == "finished" && r.homeScore.Some? && r.awayScore.Some?) <==>
            (m.status == "completed" && m.result.Some?)
  {
    MapMatchStatusPreimage(m.status);
  }

  /** `mapApiTournamentToTournament`. The season is the start year,
      given by `yearOf` on the parsed start date. */
  function MapTournament(t: ApiTournament, parseDate: string -> int, yearOf: int -> int): (r: Tournament)
    ensures r.id == IntToString(t.id) && r.name == t.name
    ensures r.season == IntToString(yearOf(parseDate(t.startDate)))
    ensures r.country == "" && r.region == Some("")
    ensures r.status == MapTournamentStatus(t.status) && r.format == MapTournamentFormat(t.format)
    ensures r.startDate == parseDate(t.startDate) && r.endDate == parseDate(t.endDate)
    ensures r.teamCount == t.maxTeams && r.description == Some(t.description) && r.logo == t.logo
    ensures r.currentMatchday.None? && r.totalMatchdays.None?
    ensures r.playoffTeamsCount == t.playoffTeamsCount
  {
    var start := parseDate(t.startDate);
    Tournament(IntToString(t.id), t.name, IntToString(yearOf(start)), "", Some(""),
               MapTournamentStatus(t.status), start, parseDate(t.endDate), t.logo,
               MapTournamentFormat(t.format), t.maxTeams, Some(t.description), None, None,
               t.playoffTeamsCount)
  }

  // ---------------------------------------------------------------------
  // Top scorers and players
  // ---------------------------------------------------------------------

  /** One scorer's statistics: `parseInt` of an integer's decimal text is
      the integer itself; everything but the goals is zero. */
  function ScorerStats(tournamentId: int, s: ApiTopScorer): (p: PlayerStats)
    ensures p.playerId == s.userId && p.tournamentId == IntToString(tournamentId)
    ensures p.goals == s.goals && p.averageGoalsPerGame == s.goals as real
    ensures p.assists == 0 && p.matches == 0 && p.minutesPlayed == 0
    ensures p.yellowCards == 0 && p.redCards == 0
  {
    PlayerStats(s.userId, IntToString(tournamentId), s.goals, 0, 0, 0, 0, 0, s.goals as real)
  }

  /** `mapApiTopScorersToPlayerStats`: one-to-one and in order. */
  function MapTopScorers(r: ApiTopScorersResponse): (stats: seq<PlayerStats>)
    ensures |stats| == |r.topScorers|
    ensures forall i :: 0 <= i < |stats| ==>
              stats[i].playerId == r.topScorers[i].userId && stats[i].goals == r.topScorers[i].goals
    ensures forall i :: 0 <= i < |stats| ==> stats[i] == ScorerStats(r.tournamentId, r.topScorers[i])
  {
    seq(|r.topScorers|, i requires 0 <= i < |r.topScorers| => ScorerStats(r.tournamentId, r.topScorers[i]))
  }

  /** The `teamId` of a scorer's player: the id of the first mapped team
      with the scorer's team name, or `'1'` when there is none (or its id
      is empty). */
  function ScorerTeamId(teams: seq<Team>, teamName: string): (id: string)
    ensures id != []
    ensures (forall i :: 0 <= i < |teams| ==> teams[i].name != teamName) ==> id == "1"
    ensures forall i ::
              (0 <= i < |teams| && teams[i].name == teamName && teams[i].id != [] &&
               forall j :: 0 <= j < i ==> teams[j].name != teamName) ==> id == teams[i].id
    decreases |teams|
  {
    if |teams| == 0 then "1"
    else if teams[0].name == teamName then (if teams[0].id != [] then teams[0].id else "1")
    else ScorerTeamId(teams[1..], teamName)
  }

  /** The players of `getTournamentData`: one forward per scorer. */
  function ScorerPlayers(r: ApiTopScorersResponse, teams: seq<Team>): (players: seq<Player>)
    ensures |players| == |r.topScorers|
    ensures forall i :: 0 <= i < |players| ==>
              players[i] == Player(r.topScorers[i].userId, r.topScorers[i].name, FWD,
                                   ScorerTeamId(teams, r.topScorers[i].teamName), None, Some("Unknown"))
  {
    seq(|r.topScorers|, i requires 0 <= i < |r.topScorers| =>
      Player(r.topScorers[i].userId, r.topScorers[i].name, FWD,
             ScorerTeamId(teams, r.topScorers[i].teamName), None, Some("Unknown")))
  }

  /** Each scorer's statistics and player share the scorer's id, so the
      two lists line up one-to-one. */
  lemma ScorerStatsMatchPlayers(r: ApiTopScorersResponse, teams: seq<Team>)
    ensures var stats := MapTopScorers(r);
            var players := ScorerPlayers(r, teams);
            |stats| == |players| && forall i :: 0 <= i < |stats| ==> stats[i].playerId == players[i].id
  {
  }

  /** A scorer whose team is among the mapped API teams gets that team's
      id: the lookup by name finds the first team of that name. */
  lemma ScorerTeamFound(apiTeams: seq<ApiTeam>, k: int, teamName: string)
    requires 0 <= k < |apiTeams| && apiTeams[k].teamName == teamName
    requires forall j :: 0 <= j < k ==> apiTeams[j].teamName != teamName
    ensures ScorerTeamId(MapTeams(apiTeams), teamName) == IntToString(apiTeams[k].teamId)
  {
    var teams := MapTeams(apiTeams);
    assert teams[k].name == teamName && teams[k].id != [];
  }

  function MapTeams(apiTeams: seq<ApiTeam>): (teams: seq<Team>)
    ensures |teams| == |apiTeams|
    ensures forall i :: 0 <= i < |teams| ==> teams[i] == MapTeam(apiTeams[i])
  {
    seq(|apiTeams|, i requires 0 <= i < |apiTeams| => MapTeam(apiTeams[i]))
  }
  // ---------------------------------------------------------------------
  // getTournamentData
  // ---------------------------------------------------------------------

  /** `getTournamentData`: the five responses of the parallel requests,
      each `None` when its request rejects. One rejection makes the whole
      call `null`; otherwise every record goes through its mapper and the
      players are built from the scorers against the mapped teams. */
  function GetTournamentData(tournament: Option<ApiTournament>, standings: Option<seq<ApiStanding>>,
                             teams: Option<seq<ApiTeam>>, topScorers: Option<ApiTopScorersResponse>,
                             matches: Option<seq<ApiMatch>>, parseDate: string -> int, yearOf: int -> int)
    : (r: Option<TournamentData>)
    ensures r.Some? <==> tournament.Some? && standings.Some? && teams.Some? && topScorers.Some? && matches.Some?
    ensures r.Some? ==> r.value.tournament == MapTournament(tournament.value, parseDate, yearOf)
    ensures r.Some? ==> r.value.teams == MapTeams(teams.value)
    ensures r.Some? ==>
              && |r.value.standings| == |standings.value|
              && forall i :: 0 <= i < |standings.value| ==> r.value.standings[i] == MapStanding(standings.value[i])
    ensures r.Some? ==>
              && |r.value.matches| == |matches.value|
              && forall i :: 0 <= i < |matches.value| ==> r.value.matches[i] == MapMatch(matches.value[i], parseDate)
    ensures r.Some? ==> r.value.playerStats == MapTopScorers(topScorers.value)
    ensures r.Some? ==> r.value.players == ScorerPlayers(topScorers.value, r.value.teams)
  {
    if tournament.None? || standings.None? || teams.None? || topScorers.None? || matches.None? then None
    else
      var ss, ms := standings.value, matches.value;
      var mappedTeams := MapTeams(teams.value);
      Some(TournamentData(
        MapTournament(tournament.value, parseDate, yearOf),
        mappedTeams,
        ScorerPlayers(topScorers.value, mappedTeams),
        seq(|ms|, i requires 0 <= i < |ms| => MapMatch(ms[i], parseDate)),
        seq(|ss|, i requires 0 <= i < |ss| => MapStanding(ss[i])),
        MapTopScorers(topScorers.value)))
  }

  /** In a loaded tournament every statistic has its player: the i-th
      statistic and the i-th player carry the same id, and each player's
      team is a mapped team or the fallback `1`. */
  lemma LoadedStatsHavePlayers(tournament: Option<ApiTournament>, standings: Option<seq<ApiStanding>>,
                               teams: Option<seq<ApiTeam>>, topScorers: Option<ApiTopScorersResponse>,
                               matches: Option<seq<ApiMatch>>, parseDate: string -> int, yearOf: int -> int)
    requires GetTournamentData(tournament, standings, teams, topScorers, matches, parseDate, yearOf).Some?
    ensures var d := GetTournamentData(tournament, standings, teams, topScorers, matches, parseDate, yearOf).value;
            && |d.playerStats| == |d.players|
            && (forall i :: 0 <= i < |d.players| ==> d.playerStats[i].playerId == d.players[i].id)
            && (forall i :: 0 <= i < |d.players| ==>
                  d.players[i].teamId == "1" || FindTeam(d.teams, d.players[i].teamId).Some?)
  {
    var d := GetTournamentData(tournament, standings, teams, topScorers, matches, parseDate, yearOf).value;
    ScorerStatsMatchPlayers(topScorers.value, d.teams);
    forall i | 0 <= i < |d.players|
      ensures d.players[i].teamId == "1" || FindTeam(d.teams, d.players[i].teamId).Some?
    {
      ScorerTeamIdFound(d.teams, topScorers.value.topScorers[i].teamName);
    }
  }

  /** The looked-up id is the fallback or the id of some team. */
  lemma {:induction false} ScorerTeamIdFound(teams: seq<Team>, teamName: string)
    ensures ScorerTeamId(teams, teamName) == "1" || FindTeam(teams, ScorerTeamId(teams, teamName)).Some?
    decreases |teams|
  {
    if |teams| > 0 && !(teams[0].name == teamName && teams[0].id != []) {
      ScorerTeamIdFound(teams[1..], teamName);
      var id := ScorerTeamId(teams, teamName);
      if id != "1" {
        var j :| 0 <= j < |teams[1..]| && teams[1..][j].id == id;
        assert teams[j + 1].id == id;
      }
    }
  }
}

=== FILE: wrappers.dfy ===
/** Optional values: the model's stand-in for `undefined`/`null` in the
    TypeScript records. */
module Wrappers {

  datatype Option<+T> = None | Some(value: T) {

    /** `x ?? d` for a value that may be undefined. */
    function GetOr(default: T): (r: T)
      ensures Some? ==> r == value
      ensures None? ==> r == default
    {
      match this
      case Some(v) => v
      case None => default
    }
  }
}
